=== FILE: README.md ===
# Rendering Resource Manager — a Dafny model

The Rendering Resource Manager is a web service. It opens **sessions** for
users of remote renderers (brayns, rtneuron, livre). For each session it
starts a renderer, either as a local process, as a SLURM allocation reached
over ssh, or as a UNICORE job. It then forwards the client's HTTP requests
to that renderer. Each session holds:

- an owner;
- a rendering resource (a configuration);
- a status: STOPPED, SCHEDULED, STARTING, RUNNING or STOPPING;
- the host and port of the renderer;
- the process id or job id that backs it;
- a validity deadline.

A keep-alive thread stops and deletes every session whose deadline has
passed. A settings registry holds the rendering resource configurations, and
their REST parameter templates are filled in with the renderer's host, port
and schema. An administration view suspends or resumes session creation and
keeps a session alive. Three browser-side clients drive the service:

- the JavaScript viewer frame;
- the viewer page's form;
- the QML demo launcher.

This project models that core as pure functions over immutable data and
proves what they promise. Each module follows one source file:

| module | models |
|---|---|
| `Models` | session records, status codes, global settings |
| `SessionManager` | create, delete, suspend, resume, clear, status query, keep-alive |
| `KeepAlive` | the expiry sweep |
| `SettingsManager` | the configuration registry and the REST-parameter template |
| `ProcessManager` | local processes |
| `SlurmJobManager` | the SLURM allocation loop, the salloc command line, the start script |
| `UnicoreJobManager` | UNICORE jobs |
| `ImageFeed` | the image-streaming route |
| `Tools` | request-header copying, `str2bool` |
| `JobCommon` | the job record defaults, module loads, launch lines |
| `SessionViews` | request routing, scheduling, forwarding |
| `AdminViews` | the administration commands |
| `Frame` | the JavaScript viewer frame |
| `ViewerForm` | the viewer page's form |
| `QmlLauncher` | the QML demo launcher |

`Common` holds the shared `Option` type, the `Response` record, the HTTP
codes and the two JSON reply bodies. `Text` holds ASCII versions of the
string functions Python provides: `replace`, `split` with and without a
separator, `join`, `partition` and `lower`, plus the decimal conversions and
the regular-expression searches the job managers use. Letter case and
whitespace are those of ASCII only (see "## Left out").

Everything outside the program is a parameter: the database, the clock,
ssh and subprocess calls, `os.kill`, HTTP requests to renderers and the
browser's XHR. Each operation receives the outside world's reply as an
argument. The model fixes exactly how the reply is used, never what it is.
For example, the SLURM allocation loop takes one scontrol/salloc reply per
host. A forwarded request takes the renderer's transport outcome. The
status query takes the vocabulary reply and the job's host name.

## Model

| member | source | states |
|---|---|---|
| Models.Code | rendering_resource_manager_service/session/models.py:11-15 | The five defined statuses have codes 0 to 4; SCHEDULING and FAILED have none |
| Models.StatusOf | rendering_resource_manager_service/session/models.py:11-15 | A code names a status exactly when it lies in 0..4 |
| Models.CodeRoundTrip | rendering_resource_manager_service/session/models.py:11-15 | Decoding a status's code gives back the status, and encoding a decoded code gives back the code |
| Models.CodeInjective | rendering_resource_manager_service/session/models.py:11-15 | Distinct statuses never share a code |
| Models.NewSession | rendering_resource_manager_service/session/models.py:23-34 | A new session is STOPPED (code 0) with no process (pid -1), no job, no host and port 0, valid until now plus the timeout |
| Models.Closing | rendering_resource_manager_service/session/management/keep_alive_thread.py:50-52 | Closing a session sets its status to STOPPING and changes nothing else |
| Models.StopCalls | rendering_resource_manager_service/session/management/session_manager.py:138-142 | The process is stopped exactly when the pid is not -1 and the job exactly when a job id is set, process first |
| Models.DefaultGlobalSettings | rendering_resource_manager_service/session/models.py:53-55 | The stored global settings default to creation allowed and a timeout of 1000 |
| Models.InitialGlobalSettings | rendering_resource_manager_service/session/management/session_manager.py:53-65 | The manager starts with creation allowed and the 600-second keep-alive timeout |
| SessionManager.InitialState | rendering_resource_manager_service/session/management/session_manager.py:53-65 | The manager starts with no session and with creation allowed |
| SessionManager.CreateSession | rendering_resource_manager_service/session/management/session_manager.py:68-97 | 403 exactly when creation is suspended; otherwise 409 exactly when the id exists, else 201 with a new STOPPED session; every other session kept |
| SessionManager.DeleteSession | rendering_resource_manager_service/session/management/session_manager.py:127-152 | An unknown id answers 404 and changes nothing; a known one is saved as STOPPING and its process, then its job, are stopped; it is removed with 200 unless a stop raised, when it stays saved as STOPPING, 404 carries the failure, and a failing process stop means the job is never stopped |
| SessionManager.ProcessStopFailureKeepsJob | rendering_resource_manager_service/session/management/session_manager.py:141-152 | When stopping the process raises, the job manager is never asked to stop the job, the reply is 404 and the session with its job stays |
| SessionManager.CreateThenDelete | rendering_resource_manager_service/tests/test_session_manager.py:49-58 | A session just created is deleted with 200 and the registry is back to what it was |
| SessionManager.CreateTwice | rendering_resource_manager_service/tests/test_session_manager.py:60-72 | Creating an id a second time answers 409 and leaves the state the first creation made |
| SessionManager.CreatedSessionReportsStopped | rendering_resource_manager_service/tests/test_session_manager.py:126-138 | A freshly created session's status reply carries code 0 |
| SessionManager.SuspendSessions | rendering_resource_manager_service/session/management/session_manager.py:164-177 | Suspending forbids creation, answers 200 with a message saying whether it was already suspended, and keeps every session and the timeout |
| SessionManager.ResumeSessions | rendering_resource_manager_service/session/management/session_manager.py:189-201 | Resuming allows creation, answers 200 with a message saying whether it was already resumed, and keeps every session and the timeout |
| SessionManager.SuspendIdempotent | rendering_resource_manager_service/session/management/session_manager.py:169-175 | A second suspend changes nothing and reports creation already suspended |
| SessionManager.ResumeIdempotent | rendering_resource_manager_service/session/management/session_manager.py:193-199 | A second resume changes nothing and reports creation already resumed |
| SessionManager.SuspendResumeRoundTrip | rendering_resource_manager_service/session/management/session_manager.py:163-201 | Suspend then resume restores a manager that allowed creation, and resume then suspend restores one that did not |
| SessionManager.SuspendedRefusesCreate | rendering_resource_manager_service/tests/test_session_manager.py:104-113 | After a suspend every creation answers 403 with the suspended message and changes nothing |
| SessionManager.ClearSessions | rendering_resource_manager_service/session/management/session_manager.py:180-186 | Clearing removes every session and keeps the settings |
| SessionManager.VocabularyUrl | rendering_resource_manager_service/session/management/session_manager.py:214-215 | The vocabulary address is an http address on the renderer's host (its full form is tied to the forwarding address by SessionViews.VocabularyIsForwardedAddress) |
| SessionManager.RequestVocabulary | rendering_resource_manager_service/session/management/session_manager.py:204-230 | For a reply read as the two lists, or a transport error: an unknown id answers 404; for a known one the answer is 200 with the renderer's text exactly when the vocabulary is defined, else the status error with 'No vocabulary defined' or the transport error |
| SessionManager.RequestVocabularyFetched | rendering_resource_manager_service/session/management/session_manager.py:211-230 | For a known session a body that is no JSON or lacks one of the lists raises its ValueError or KeyError, since only URLError is caught; an unknown id answers 404; a readable reply is answered as by the vocabulary request |
| SessionManager.StatusHttpCode | rendering_resource_manager_service/session/management/session_manager.py:298-307 | The status query answers 200 for a known session and 404 for an unknown one |
| SessionManager.RefreshedExpiry | rendering_resource_manager_service/session/management/session_manager.py:254-258 | An expired session's deadline moves to now plus the timeout; an unexpired one keeps its deadline |
| SessionManager.QueryStatus | rendering_resource_manager_service/session/management/session_manager.py:233-307 | One status step with the STOPPING row reported once it is deleted: the session is missing exactly when unknown; the status changes exactly when SCHEDULED with a host or STARTING with a vocabulary; the session is dropped exactly when STOPPING, or STARTING with neither vocabulary nor host; a kept one only gets the new status and refreshed deadline; other sessions are untouched |
| SessionManager.QueryStatusAsWritten | rendering_resource_manager_service/session/management/session_manager.py:289-293 | As written, querying a STOPPING session deletes it and then saves it again, which raises; every other status is answered as by the corrected query |
| SessionManager.StoppingQueryAsWrittenRaises | rendering_resource_manager_service/session/management/session_manager.py:289-293 | A STOPPING session is gone after the query either way; as written the caller gets the exception, while the corrected query reports the session as terminating with status code 4 |
| SessionManager.QueryKeepsSettledStatus | rendering_resource_manager_service/session/management/session_manager.py:259-296 | STOPPED and RUNNING sessions keep their status through a query |
| SessionManager.QueryKeepsUnexpired | rendering_resource_manager_service/session/management/session_manager.py:254-258 | When the deadline has not passed and the status does not move, the query leaves the state exactly as it was |
| SessionManager.QueryStatusFetched | rendering_resource_manager_service/session/management/session_manager.py:253-276 | The query raises exactly for a known STARTING session whose vocabulary body cannot be read, with its refreshed deadline saved and its status unchanged; a readable reply gives the status query |
| SessionManager.UnreadableVocabularyMattersOnlyWhenStarting | rendering_resource_manager_service/session/management/session_manager.py:259-296 | Outside STARTING an unreadable vocabulary body gives the same answer and table as any other reply, since the vocabulary is not asked for |
| SessionManager.KeepAliveSession | rendering_resource_manager_service/session/management/session_manager.py:310-326 | A known session's deadline becomes now plus the timeout with 200; an unknown id answers 404 and changes nothing |
| SessionManager.KeepAliveDefersExpiry | rendering_resource_manager_service/session/management/session_manager.py:319-320 | After a keep-alive the session counts as unexpired at every time up to the timeout later |
| SessionManager.SessionIdFromRequest | rendering_resource_manager_service/session/management/session_manager.py:338-349 | The id is the session cookie when present, otherwise a new id |
| KeepAlive.SurvivorsExact | rendering_resource_manager_service/session/management/keep_alive_thread.py:47 | A session survives the sweep exactly when its deadline is not strictly past |
| KeepAlive.SweepCallsOnlyExpired | rendering_resource_manager_service/session/management/keep_alive_thread.py:47-56 | Every stop call the sweep makes is for an expired session |
| KeepAlive.SweepStopsEveryExpired | rendering_resource_manager_service/session/management/keep_alive_thread.py:53-56 | Every expired session's process and job are stopped |
| KeepAlive.Sweep | rendering_resource_manager_service/session/management/keep_alive_thread.py:44-58 | The loop computes the pass: it ends at the first expired session whose stop raises, exactly when there is one; when none raises it keeps exactly the unexpired sessions in order, makes the expired ones' stop calls, and keeps no expired session |
| KeepAlive.PassCrashExact | rendering_resource_manager_service/session/management/keep_alive_thread.py:44-58 | A pass ends early exactly when some expired session's process or job stop raises, since nothing in the loop catches it |
| KeepAlive.PassWithoutFaults | rendering_resource_manager_service/session/management/keep_alive_thread.py:44-58 | When no stop raises, the pass removes exactly the expired sessions and stops each of their processes and jobs |
| KeepAlive.PassStopsAtFault | rendering_resource_manager_service/session/management/keep_alive_thread.py:50-58 | At the first raising stop the sessions before it are swept, it stays saved as STOPPING with only the stops before the raising one made, and every later session stays untouched, expired or not |
| KeepAlive.FaultCalls | rendering_resource_manager_service/session/management/keep_alive_thread.py:53-56 | A session whose stop raises gets a leading part of its usual stop calls: the process stop alone when that raises |
| KeepAlive.SweepState | rendering_resource_manager_service/session/management/keep_alive_thread.py:44-58 | For a pass in which no stop raises, the registry afterwards holds the unexpired sessions unchanged and nothing else |
| KeepAlive.KeepAliveSurvivesSweep | rendering_resource_manager_service/session/management/keep_alive_thread.py:47 | A session kept alive survives every sweep up to the timeout later |
| KeepAlive.SweepIdempotent | rendering_resource_manager_service/session/management/keep_alive_thread.py:44-58 | A second sweep at the same time changes nothing |
| SettingsManager.FromParams | rendering_resource_manager_service/config/management/rendering_resource_settings_manager.py:52-70 | The configuration record takes its id lower-cased and leaves the memory, which creation does not set, at its default |
| SettingsManager.Create | rendering_resource_manager_service/config/management/rendering_resource_settings_manager.py:46-79 | A new lower-cased id is stored with 201; an existing one answers 409 and changes nothing |
| SettingsManager.Update | rendering_resource_manager_service/config/management/rendering_resource_settings_manager.py:82-110 | An existing configuration is replaced with 200; an unknown one answers 404 and changes nothing |
| SettingsManager.Delete | rendering_resource_manager_service/config/management/rendering_resource_settings_manager.py:132-144 | The exact id given (not lower-cased) is removed with 200 when stored, 404 otherwise; every other configuration is kept |
| SettingsManager.Clear | rendering_resource_manager_service/config/management/rendering_resource_settings_manager.py:163-169 | Clearing empties the registry |
| SettingsManager.GetById | rendering_resource_manager_service/config/management/rendering_resource_settings_manager.py:124-129 | The stored configuration is found exactly when its id is present |
| SettingsManager.CreateThenDelete | rendering_resource_manager_service/config/management/rendering_resource_settings_manager.py:137-144 | Deleting a configuration just created restores the registry |
| SettingsManager.CreateThenGet | rendering_resource_manager_service/config/management/rendering_resource_settings_manager.py:52-72 | A configuration just created is found under its lower-cased id, and not under a differently-cased id |
| SettingsManager.CreateTwice | rendering_resource_manager_service/config/management/rendering_resource_settings_manager.py:76-79 | Creating the same id a second time answers 409 and changes nothing |
| SettingsManager.FormatWithoutPlaceholders | rendering_resource_manager_service/config/management/rendering_resource_settings_manager.py:156-160 | A template without placeholders comes back unchanged |
| SettingsManager.FormatRestParameters | rendering_resource_manager_service/config/management/rendering_resource_settings_manager.py:147-160 | The host placeholder is replaced first, then the port, then the schema: each replacement cuts the text at the placeholder's occurrences and joins the pieces with the value |
| SettingsManager.FormatWithPlaceholderValues | rendering_resource_manager_service/config/management/rendering_resource_settings_manager.py:156-160 | Filling each placeholder with its own text is the identity |
| SettingsManager.FormatExample | rendering_resource_manager_service/tests/test_rendering_resource_settings_manager.py:254-258 | `--rest ${rest_hostname}:${rest_port}` becomes `--rest localhost:3000` |
| SettingsManager.FormatNodeNameExample | rendering_resource_manager_service/tests/test_rendering_resource_settings_manager.py:278-282 | `$SLURMD_NODENAME` passes through and only the port is filled in |
| SettingsManager.JobIdPlaceholderKept | rendering_resource_manager_service/tests/test_rendering_resource_settings_manager.py:290-294 | `${job_id}` is left in the output: the function has no job id to put there |
| SettingsManager.PlaceholderCanBeSpliced | rendering_resource_manager_service/config/management/rendering_resource_settings_manager.py:157-159 | Substituting in sequence can assemble a host placeholder out of a port placeholder, so the output can still hold one |
| ProcessManager.ProcessSchema | rendering_resource_manager_service/session/management/process_manager.py:43 | The REST schema is 'rest' followed by the configuration's id and the session's id |
| ProcessManager.Argv | rendering_resource_manager_service/session/management/process_manager.py:45-53 | The argument vector is the configuration's executable, then the words of the filled-in REST parameters, then the words of the session parameters |
| ProcessManager.ArgvEndsWithParameters | rendering_resource_manager_service/session/management/process_manager.py:45-53 | The words of the session's own parameters always end the argument vector, unchanged |
| ProcessManager.ArgvWithPlainTemplate | rendering_resource_manager_service/session/management/process_manager.py:39-47 | A REST template without placeholders is passed through word for word, whatever the host, port and schema |
| ProcessManager.Start | rendering_resource_manager_service/session/management/process_manager.py:30-69 | The configuration is looked up by the lower-cased renderer id: when missing, 404 and the session is unchanged; when found, that argument vector is spawned, and either the operating system's refusal escapes, or 200 with the session given the pid and STARTING |
| ProcessManager.StartIgnoresEnvironment | rendering_resource_manager_service/session/management/process_manager.py:55-62 | The environment argument changes neither the command spawned nor the reply |
| ProcessManager.StartThenStop | rendering_resource_manager_service/session/management/process_manager.py:59-64 | A session started from a renderer id stored in lower case has a process, and a later stop sends SIGTERM to exactly the pid the start recorded |
| ProcessManager.StopError | rendering_resource_manager_service/session/management/process_manager.py:114-138 | A stop raises exactly when the session has a process and no settings record is stored under its renderer id as written, and the raise carries the lookup's message; every operating system failure is answered instead |
| ProcessManager.StopKillingWhen | rendering_resource_manager_service/session/management/process_manager.py:108-138 | No process answers 404; an unknown configuration raises; SIGTERM is sent exactly when both exist; SIGKILL exactly when SIGTERM succeeded and the kill is chosen; an exit request exactly for a graceful-exit configuration; a reap follows exactly when every signal sent succeeded; 200 exactly when the reap succeeded too, and a refused reap (no child left) answers 400 with the refusal |
| ProcessManager.StopAsWritten | rendering_resource_manager_service/session/management/process_manager.py:90-104 | As written, SIGKILL is sent only when the process is no longer alive |
| ProcessManager.StopAsWrittenSparesLiveProcess | rendering_resource_manager_service/session/management/process_manager.py:97-101 | As written, a process still alive after SIGTERM is never killed, yet the reply is 200 |
| ProcessManager.Stop | rendering_resource_manager_service/session/management/process_manager.py:108-138 | SIGKILL is sent exactly when the process outlived a successful SIGTERM, so a 200 reply means the process is gone or was killed |
| ImageFeed.DoRequest | rendering_resource_manager_service/session/management/image_feed_manager.py:98-119 | A delivered reply answers 200 with its body; an HTTP error its code and reason; an unreachable service 401 and the reason |
| ImageFeed.RouteUri | rendering_resource_manager_service/session/management/image_feed_manager.py:48-54 | The route document is the JSON object whose uri is an http address on the session's host |
| ImageFeed.RouteRequest | rendering_resource_manager_service/session/management/image_feed_manager.py:105-110 | Every request goes to the service's /route with the session cookie, the verb and the data given |
| ImageFeed.GetRoute | rendering_resource_manager_service/session/management/image_feed_manager.py:70-96 | A route found is returned as it is; 404 leads to one POST of the session's address, and a second GET only when the POST succeeded; every other outcome is 400 |
| ImageFeed.UnreachableServiceAddsNothing | rendering_resource_manager_service/session/management/image_feed_manager.py:92-96 | An unreachable service answers 400 naming it, and only GET requests are sent |
| Tools.FormatHeaderName | rendering_resource_manager_service/utils/tools.py:36-42 | A formatted header name holds no underscore |
| Tools.HeaderNameRoundTrip | rendering_resource_manager_service/utils/tools.py:42 | For capitalised words, formatting the HTTP_ key built from them gives back the words joined by dashes |
| Tools.ContentTypeExample | rendering_resource_manager_service/utils/tools.py:42 | HTTP_CONTENT_TYPE becomes Content-Type |
| Tools.MetaHeaders | rendering_resource_manager_service/utils/tools.py:43-44 | Every HTTP_ key is copied under its formatted name, and every copied header comes, with its value, from such a key |
| Tools.GetRequestHeaders | rendering_resource_manager_service/utils/tools.py:30-46 | The HTTP_ headers are copied as MetaHeaders copies them, and Cookie holds the request's cookies |
| Tools.LastHeaderWins | rendering_resource_manager_service/utils/tools.py:36-46 | Adding an HTTP_ item overrides every earlier item with the same header name, except that the Cookie header always comes from the cookies |
| Tools.Str2BoolIgnoresCase | rendering_resource_manager_service/utils/tools.py:49-55 | The result depends only on the lower-cased text |
| Tools.Str2Bool | rendering_resource_manager_service/utils/tools.py:49-55 | Text is true exactly when its lower-cased form is yes, true, on or 1: only text of one to four characters can be true, and each of those words is true as written |
| Tools.Str2BoolExamples | rendering_resource_manager_service/utils/tools.py:53-55 | TRUE, Yes, On and 1 are true; false, the empty text and y are false |
| JobCommon.DefaultJobInformation | rendering_resource_manager_service/session/management/job_manager.py:52-67 | A job record starts with empty parameters, environment and time, an empty reservation, not exclusive, and zero nodes, cpus, gpus and memory |
| JobCommon.LoadLines | rendering_resource_manager_service/session/management/slurm_job_manager.py:150-153 | Each module becomes one 'module load' line, in order |
| JobCommon.ModuleLoadsAreLines | rendering_resource_manager_service/session/management/slurm_job_manager.py:150-153 | The module-load text is exactly those lines, each ended by a line break |
| JobCommon.SplitModuleLoads | rendering_resource_manager_service/session/management/unicore_job_manager.py:317-320 | Splitting a script at line breaks gives back one load line per module ahead of whatever follows |
| JobCommon.EnvironmentWords | rendering_resource_manager_service/session/management/unicore_job_manager.py:323-327 | The environment part of a launch line consists of whitespace-free words |
| JobCommon.LaunchLineWords | rendering_resource_manager_service/session/management/unicore_job_manager.py:322-341 | The launch line's words are the configuration's environment, the job's environment, then, only when the configuration's environment text is non-empty, the command and every REST and job parameter |
| SlurmJobManager.OptionWords | rendering_resource_manager_service/session/management/slurm_job_manager.py:403-429 | The salloc options hold --exclusive when exclusive, -N and the count when nodes are asked, -c, --gres=gpu: and --mem= with the job's or the configuration's values, and the reservation when one is named |
| SlurmJobManager.ExclusiveOnlyWhenAsked | rendering_resource_manager_service/session/management/slurm_job_manager.py:404-405 | `--exclusive` appears exactly when the job or the configuration asks for an exclusive allocation |
| SlurmJobManager.NodesOnlyWhenNonZero | rendering_resource_manager_service/session/management/slurm_job_manager.py:407-411 | A node count appears exactly when it is not zero |
| SlurmJobManager.ReservationOnlyWhenGiven | rendering_resource_manager_service/session/management/slurm_job_manager.py:428-429 | Without a reservation no --reservation= option appears |
| SlurmJobManager.OptionsAreSpacedWords | rendering_resource_manager_service/session/management/slurm_job_manager.py:403-429 | The option text is exactly those words, each after one space |
| SlurmJobManager.AllocationTime | rendering_resource_manager_service/session/management/slurm_job_manager.py:431-433 | The job's own time is used when set, the configured default otherwise |
| SlurmJobManager.AllocationCommandWords | rendering_resource_manager_service/session/management/slurm_job_manager.py:437-445 | The allocation command splits into exactly the ssh words, the salloc words and the option words |
| SlurmJobManager.AllocationCommand | rendering_resource_manager_service/session/management/slurm_job_manager.py:392-445 | The allocation command, with the `--immediate` timeout taken from the deployment configuration, starts with the ssh command to the session's cluster node and ends with the optional salloc flags: exclusive, node count, resources and reservation |
| SlurmJobManager.Trying | rendering_resource_manager_service/session/management/slurm_job_manager.py:91-93 | Each attempt marks the session SCHEDULING on the host tried |
| SlurmJobManager.AllocateFrom | rendering_resource_manager_service/session/management/slurm_job_manager.py:88-130 | Given the settings found for the renderer and a defined allocation timeout: trying hosts leaves the session SCHEDULING, FAILED or SCHEDULED with its renderer unchanged; a 200 reply means SCHEDULED with a job id on one of the hosts; some reply always results once a host was tried; no script is handed to ssh |
| SlurmJobManager.Allocate | rendering_resource_manager_service/session/management/slurm_job_manager.py:78-130 | Given the settings found for the renderer and a defined allocation timeout, allocation produces a reply exactly when hosts are configured, keeps the session's renderer and hands no script to ssh |
| SlurmJobManager.AllocateStopsAtFirstGrant | rendering_resource_manager_service/session/management/slurm_job_manager.py:107-121 | The first granting host is kept with the job id its reply names, and 200 (a grant without a number raises); with no grant the last host is kept, 400 is returned, and the status is SCHEDULING or FAILED as that host was unreachable or refused |
| SlurmJobManager.Query | rendering_resource_manager_service/session/management/slurm_job_manager.py:322-351 | A failed ssh or a cancelled job gives the empty text; output without a job state gives nothing; any other value is the word after the attribute |
| SlurmJobManager.Hostname | rendering_resource_manager_service/session/management/slurm_job_manager.py:285-295 | The host name is absent or empty exactly when the BatchHost query is |
| SlurmJobManager.HostnameFromScontrol | rendering_resource_manager_service/session/management/slurm_job_manager.py:285-295 | For scontrol text of a job in a state other than CANCELLED that names its batch host, the reported host is that batch host followed by the cluster node's domain |
| SlurmJobManager.CancelledJobHasNoHost | rendering_resource_manager_service/session/management/slurm_job_manager.py:322-351 | A job scontrol shows as CANCELLED has an empty host, whatever else the text holds |
| SlurmJobManager.HostnameKeepsClusterDomain | rendering_resource_manager_service/session/management/slurm_job_manager.py:292-294 | A batch host found is suffixed with the domain of the cluster node the job was allocated on |
| SlurmJobManager.FileName | rendering_resource_manager_service/session/management/slurm_job_manager.py:354-362 | A log file name is the output prefix and the job id, ending in the given suffix |
| SlurmJobManager.LogFilesDistinct | rendering_resource_manager_service/session/management/slurm_job_manager.py:361-362 | The output and error files of a job differ |
| SlurmJobManager.RenderingResourceLog | rendering_resource_manager_service/session/management/slurm_job_manager.py:364-389 | The log is fetched exactly for STARTING and RUNNING sessions, by ssh and cat on the allocated node, and is the printed text; otherwise it is not available |
| SlurmJobManager.StartScriptLines | rendering_resource_manager_service/session/management/slurm_job_manager.py:148-179 | The start script's lines are module purge, one load per module, the launch line redirected to the log files, and nothing after the final line break |
| SlurmJobManager.StartScript | rendering_resource_manager_service/session/management/slurm_job_manager.py:148-179 | The script opens with module purge and ends by sending the launch line to the background and ending the line |
| SlurmJobManager.Start | rendering_resource_manager_service/session/management/slurm_job_manager.py:132-214 | Given the settings found for the renderer, the start with the template filled from its four arguments: it answers 200 exactly when the shell running ssh is spawned and takes the script, 400 exactly when the shell cannot be spawned, and raises the write error otherwise; the session is then RUNNING exactly when the shell ran and need not wait, STARTING otherwise, and nothing else in it changes; exactly a start whose shell ran hands over ssh to the session's host with the start script for that session and job |
| SlurmJobManager.StartSendsScript | rendering_resource_manager_service/session/management/slurm_job_manager.py:148-195 | A start whose shell runs sends ssh to the session's host a script whose lines are module purge, one load per module and the redirected launch line, with nothing after the final line break |
| SlurmJobManager.Schedule | rendering_resource_manager_service/session/management/slurm_job_manager.py:64-76 | Given the settings found for the renderer: without hosts the allocation has no reply and reading it raises; an allocation answer other than 200 is the schedule's answer; a 200 leaves the session holding a job on one of the hosts, RUNNING or STARTING; a script is handed to ssh exactly on a 200, and it is the start script for the allocated session, sent to the host read from scontrol |
| SlurmJobManager.AllocateWithLookup | rendering_resource_manager_service/session/management/slurm_job_manager.py:78-130 | With a defined allocation timeout, each host's command is built from the settings stored under the lower-cased renderer id: a missing record raises on the first host with the session saved as SCHEDULING there; with no hosts the lookup never happens and there is no reply; a stored record gives the allocation with it |
| SlurmJobManager.StartWithLookup | rendering_resource_manager_service/session/management/slurm_job_manager.py:142-146 | The session is saved as STARTING before the lookup, so a missing record raises with the session STARTING; a stored record gives the start with it |
| SlurmJobManager.ScheduleWithLookup | rendering_resource_manager_service/session/management/slurm_job_manager.py:64-76 | Schedule with both lookups is the schedule with the stored settings when the renderer has them, and the allocation's raise when it has none and hosts are configured; it always ends in a reply or a raise |
| SlurmJobManager.UnknownRendererNeverScheduled | rendering_resource_manager_service/session/management/slurm_job_manager.py:400-401 | A renderer without stored settings is never scheduled: the schedule raises, the session gets no job, and it stays SCHEDULING on the first host |
| SlurmJobManager.KnownRendererScheduledAsFound | rendering_resource_manager_service/session/management/slurm_job_manager.py:64-76 | With stored settings the renderer starts exactly when the allocation answers 200 and the node's name can be read |
| SlurmJobManager.AllocateAsWritten | rendering_resource_manager_service/session/management/slurm_job_manager.py:88-130 | As written, with hosts configured the session is saved as SCHEDULING on the first host and the call raises there: the undefined allocation timeout when the renderer's settings are stored, the missing-record error when not; no host gives no reply; nothing is handed to ssh |
| SlurmJobManager.ScheduleAsWritten | rendering_resource_manager_service/session/management/slurm_job_manager.py:64-76 | As written every schedule raises, keeps the session's job id and hands nothing to ssh: with hosts it is the allocation's raise, without hosts the indexing of the missing reply |
| SlurmJobManager.AllocateAsWrittenNeverAllocates | rendering_resource_manager_service/session/management/slurm_job_manager.py:440 | Even when the first host would grant the allocation, the schedule as written raises the undefined timeout and leaves the session SCHEDULING there without a job, while the corrected allocation is granted there with the job number from the reply |
| SlurmJobManager.StartAsWritten | rendering_resource_manager_service/session/management/slurm_job_manager.py:142-168 | As written the session is saved as STARTING and the launch line's five-argument call of the four-parameter template filler raises a TypeError before ssh runs |
| SlurmJobManager.StartAsWrittenNeverLaunches | rendering_resource_manager_service/session/management/slurm_job_manager.py:163-168 | Whatever the shell would do, the start as written raises, hands nothing to ssh and leaves the session STARTING, while the corrected start hands the script over and answers 200 when the shell runs |
| SlurmJobManager.StartThenLogAvailable | rendering_resource_manager_service/session/management/slurm_job_manager.py:364-389 | After a start, corrected or as written, the session's log is read from the cluster node |
| SlurmJobManager.ScheduleStartsOnlyAfterAllocation | rendering_resource_manager_service/session/management/slurm_job_manager.py:64-76 | Scheduling reaches STARTING or RUNNING exactly when the allocation answered 200 and the host name is known, and a running session keeps the allocation's job and node |
| UnicoreJobManager.NotRunningExactlyWhenFinished | rendering_resource_manager_service/session/management/unicore_job_manager.py:166-174 | A job counts as running exactly when its status is neither SUCCESSFUL nor FAILED |
| UnicoreJobManager.RequestedNodes | rendering_resource_manager_service/session/management/unicore_job_manager.py:271 | At least one node is requested: the job's node count when it is positive, one otherwise |
| UnicoreJobManager.Allocate | rendering_resource_manager_service/session/management/unicore_job_manager.py:243-285 | With the start script built from the session's renderer id: the job asks for a bash shell on input.sh with the requested nodes; a submitted job records its URL as job id, marks the session SCHEDULED and answers 200; a refusal answers 403 with the error and keeps the session |
| UnicoreJobManager.AllocateAsWritten | rendering_resource_manager_service/session/management/unicore_job_manager.py:231-232 | As written a refused submission answers 403, and an accepted one raises while the start script reads the session's configuration id, after the job is submitted |
| UnicoreJobManager.AllocateAsWrittenLosesJob | rendering_resource_manager_service/session/management/unicore_job_manager.py:307-308 | An accepted job is lost as written, since the reply is an exception and no session records it; the corrected allocation records the job URL and schedules the session |
| UnicoreJobManager.StartScriptLines | rendering_resource_manager_service/session/management/unicore_job_manager.py:300-343 | The script's lines are the fixed preamble, one load per module, the launch line and the closing quote |
| UnicoreJobManager.StartScript | rendering_resource_manager_service/session/management/unicore_job_manager.py:300-343 | The script opens with the fixed preamble lines and ends with a line break and the closing quote |
| UnicoreJobManager.Start | rendering_resource_manager_service/session/management/unicore_job_manager.py:345-374 | With the settings looked up under the renderer id: starting answers 200 exactly when the start action succeeds, 400 otherwise; the session becomes RUNNING exactly when it succeeded and need not wait, and nothing else changes |
| UnicoreJobManager.StartAsWritten | rendering_resource_manager_service/session/management/unicore_job_manager.py:355-363 | As written a failed start action answers 400 with the session unchanged, and a successful one is followed by the read of the session's configuration id, whose error escapes with the session unchanged |
| UnicoreJobManager.HostnameAsWritten | rendering_resource_manager_service/session/management/unicore_job_manager.py:441-442 | As written the host lookup of a READY job whose start action succeeds raises the start's error with the session unchanged; every other case is the corrected lookup |
| UnicoreJobManager.StartAsWrittenNeverRuns | rendering_resource_manager_service/session/management/unicore_job_manager.py:355-363 | A job whose start action succeeds never runs as written: the start and the READY host lookup raise and leave the session as it was, while the corrected start answers 200 and the corrected lookup raises nothing |
| UnicoreJobManager.AllocateThenStart | rendering_resource_manager_service/session/management/unicore_job_manager.py:345-374 | A submitted job whose corrected start succeeds answers 200 with the job URL kept, and runs at once unless the settings ask to wait, when it stays SCHEDULED; the start as written raises for that same job |
| UnicoreJobManager.Stop | rendering_resource_manager_service/session/management/unicore_job_manager.py:376-402 | Stopping saves the session as STOPPING and reports an error exactly when the delete did not answer 204 |
| UnicoreJobManager.StopIdempotent | rendering_resource_manager_service/session/management/unicore_job_manager.py:376-402 | Stopping twice has the same effect as stopping once |
| UnicoreJobManager.GetFileContent | rendering_resource_manager_service/session/management/unicore_job_manager.py:485-505 | A file is downloaded exactly when its size is known and within the limit, and its content is returned exactly when that download answered 200 |
| UnicoreJobManager.Hostname | rendering_resource_manager_service/session/management/unicore_job_manager.py:425-459 | With the corrected start: a READY job is started and a finished one stopped, both with no host yet; a host is reported only from the HOSTNAME= word of the job's downloaded log, and then the session becomes STARTING |
| UnicoreJobManager.FinishedJobIsStopped | rendering_resource_manager_service/session/management/unicore_job_manager.py:441-444 | Asking a finished job for its host stops it exactly as stop does and gives no host |
| UnicoreJobManager.OversizedLogGivesNoHost | rendering_resource_manager_service/session/management/unicore_job_manager.py:445-456 | A running job whose log is over the download limit gives no host, and the session is unchanged |
| UnicoreJobManager.LoggedHostIsReported | rendering_resource_manager_service/session/management/unicore_job_manager.py:445-456 | A running job whose downloadable log names its host after HOSTNAME= reports that host and moves the session to STARTING |
| SessionViews.Field | rendering_resource_manager_service/session/views.py:214-223 | A request field reads as its value when present and as the empty text when missing |
| SessionViews.ScheduleJob | rendering_resource_manager_service/session/views.py:253-263 | The session handed to the job manager has no host and a port in the renderer range, with nothing else changed; the reply is the job manager's whenever it returns one |
| SessionViews.ScheduleCommandReply | rendering_resource_manager_service/session/views.py:228-229 | The schedule command changes no session itself; its reply is the job manager's, or 500 carrying the trace of what the job manager raised |
| SessionViews.ScheduledSessionIsLookedUp | rendering_resource_manager_service/session/views.py:258 | A session handed to the job manager has its host cleared, so once it holds a job the next status check asks the job manager for the host |
| SessionViews.OpenProcess | rendering_resource_manager_service/session/views.py:266-284 | A session with a process is refused with 401 and nothing changes; a spawn refused by the operating system escapes unsaved and nothing changes; otherwise the session gets the renderer host and a port in range, and the process's pid and STARTING when its configuration exists; other sessions are untouched |
| SessionViews.OpenTwiceRefused | rendering_resource_manager_service/session/views.py:274-284 | After a successful open, a second open answers 401 'process is already started' and changes nothing |
| SessionViews.VerifyHostname | rendering_resource_manager_service/session/views.py:306-330 | A session that needs no lookup passes unchanged; otherwise an empty host name waits with 404, the failed-host marker deletes the session with 404, and any other name is saved as the session's host with 200 |
| SessionViews.ResolvedHostIsKept | rendering_resource_manager_service/session/views.py:312-330 | Once the host is resolved, a second check changes nothing and reports the host |
| SessionViews.CodeText | rendering_resource_manager_service/session/management/session_manager.py:298-302 | A status code prints as its digits, and a status without a code prints as null |
| SessionViews.StatusBody | rendering_resource_manager_service/session/management/session_manager.py:298-303 | An unknown session's body is the message; a known one's is the JSON object with code, description and session_id in that order, which is Python 2's dictionary order for these keys, holding the status code, the description and the id |
| SessionViews.StatusOfCreatedSession | rendering_resource_manager_service/session/views.py:346-367 | A session just created needs no host lookup, so its status reply is 200 with code 0 first and its own id last |
| SessionViews.SessionStatus | rendering_resource_manager_service/session/views.py:346-366 | A failed host check is the answer; otherwise the session manager's status query runs on the checked state, answering 200 exactly for a known session, which moves by one status step. One job-manager host name feeds both the host check and the query's job check, which the source asks for in two separate calls |
| SessionViews.RenderingResourceLog | rendering_resource_manager_service/session/views.py:333-343 | The log view answers 200 with the job manager's log for a session with a job, and the empty text otherwise |
| SessionViews.LogCommandReply | rendering_resource_manager_service/session/views.py:235-237 | The log command changes nothing and answers 200 with the job manager's log, or empty text for a session without a job |
| SessionViews.ForwardUrl | rendering_resource_manager_service/session/views.py:385 | The forwarded address is an http address on the renderer's host, ending in / and the command |
| SessionViews.VocabularyIsForwardedAddress | rendering_resource_manager_service/session/management/session_manager.py:214-215 | The vocabulary address is the address a forwarded vocabulary command goes to |
| SessionViews.CheckBytes | rendering_resource_manager_service/session/views.py:397-409 | A delivered reply answers 200 with its data exactly when every declared byte arrived, else 400 naming the missing count |
| SessionViews.ForwardRequestAsWritten | rendering_resource_manager_service/session/views.py:410-421 | As written, no reply is produced exactly when the status check passed, the renderer is unreachable, a job exists and the job was not found failed |
| SessionViews.ForwardRequest | rendering_resource_manager_service/session/views.py:369-421 | A failed status check is the answer; a delivered reply goes through the byte check; an unreachable renderer always answers 400, saying it could not be contacted unless the job was found failed |
| SessionViews.ForwardAgreesWhereAnswered | rendering_resource_manager_service/session/views.py:377-421 | Wherever the code as written replies, the corrected forward gives the same reply and state |
| SessionViews.ForwardAsWrittenLosesReply | rendering_resource_manager_service/session/views.py:412-421 | A running session with a job whose renderer does not answer gets no reply as written, and 400 once corrected |
| SessionViews.Reply | rendering_resource_manager_service/session/views.py:241-250 | A handler's reply is returned; a missing cookie answers 404 naming it; any other exception answers 500 with its trace |
| SessionViews.Dispatch | rendering_resource_manager_service/session/views.py:227-240 | Any command other than schedule, open, status and log is forwarded to the renderer; schedule and log change no session; status and log always produce a reply, while schedule and open can end in an exception |
| SessionViews.Execute | rendering_resource_manager_service/session/views.py:201-250 | An unknown session answers 404 'Session does not exist'; a known one dispatches the command with the params and environment fields and answers its reply |
| SessionViews.MissingFieldsAreEmpty | rendering_resource_manager_service/session/views.py:214-223 | A request without params or environment behaves like one with both empty |
| SessionViews.LocalCommandsAreNotForwarded | rendering_resource_manager_service/session/views.py:228-239 | What the renderer would answer does not change a local command's outcome |
| SessionViews.LocalDispatchIgnoresForward | rendering_resource_manager_service/session/views.py:228-237 | What the renderer would answer does not change how a local command is dispatched |
| AdminViews.Refusal | rendering_resource_manager_service/admin/views.py:65-66 | An unknown command answers 401, naming it |
| AdminViews.AdminCommandAsWritten | rendering_resource_manager_service/admin/views.py:52-56 | As written, keep-alive raises before touching any session; the other commands behave as the corrected ones |
| AdminViews.AdminCommand | rendering_resource_manager_service/admin/views.py:46-66 | Every command replies; keep-alive is the session manager's keep-alive on the request's session id; suspend forbids and resume allows creation with 200, keeping every session; anything else answers 401 and changes nothing |
| AdminViews.KeepAliveAsWrittenRaises | rendering_resource_manager_service/admin/views.py:53 | For a known session the command as written gives no reply, while the corrected one answers 200 'successfully updated' |
| AdminViews.KeepAliveDefersCookieSession | rendering_resource_manager_service/admin/views.py:53-55 | The corrected keep-alive moves the cookie's session's deadline to now plus the timeout |
| AdminViews.SuspendThenCreateRefused | rendering_resource_manager_service/admin/views.py:57-60 | After the suspend command every creation answers 403 |
| Frame.SessionParams | apps/JSViewer/app/scripts/frame.js:46-49 | The session is opened for the viewer's owner and the chosen renderer |
| Frame.LoadRequests | apps/JSViewer/app/scripts/frame.js:361-368 | Loading sends a DELETE and then a POST of the session parameters to /session/ |
| Frame.UnloadRequests | apps/JSViewer/app/scripts/frame.js:356-359 | Unloading sends one DELETE to /session/ |
| Frame.UnloadRepeatsLoadDelete | apps/JSViewer/app/scripts/frame.js:356-368 | The request unloading sends is the DELETE that loading starts with |
| Frame.BraynsFlags | apps/JSViewer/app/scripts/frame.js:165-184 | Only brayns flags are ever passed |
| Frame.BraynsFlagsFollowForm | apps/JSViewer/app/scripts/frame.js:165-184 | The exobj renderer is always chosen; each of ambient occlusion, soft shadows and electron shading appears exactly when ticked, no-shading exactly when shading is not, and the high or low quality flag as production quality is ticked or not |
| Frame.DataSourceOption | apps/JSViewer/app/scripts/frame.js:186-195 | brayns gets --<type>-folder, livre --volume <type>://, rtneuron -b before the data source; any other renderer gets nothing |
| Frame.StartParameters | apps/JSViewer/app/scripts/frame.js:159-195 | The start parameters are the form's own parameters, then the selected brayns flags for brayns and nothing for the other backends, then the backend's data source option |
| Frame.BraynsStartParametersCarryFlags | apps/JSViewer/app/scripts/frame.js:159-195 | Every flag the form selects occurs in the brayns start parameters, among them ambient occlusion when ticked and the quality production quality asks for |
| Frame.Resolution | apps/JSViewer/app/scripts/frame.js:199-217 | 1k and 2k give 1920x1080, 4k 3840x2160, dw 7680x3240, anything else 800x400 |
| Frame.ResolutionsAreLandscape | apps/JSViewer/app/scripts/frame.js:202-217 | Every resolution is wider than it is tall, and positive |
| Frame.AddOption | apps/JSViewer/app/scripts/frame.js:220-225 | An option is appended when absent and the parameters are kept as they were when it is present |
| Frame.BufferOptions | apps/JSViewer/app/scripts/frame.js:219-225 | The buffer width and height options end up present, appended after the parameters, and nothing is added when both already are |
| Frame.BufferOptionsIdempotent | apps/JSViewer/app/scripts/frame.js:219-225 | Adding the buffer options twice, whatever the sizes, changes nothing the second time |
| Frame.AddHint | apps/JSViewer/app/scripts/frame.js:227-234 | A hint is appended when absent, first without a comma on empty hints, and nothing changes when it is present |
| Frame.WindowHints | apps/JSViewer/app/scripts/frame.js:226-235 | The window width and height hints end up present, appended after the existing hints |
| Frame.NoLeadingComma | apps/JSViewer/app/scripts/frame.js:228-232 | Hints that did not start with a comma still do not |
| Frame.WindowHintsIdempotent | apps/JSViewer/app/scripts/frame.js:226-235 | Adding the window hints twice, whatever the sizes, changes nothing the second time |
| Frame.RendererParams | apps/JSViewer/app/scripts/frame.js:219-240 | brayns gets the buffer options in its parameters and keeps the environment; other renderers get the start parameters and the window hints in their environment |
| Frame.StartRenderer | apps/JSViewer/app/scripts/frame.js:156-259 | 201 sends the schedule request with the renderer parameters; 409 retries after the start delay; any other reply is shown |
| Frame.ScheduleReply | apps/JSViewer/app/scripts/frame.js:242-249 | 200 starts polling; any other reply is shown; nothing is sent |
| Frame.StartRendererOneWay | apps/JSViewer/app/scripts/frame.js:158-258 | A session reply leads to exactly one of: the schedule request, a retry, or showing the error |
| Frame.PollRequests | apps/JSViewer/app/scripts/frame.js:86-135 | Each poll asks for /session/status and /session/log |
| Frame.StatusCallback | apps/JSViewer/app/scripts/frame.js:87-124 | A failed reply is shown; a 200 updates the status; requests follow exactly for a RUNNING session before the first image or while rendering continuously, starting with the vocabulary and asking for the camera exactly for brayns |
| Frame.PollQuietAfterFirstImage | apps/JSViewer/app/scripts/frame.js:94-96 | Without continuous rendering, nothing is requested once the first image arrived |
| Frame.VocabularyCallback | apps/JSViewer/app/scripts/frame.js:99-111 | A 200 vocabulary reply leads to exactly one image-feed request, any other to none |
| Frame.ImageFeedCallback | apps/JSViewer/app/scripts/frame.js:104-109 | The image feed reply marks the first image retrieved and sets the source to http:// and the URI, changing nothing else |
| Frame.LogHtml | apps/JSViewer/app/scripts/frame.js:130 | The converted log holds no line breaks, and a log without line breaks is kept as it is |
| Frame.LogHtmlAppend | apps/JSViewer/app/scripts/frame.js:130 | Converting a joined log converts each part |
| Frame.LogHtmlBreak | apps/JSViewer/app/scripts/frame.js:130 | A single carriage return or line feed becomes one HTML break |
| Frame.LogHtmlLineEnd | apps/JSViewer/app/scripts/frame.js:130 | A carriage return and line feed between two lines become two HTML breaks |
| Frame.LogCallback | apps/JSViewer/app/scripts/frame.js:126-134 | A 200 log reply is shown converted; any other leaves the panel as it was |
| Frame.Scaling | apps/JSViewer/app/scripts/frame.js:318-321 | rtneuron's camera distance is scaled by 1000, every other renderer's by 1 |
| Frame.Render | apps/JSViewer/app/scripts/frame.js:310-354 | The counter always advances; a zero depth sends nothing and keeps the matrix; any other move sends the camera matrix: brayns takes the position, other renderers the rotation and scaled depth when the angle is in range and the unchanged matrix when it is not |
| Frame.RenderIdempotent | apps/JSViewer/app/scripts/frame.js:310-354 | Applying the same move to the matrix it produced gives the same matrix |
| Frame.CameraCallback | apps/JSViewer/app/scripts/frame.js:113-118 | The CAMERA reply sets the camera to the first three entries of the returned matrix, and yields no position when it has fewer than three |
| Frame.EchoedCameraMirrors | apps/JSViewer/app/scripts/frame.js:113-118 | When brayns echoes the matrix the page sent, the camera comes back with x and z negated |
| Frame.EchoTwiceRestores | apps/JSViewer/app/scripts/frame.js:113-118 | Two echoes in a row give the original camera position back |
| ViewerForm.PopulateParams | apps/JSViewer/app/scripts/main.js:44-78 | The data source is cleared with type unknown and the environment cleared; only rtneuron gets default parameters; the three brayns options are enabled exactly for brayns |
| ViewerForm.NothingElseChanges | apps/JSViewer/app/scripts/main.js:44-78 | Selecting a renderer changes only the fields it writes; the options' ticks, the resolution and continuous rendering are kept |
| ViewerForm.LivreIsTheDefault | JSViewer/app/scripts/main.js:43-56 | Any renderer other than brayns and rtneuron leaves the form as livre does |
| ViewerForm.LastSelectionWins | apps/JSViewer/app/scripts/main.js:44-78 | Only the last selection decides the form |
| ViewerForm.SelectionIdempotent | JSViewer/app/scripts/main.js:24-58 | Selecting the same renderer again changes nothing |
| QmlLauncher.Initial | apps/QMLDemoLauncher/utils.js:25-28 | The launcher starts in NONE with no demo |
| QmlLauncher.CreateSession | apps/QMLDemoLauncher/utils.js:63-66 | The launcher records the demo and posts to /session/ the launcher's owner and the demo, with the demo as HBP header |
| QmlLauncher.OnDone | apps/QMLDemoLauncher/utils.js:41-51 | NONE moves to CREATED and sends the schedule PUT; CREATED moves back to NONE sending nothing; any other status stays; every request carries the demo |
| QmlLauncher.OnDoneIgnoresStatus | apps/QMLDemoLauncher/utils.js:42 | The transition depends only on completion, not on the HTTP status |
| QmlLauncher.LaunchCycle | apps/QMLDemoLauncher/utils.js:38-70 | A launch sends exactly the post and the schedule and ends back in NONE with the demo |
| QmlLauncher.NeverRunning | apps/QMLDemoLauncher/utils.js:25-51 | The launcher never enters RUNNING |
| QmlLauncher.StatusRequest | apps/QMLDemoLauncher/utils.js:87-88 | The status request is a GET carrying the demo as HBP header |
| QmlLauncher.StatusSignal | apps/QMLDemoLauncher/utils.js:72-85 | The signal is the description of a JSON reply, or the raw text when it is not JSON |

## Left out

- Database storage, Django request objects, ssh and subprocess calls, the outcomes of `os.kill` and `os.waitpid`, urllib2 requests and the browser's XHR and DOM are parameters. Each operation takes the outside world's reply as an argument: vocabulary replies, host names, scontrol and salloc output, transport outcomes and HTTP statuses.
- The clock and `random.randint` are parameters too: the current time is an argument, and the port a schedule or open picks is the one the world supplies. The port range is stated for worlds whose offset is within 0..1000.
- Locks, the keep-alive thread's loop, `time.sleep`, `setInterval` and `setTimeout` are not modelled. A sweep, a poll tick and a reply callback are each one call.
- The frame's floating-point camera maths (`Math.asin`, the rotation matrices) is not modelled. The rotation is a parameter and the angle guard a boolean. `Frame.Scaling` and `Frame.Render` use exact reals.
- `job_manager.py` is used only for the job record's defaults. It repeats the SLURM builders and refers to names it does not define. The views and the session manager call `job_manager.JobManager` and `job_manager.globalJobManager`, and neither is defined anywhere, so their answers (host name, log, schedule, stop) are parameters.
- SettingsManager.FormatRestParameters: it is modelled with the four arguments it declares, so `${job_id}` is never replaced (`SettingsManager.JobIdPlaceholderKept`). Both job managers call it with a fifth argument, which raises a TypeError; those calls are listed under Findings, and the corrected job managers pass four.
- SettingsManager.PlaceholderCanBeSpliced: the promise that the output holds no placeholder when the values hold none is false, because substituting one placeholder can complete another. The lemma exhibits this instead of proving the promise.
- SessionManager.QueryStatus: it keeps the deletion that the STOPPING branch evidently means and reports the session as terminating. The `save` that follows the deletion raises; that is listed under Findings and modelled by `SessionManager.QueryStatusAsWritten`.
- Models.Code: the SLURM job manager imports SESSION_STATUS_SCHEDULING and SESSION_STATUS_FAILED from the session model, which defines neither, so that module cannot load. The model keeps the SLURM manager anyway and gives these two statuses no code; printing `null` for them in a status reply (`SessionViews.CodeText`) is a modelling choice, not something the source does.
- The session manager imports `SystemGlobalSettings` from the configuration models, which do not define it (the session models do), so that import fails as written. The model uses the session models' definition (`Models.DefaultGlobalSettings`).
- Session records carry `renderer_id` only. The UNICORE start script's read of `configuration_id` raises (see Findings); the corrected script uses the renderer id.
- SettingsManager.FromParams: `create` does not set the memory field, and the configuration model that would give its default is not part of this model, so a default of 0 is assumed.
- JSON escaping is not modelled for any reply body: `ContentsJson`, `MessageJson` and `SessionViews.StatusBody` insert their text as it is, so a quote or backslash in a description or id is not escaped as `json.dumps` would.
- The UNICORE site listing, OIDC authentication, file upload, the internals of job submission, `clear_jobs` and `kill` are not modelled. Only their outcomes enter, as parameters.
- The SLURM `stop`, `kill` and `job_information` are not modelled. The session manager's and the sweep's stop calls are recorded as calls (`Models.StopCalls`).
- ImageFeed `remove_route` is not modelled: no operation of this model issues it. `add_route` is the POST inside `ImageFeed.GetRoute`.
- The views' own `format_header_name` is the same function as the one in `tools.py`, and `Tools.FormatHeaderName` models both.
- QmlLauncher.StatusSignal: a JSON reply without `description` signals JavaScript's `undefined`, which is modelled as no value.
- Text.Lower: letter case is folded for ASCII letters only. Python 2's `unicode.lower()` also folds other letters, so a renderer id with a non-ASCII capital is looked up differently.
- Text.IsWhitespace: only ASCII whitespace separates words. Python 2's `unicode.split()` also splits on other Unicode spaces, for example in module lists and environment variables.
- UnicoreJobManager.Start: the corrected start takes the settings already found under the renderer id, so a renderer without stored settings is not modelled there. As written, the lookup is never reached (see Findings).
- The frame's CAMERA reply is assumed to be JSON with a `matrix` array. A reply that does not parse throws inside the callback, and that is not modelled.
- SlurmJobManager.AllocationCommand: the `--immediate` timeout is a deployment value (`SlurmConfig.allocationTimeout`). As written it is read from the session manager's settings module, which does not define it, so building the command raises (see Findings and `SlurmJobManager.AllocateAsWritten`).
- SlurmJobManager.AllocateFrom: it is the corrected loop, built with a defined timeout. As written its 200 and 400 paths are never reached, because the first host's command raises.
- SlurmJobManager.Allocate: it is the corrected allocation. As written it raises on the first host (`SlurmJobManager.AllocateAsWritten`).
- SlurmJobManager.AllocateWithLookup: with a stored record it gives the corrected allocation. As written the undefined timeout raises there.
- SlurmJobManager.Schedule: it composes the corrected allocation and start. As written every schedule raises (`SlurmJobManager.ScheduleAsWritten`).
- SlurmJobManager.Start: the shell is run with `shell=True` and no exit status is read, so a failed ssh still answers 200 and saves RUNNING or STARTING. Only a shell that cannot be spawned answers 400. A failed write of the script (an IOError) escapes and is modelled as the raise of `WriteFailed`. What ssh does on the node is not modelled.
- SessionManager.RequestVocabulary: it takes a reply already read as the two lists, or a transport error. A body that cannot be read is modelled by `SessionManager.RequestVocabularyFetched` and `SessionManager.QueryStatusFetched`.
- SessionViews.SessionStatus: the views take the vocabulary reply already read. The raise of an unreadable body is modelled at the session manager (`SessionManager.QueryStatusFetched`), not carried through the views.
- KeepAlive.SweepState: it describes a pass in which no stop raises. The table order and a pass that a raising stop ends early are modelled by `KeepAlive.Sweep` and `KeepAlive.Pass`.
- ProcessManager.StopError: only the missing settings record raises out of `stop`; an OSError from `os.kill` is caught and answered, and other exception kinds from the operating system are not modelled.
- SessionViews.ScheduleJob: the job manager's own effects on the session are not modelled. They come back only as its reply.
- The session listing and retrieval views, the serializers, the URL routing, the Django settings and the deployment files only wire the core and are not modelled.
- The frame's unused `getImage` and `toFixedDown` are not modelled.

## Findings

| source | as written | input that shows it | evidently intended | confidence | as-written member | corrected member |
|---|---|---|---|---|---|---|
| rendering_resource_manager_service/session/management/process_manager.py:97-101 | After SIGTERM the pid is probed with signal 0, and SIGKILL is sent only in the `except` branch, i.e. when the probe raises because the process is gone | a process that ignores SIGTERM: the probe succeeds, so it is never killed | kill the process when it is still alive after SIGTERM | not executed | ProcessManager.StopAsWrittenSparesLiveProcess | ProcessManager.StopKillingWhen |
| rendering_resource_manager_service/session/views.py:410-421 | When the renderer cannot be reached, a reply is built only when the job has failed or the session has no job; otherwise the function falls off its end and returns None | a forwarded command while the job is running but the renderer's port does not answer yet | answer with an error reply in every case | not executed | SessionViews.ForwardAsWrittenLosesReply | SessionViews.ForwardRequest |
| rendering_resource_manager_service/admin/views.py:53 | The keep-alive branch calls `get_session_id_from_request` on the session manager module, which defines it only as a static method of `SessionManager` | any `keepalive` admin command: it raises AttributeError before touching the session | look the id up through the class and defer that session's expiry | not executed | AdminViews.KeepAliveAsWrittenRaises | AdminViews.AdminCommand |
| rendering_resource_manager_service/session/management/slurm_job_manager.py:163-168 | `start` saves the session as STARTING and then calls `format_rest_parameters` with five arguments, a job id last, while it takes four | any SLURM schedule whose allocation succeeds: the TypeError escapes before ssh runs | fill the template from its four arguments and launch the renderer | not executed | SlurmJobManager.StartAsWritten | SlurmJobManager.Start |
| rendering_resource_manager_service/session/management/slurm_job_manager.py:440 | `_build_allocation_command` reads `SLURM_ALLOCATION_TIMEOUT` from the session manager's settings module (session_manager_settings.py), which does not define it; the host loop catches only OSError | any SLURM allocation with a host configured and the renderer's settings stored: the AttributeError escapes with the session saved as SCHEDULING on the first host, and no salloc runs | take the timeout from the deployment configuration and run salloc on each host in turn | not executed | SlurmJobManager.AllocateAsWrittenNeverAllocates | SlurmJobManager.AllocateWithLookup |
| rendering_resource_manager_service/session/management/unicore_job_manager.py:307-308 | the start script reads `session.configuration_id`, which the session model lacks, after the job is submitted; the five-argument template call at lines 330-335 would fail next | any UNICORE allocation the site accepts: the AttributeError is not the RuntimeError `allocate` catches, so the submitted job is never recorded | build the script from the renderer id and record the job | not executed | UnicoreJobManager.AllocateAsWritten | UnicoreJobManager.Allocate |
| rendering_resource_manager_service/session/management/session_manager.py:289-293 | the STOPPING branch deletes the session and then calls `save` on it; the deletion cleared its primary key, so the save inserts a row without an id and raises | a status query for a STOPPING session: the view answers 500 with the trace instead of the status | report the session as terminating and leave it deleted | not executed | SessionManager.QueryStatusAsWritten | SessionManager.QueryStatus |
| rendering_resource_manager_service/session/management/unicore_job_manager.py:355-363 | once the job's start action succeeds, `start` looks the settings up under `session.configuration_id` and builds its reply from it; the session model has no such field, and the AttributeError is neither the RuntimeError nor the OSError `start` catches | any UNICORE start whose action succeeds: the renderer is never marked RUNNING and the caller gets the exception | look the settings up under the renderer id and answer 200 | not executed | UnicoreJobManager.StartAsWritten | UnicoreJobManager.Start |
| rendering_resource_manager_service/session/management/unicore_job_manager.py:441-442 | `hostname` starts a READY job through the same `start` and catches only KeyError | a host lookup for a job the site reports READY: the AttributeError escapes | start the job and report no host yet | not executed | UnicoreJobManager.HostnameAsWritten | UnicoreJobManager.Hostname |

=== FILE: admin_views.dfy ===
/**
 * The administration view: `admin_command` keeps a session alive, or
 * suspends or resumes the creation of sessions; any other command is
 * refused.
 */
module AdminViews {
  import opened Common
  import opened Models
  import SessionManager

  const KEEPALIVE := "keepalive"
  const SUSPEND := "suspend"
  const RESUME := "resume"

  /** What the keep-alive command raises as written: the session manager module has no such function. */
  const NO_ID_LOOKUP := "'module' object has no attribute 'get_session_id_from_request'"

  /** The state after a command and its reply; None when the command raised instead of replying. */
  datatype AdminOutcome = AdminOutcome(state: SessionManager.State, response: Option<Response>, raised: Option<string>)

  /** An unknown command is refused by name. */
  function Refusal(command: string): (r: Response)
    ensures r.code == HTTP_UNAUTHORIZED && r.body == command + " is an invalid command"
  {
    Response(HTTP_UNAUTHORIZED, command + " is an invalid command")
  }

  /**
   * `admin_command` as written: the keep-alive branch looks the session id
   * up through a function of the session manager module, which defines it
   * only as a static method of its class, so the branch raises before any
   * session is touched.
   */
  function AdminCommandAsWritten(st: SessionManager.State, command: string, cookies: map<string, string>, newId: string, now: int): (r: AdminOutcome)
    ensures command == KEEPALIVE ==> r == AdminOutcome(st, None, Some(NO_ID_LOOKUP))
    ensures command != KEEPALIVE ==> r == AdminCommand(st, command, cookies, newId, now)
  {
    if command == KEEPALIVE then AdminOutcome(st, None, Some(NO_ID_LOOKUP))
    else AdminCommand(st, command, cookies, newId, now)
  }

  /**
   * `admin_command` as evidently intended: keep-alive takes the session id
   * from the request's cookie (through the session manager's static method)
   * and defers that session's expiry; suspend and resume return the session
   * manager's reply; any other command answers 401 and changes nothing.
   */
  function AdminCommand(st: SessionManager.State, command: string, cookies: map<string, string>, newId: string, now: int): (r: AdminOutcome)
    ensures r.response.Some? && r.raised.None?
    ensures command == KEEPALIVE ==>
      var id := SessionManager.SessionIdFromRequest(cookies, newId);
      var k := SessionManager.KeepAliveSession(st, id, now);
      r.state == k.state && r.response.value == k.response
    ensures command == SUSPEND ==>
      r.state.sessions == st.sessions && !r.state.global.sessionCreation && r.response.value.code == HTTP_OK
    ensures command == RESUME ==>
      r.state.sessions == st.sessions && r.state.global.sessionCreation && r.response.value.code == HTTP_OK
    ensures command !in {KEEPALIVE, SUSPEND, RESUME} ==> r.state == st && r.response.value == Refusal(command)
  {
    if command == KEEPALIVE then
      var k := SessionManager.KeepAliveSession(st, SessionManager.SessionIdFromRequest(cookies, newId), now);
      AdminOutcome(k.state, Some(k.response), None)
    else if command == SUSPEND then
      var o := SessionManager.SuspendSessions(st);
      AdminOutcome(o.state, Some(o.response), None)
    else if command == RESUME then
      var o := SessionManager.ResumeSessions(st);
      AdminOutcome(o.state, Some(o.response), None)
    else AdminOutcome(st, Some(Refusal(command)), None)
  }

  /**
   * The keep-alive command never replies as written, whatever the request:
   * a session named by the cookie keeps its old expiry, while the corrected
   * command answers 200 and moves it.
   */
  lemma KeepAliveAsWrittenRaises(st: SessionManager.State, cookies: map<string, string>, newId: string, now: int)
    requires SessionManager.SessionIdFromRequest(cookies, newId) in st.sessions
    ensures var written := AdminCommandAsWritten(st, KEEPALIVE, cookies, newId, now);
      var fixed := AdminCommand(st, KEEPALIVE, cookies, newId, now);
      && written.response.None? && written.state == st
      && fixed.response == Some(Response(HTTP_OK, "Session " + SessionManager.SessionIdFromRequest(cookies, newId) + " successfully updated"))
  {
  }

  /** The corrected keep-alive defers the expiry of the cookie's session by the configured timeout. */
  lemma KeepAliveDefersCookieSession(st: SessionManager.State, cookies: map<string, string>, newId: string, now: int)
    requires SessionManager.COOKIE_ID in cookies && cookies[SessionManager.COOKIE_ID] in st.sessions
    ensures var id := cookies[SessionManager.COOKIE_ID];
      var r := AdminCommand(st, KEEPALIVE, cookies, newId, now);
      id in r.state.sessions && r.state.sessions[id].validUntil == now + st.global.keepAliveTimeout
  {
  }

  /** Suspending through the view refuses every later creation until a resume. */
  lemma SuspendThenCreateRefused(st: SessionManager.State, cookies: map<string, string>, newId: string, now: int,
                                 id: string, owner: string, rendererId: string, conflict: string)
    ensures var suspended := AdminCommand(st, SUSPEND, cookies, newId, now).state;
      SessionManager.CreateSession(suspended, id, owner, rendererId, now, conflict).response.code == HTTP_FORBIDDEN
  {
  }
}

=== FILE: common.dfy ===
/** Shared result shapes of the Rendering Resource Manager model. */
module Common {

  /** A value that may be absent (Python's None, an uncaught lookup failure). */
  datatype Option<+T> = None | Some(value: T)

  /** An HTTP status code together with the response body the service returns. */
  datatype Response = Response(code: int, body: string)

  const HTTP_OK := 200
  const HTTP_CREATED := 201
  const HTTP_BAD_REQUEST := 400
  const HTTP_UNAUTHORIZED := 401
  const HTTP_FORBIDDEN := 403
  const HTTP_NOT_FOUND := 404
  const HTTP_CONFLICT := 409
  const HTTP_SERVER_ERROR := 500
  const HTTP_UNAVAILABLE := 503

  /** `json.dumps({'contents': msg})` for a message without characters JSON escapes. */
  function ContentsJson(msg: string): string {
    "{\"contents\": \"" + msg + "\"}"
  }

  /** `json.dumps({'message': msg})` for a message without characters JSON escapes. */
  function MessageJson(msg: string): string {
    "{\"message\": \"" + msg + "\"}"
  }
}

=== FILE: frame.dfy ===
/**
 * The browser-side session driver of the JavaScript viewer: it deletes any
 * previous session and creates a new one when the page loads, assembles
 * the renderer's start parameters and environment from the page's
 * controls, reacts to the service's replies, polls the session's status
 * and log, and sends the camera to the renderer when the view moves.
 * Every request is returned as a value; the replies are parameters.
 */
module Frame {
  import opened Common
  import opened Text

  const BRAYNS := "brayns"
  const LIVRE := "livre"
  const RTNEURON := "rtneuron"

  /** The session status codes the page compares against. */
  const SESSION_STATUS_RUNNING := 3

  /** The delay before the page initialises its view after a start, in milliseconds. */
  const START_DELAY := 1000

  /** The user name every session of the viewer is opened for. */
  const OWNER := "bbpvizuser"

  /** The JSON bodies the page sends. */
  datatype Body =
    | SessionBody(owner: string, configurationId: string)
    | RendererBody(params: string, environment: string)
    | CameraBody(matrix: seq<real>)

  /** A request to the service, by method and path below the service address. */
  datatype Request = Request(verb: string, path: string, body: Option<Body>)

  /** The body that opens and closes the session of a backend. */
  function SessionParams(backend: string): (b: Body)
    ensures b.SessionBody? && b.owner == OWNER && b.configurationId == backend
  {
    SessionBody(OWNER, backend)
  }

  // ---------------------------------------------------------------------
  // page load and unload
  // ---------------------------------------------------------------------

  /**
   * On load the page first deletes any current session and, once that
   * request completes, creates a new one; both carry the session body.
   */
  function LoadRequests(backend: string): (rs: seq<Request>)
    ensures |rs| == 2
    ensures rs[0].verb == "DELETE" && rs[1].verb == "POST"
    ensures forall i :: 0 <= i < |rs| ==> rs[i].path == "/session/" && rs[i].body == Some(SessionParams(backend))
  {
    [Request("DELETE", "/session/", Some(SessionParams(backend))),
     Request("POST", "/session/", Some(SessionParams(backend)))]
  }

  /** On unload the page deletes its session, and nothing else. */
  function UnloadRequests(backend: string): (rs: seq<Request>)
    ensures |rs| == 1 && rs[0].verb == "DELETE" && rs[0].path == "/session/"
  {
    [Request("DELETE", "/session/", Some(SessionParams(backend)))]
  }

  /** Loading and unloading ask for the same session to go: the unload repeats the load's first request. */
  lemma UnloadRepeatsLoadDelete(backend: string)
    ensures UnloadRequests(backend) == LoadRequests(backend)[..1]
  {
  }

  // ---------------------------------------------------------------------
  // start parameters
  // ---------------------------------------------------------------------

  /** The page controls `startRenderer` reads. */
  datatype Form = Form(
    params: string,
    dataSource: string,
    dataSourceType: string,
    environment: string,
    ambientOcclusion: bool,
    shading: bool,
    softShadows: bool,
    electronShading: bool,
    productionQuality: bool,
    snapshotResolution: string)

  const QUALITY_HIGH := " --quality 50"
  const QUALITY_LOW := " --quality 5"

  /** Every brayns rendering flag, in the order the page considers them. */
  const BRAYNS_FLAGS: seq<string> := [
    " --renderer exobj", " --ambient-occlusion", " --no-shading",
    " --shadows --soft-shadows", " --electron-shading", QUALITY_HIGH, QUALITY_LOW]

  /** Whether the form asks for each brayns flag, in the order of `BRAYNS_FLAGS`. */
  function FlagChoices(f: Form): (c: seq<bool>)
    ensures |c| == |BRAYNS_FLAGS|
  {
    [true, f.ambientOcclusion, !f.shading, f.softShadows, f.electronShading,
     f.productionQuality, !f.productionQuality]
  }

  /** The members of `all` whose choice is set, in order. */
  function Chosen(all: seq<string>, choices: seq<bool>): (picked: seq<string>)
    requires |all| == |choices|
    ensures |picked| <= |all|
    ensures forall x :: x in picked ==> x in all
    decreases |all|
  {
    if all == [] then []
    else (if choices[0] then [all[0]] else []) + Chosen(all[1..], choices[1..])
  }

  /** A member of `all` appearing once is picked exactly when its choice is set. */
  lemma {:induction false} ChosenExactly(all: seq<string>, choices: seq<bool>, i: nat)
    requires |all| == |choices| && i < |all|
    requires forall j :: 0 <= j < |all| && j != i ==> all[j] != all[i]
    ensures all[i] in Chosen(all, choices) <==> choices[i]
    decreases |all|
  {
    var rest := Chosen(all[1..], choices[1..]);
    assert Chosen(all, choices) == (if choices[0] then [all[0]] else []) + rest;
    if i == 0 {
      assert all[0] !in all[1..];
      assert all[0] !in rest;
    } else {
      forall j | 0 <= j < |all[1..]| && j != i - 1
        ensures all[1..][j] != all[1..][i - 1]
      {
        assert all[1..][j] == all[j + 1];
      }
      ChosenExactly(all[1..], choices[1..], i - 1);
      assert all[1..][i - 1] == all[i];
      assert all[0] != all[i];
    }
  }

  /** The brayns rendering flags the form selects, in the fixed order. */
  function BraynsFlags(f: Form): (flags: seq<string>)
    ensures forall x :: x in flags ==> x in BRAYNS_FLAGS
  {
    Chosen(BRAYNS_FLAGS, FlagChoices(f))
  }

  lemma FlagsDistinct()
    ensures forall i, j :: 0 <= i < j < |BRAYNS_FLAGS| ==> BRAYNS_FLAGS[i] != BRAYNS_FLAGS[j]
  {
    assert QUALITY_HIGH == QUALITY_LOW + "0";
  }

  /**
   * The renderer flag is always there; each optional flag is there exactly
   * when its control asks for it; exactly one of the two qualities is.
   */
  lemma BraynsFlagsFollowForm(f: Form)
    ensures " --renderer exobj" in BraynsFlags(f)
    ensures " --ambient-occlusion" in BraynsFlags(f) <==> f.ambientOcclusion
    ensures " --no-shading" in BraynsFlags(f) <==> !f.shading
    ensures " --shadows --soft-shadows" in BraynsFlags(f) <==> f.softShadows
    ensures " --electron-shading" in BraynsFlags(f) <==> f.electronShading
    ensures QUALITY_HIGH in BraynsFlags(f) <==> f.productionQuality
    ensures QUALITY_LOW in BraynsFlags(f) <==> !f.productionQuality
  {
    FlagFollows(f, 0);
    FlagFollows(f, 1);
    FlagFollows(f, 2);
    FlagFollows(f, 3);
    FlagFollows(f, 4);
    FlagFollows(f, 5);
    FlagFollows(f, 6);
  }

  /** The flag in slot `i` is selected exactly when the form's choice for that slot is set. */
  lemma FlagFollows(f: Form, i: nat)
    requires i < |BRAYNS_FLAGS|
    ensures BRAYNS_FLAGS[i] in BraynsFlags(f) <==> FlagChoices(f)[i]
  {
    FlagsDistinct();
    ChosenExactly(BRAYNS_FLAGS, FlagChoices(f), i);
  }

  /** The strings of a sequence written one after the other. */
  function Concat(parts: seq<string>): string
    decreases |parts|
  {
    if parts == [] then "" else parts[0] + Concat(parts[1..])
  }

  /** The data source option of each backend; the other backends get none. */
  function DataSourceOption(backend: string, f: Form): (o: string)
    ensures backend != LIVRE && backend != RTNEURON && backend != BRAYNS ==> o == ""
    ensures backend == BRAYNS ==> o == " --" + f.dataSourceType + "-folder " + f.dataSource
    ensures backend == LIVRE ==> o == " --volume " + f.dataSourceType + "://" + f.dataSource
    ensures backend == RTNEURON ==> o == " -b " + f.dataSource
  {
    if backend == LIVRE then " --volume " + f.dataSourceType + "://" + f.dataSource
    else if backend == RTNEURON then " -b " + f.dataSource
    else if backend == BRAYNS then " --" + f.dataSourceType + "-folder " + f.dataSource
    else ""
  }

  /** The user's parameters, then the brayns flags (brayns only), then the data source option. */
  function StartParameters(backend: string, f: Form): (p: string)
    ensures IsPrefix(f.params, p)
    ensures IsSuffix(DataSourceOption(backend, f), p)
    ensures |f.params| + |DataSourceOption(backend, f)| <= |p|
    ensures p[|f.params|..|p| - |DataSourceOption(backend, f)|] == if backend == BRAYNS then Concat(BraynsFlags(f)) else ""
  {
    var flags := if backend == BRAYNS then Concat(BraynsFlags(f)) else "";
    var p := f.params + flags + DataSourceOption(backend, f);
    assert p[..|f.params|] == f.params;
    assert p[|f.params|..|p| - |DataSourceOption(backend, f)|] == flags;
    p
  }

  /** Each part of a concatenation occurs in it. */
  lemma {:induction false} ConcatContains(parts: seq<string>, i: nat)
    requires i < |parts|
    ensures Contains(Concat(parts), parts[i])
    decreases |parts|
  {
    var whole := Concat(parts);
    assert whole == parts[0] + Concat(parts[1..]);
    if i == 0 {
      assert whole[..|parts[0]|] == parts[0];
    } else {
      ConcatContains(parts[1..], i - 1);
      assert whole[|parts[0]|..] == Concat(parts[1..]);
      ContainsSuffix(whole, |parts[0]|, parts[i]);
    }
  }

  /**
   * Every flag the form selects reaches the brayns start parameters; in
   * particular each ticked rendering option and the chosen quality.
   */
  lemma BraynsStartParametersCarryFlags(f: Form)
    ensures forall x :: x in BraynsFlags(f) ==> Contains(StartParameters(BRAYNS, f), x)
    ensures f.ambientOcclusion ==> Contains(StartParameters(BRAYNS, f), " --ambient-occlusion")
    ensures f.productionQuality ==> Contains(StartParameters(BRAYNS, f), QUALITY_HIGH)
    ensures !f.productionQuality ==> Contains(StartParameters(BRAYNS, f), QUALITY_LOW)
  {
    var flags := Concat(BraynsFlags(f));
    var p := StartParameters(BRAYNS, f);
    forall x | x in BraynsFlags(f)
      ensures Contains(p, x)
    {
      var i :| 0 <= i < |BraynsFlags(f)| && BraynsFlags(f)[i] == x;
      ConcatContains(BraynsFlags(f), i);
      ContainsAppend(flags, DataSourceOption(BRAYNS, f), x);
      assert p == f.params + (flags + DataSourceOption(BRAYNS, f));
      assert p[|f.params|..] == flags + DataSourceOption(BRAYNS, f);
      ContainsSuffix(p, |f.params|, x);
    }
    BraynsFlagsFollowForm(f);
  }

  /** The size of a snapshot preset, width then height; an unknown preset is 800 by 400. */
  function Resolution(preset: string): (size: (int, int))
    ensures preset == "1k" || preset == "2k" ==> size == (1920, 1080)
    ensures preset == "4k" ==> size == (3840, 2160)
    ensures preset == "dw" ==> size == (7680, 3240)
    ensures preset !in {"1k", "2k", "4k", "dw"} ==> size == (800, 400)
  {
    if preset == "1k" then (1920, 1080)
    else if preset == "2k" then (1920, 1080)
    else if preset == "4k" then (3840, 2160)
    else if preset == "dw" then (7680, 3240)
    else (800, 400)
  }

  /** Every preset the table names is wider than it is high, as is the fallback. */
  lemma ResolutionsAreLandscape(preset: string)
    ensures Resolution(preset).0 > Resolution(preset).1 > 0
  {
  }

  const BUFFER_HEIGHT := "buffer-height"
  const BUFFER_WIDTH := "buffer-width"

  /** One option with its value, added only when the parameters do not mention its name yet. */
  function AddOption(params: string, name: string, value: int): (p: string)
    ensures IsPrefix(params, p)
    ensures Contains(p, name)
    ensures Contains(params, name) ==> p == params
  {
    if Contains(params, name) then params
    else
      var p := params + " --" + name + " " + IntToString(value);
      ContainsInfix(params + " --", name, " " + IntToString(value));
      assert p == params + " --" + name + (" " + IntToString(value));
      assert p[..|params|] == params;
      p
  }

  /** The brayns buffer size options, each added only when the parameters do not mention it yet. */
  function BufferOptions(params: string, width: int, height: int): (p: string)
    ensures IsPrefix(params, p)
    ensures Contains(p, BUFFER_HEIGHT) && Contains(p, BUFFER_WIDTH)
    ensures Contains(params, BUFFER_HEIGHT) && Contains(params, BUFFER_WIDTH) ==> p == params
  {
    var p1 := AddOption(params, BUFFER_HEIGHT, height);
    var p2 := AddOption(p1, BUFFER_WIDTH, width);
    ContainsExtended(p1, p2, BUFFER_HEIGHT);
    PrefixTransitive(params, p1, p2);
    p2
  }

  /** Adding the buffer options a second time adds nothing, whatever size is asked then. */
  lemma BufferOptionsIdempotent(params: string, width: int, height: int, width2: int, height2: int)
    ensures BufferOptions(BufferOptions(params, width, height), width2, height2) == BufferOptions(params, width, height)
  {
  }

  const HINT_HEIGHT := "EQ_WINDOW_IATTR_HINT_HEIGHT"
  const HINT_WIDTH := "EQ_WINDOW_IATTR_HINT_WIDTH"

  /** One window hint, appended after a comma when the environment already holds something. */
  function AddHint(environment: string, name: string, value: int): (e: string)
    ensures Contains(environment, name) ==> e == environment
    ensures Contains(e, name)
    ensures IsPrefix(environment, e)
    ensures environment == "" && !Contains(environment, name) ==> IsPrefix(name, e)
  {
    if Contains(environment, name) then environment
    else
      var sep := if environment != "" then "," else "";
      var e := environment + sep + name + ("=" + IntToString(value));
      ContainsInfix(environment + sep, name, "=" + IntToString(value));
      assert e[..|environment|] == environment;
      assert environment == "" ==> e == name + ("=" + IntToString(value)) && e[..|name|] == name;
      e
  }

  /** The window size hints the other backends get, height first. */
  function WindowHints(environment: string, width: int, height: int): (e: string)
    ensures IsPrefix(environment, e)
    ensures Contains(e, HINT_HEIGHT) && Contains(e, HINT_WIDTH)
  {
    var e1 := AddHint(environment, HINT_HEIGHT, height);
    var e2 := AddHint(e1, HINT_WIDTH, width);
    ContainsExtended(e1, e2, HINT_HEIGHT);
    PrefixTransitive(environment, e1, e2);
    e2
  }

  /** A hint never makes the environment start with a comma. */
  lemma NoLeadingComma(environment: string, width: int, height: int)
    requires environment == "" || environment[0] != ','
    ensures var e := WindowHints(environment, width, height); e != "" && e[0] != ','
  {
    var e1 := AddHint(environment, HINT_HEIGHT, height);
    var e2 := AddHint(e1, HINT_WIDTH, width);
    if environment == "" {
      assert !Contains(environment, HINT_HEIGHT);
      assert IsPrefix(HINT_HEIGHT, e1);
      assert e1[0] == HINT_HEIGHT[0];
    } else {
      assert e1[0] == environment[0];
    }
    assert IsPrefix(e1, e2);
    assert e2[0] == e1[0];
  }

  /** Adding the window hints a second time adds nothing. */
  lemma WindowHintsIdempotent(environment: string, width: int, height: int, width2: int, height2: int)
    ensures WindowHints(WindowHints(environment, width, height), width2, height2) == WindowHints(environment, width, height)
  {
  }

  /**
   * The parameters and environment the schedule request carries: brayns gets
   * the buffer size among its parameters, every other backend gets it as
   * window hints in its environment.
   */
  function RendererParams(backend: string, f: Form): (b: Body)
    ensures b.RendererBody?
    ensures IsPrefix(f.params, b.params)
    ensures backend == BRAYNS ==> b.environment == f.environment
    ensures backend != BRAYNS ==> b.params == StartParameters(backend, f)
    ensures backend == BRAYNS ==> Contains(b.params, BUFFER_HEIGHT) && Contains(b.params, BUFFER_WIDTH)
    ensures backend != BRAYNS ==> Contains(b.environment, HINT_HEIGHT) && Contains(b.environment, HINT_WIDTH)
  {
    var size := Resolution(f.snapshotResolution);
    var params := StartParameters(backend, f);
    if backend == BRAYNS then
      var p := BufferOptions(params, size.0, size.1);
      assert p[..|f.params|] == params[..|f.params|];
      RendererBody(p, f.environment)
    else RendererBody(params, WindowHints(f.environment, size.0, size.1))
  }

  // ---------------------------------------------------------------------
  // replies to create and schedule
  // ---------------------------------------------------------------------

  /** What the page does after a reply: the requests it sends, a delayed start of its view, a message it shows. */
  datatype Reaction = Reaction(requests: seq<Request>, initAfter: Option<int>, shown: Option<string>)

  /**
   * `startRenderer`: a created session is scheduled with the assembled
   * parameters; a session that already exists is assumed started and the
   * view starts after a second; any other reply is shown as the error.
   */
  function StartRenderer(backend: string, f: Form, status: int, text: string): (r: Reaction)
    ensures status == HTTP_CREATED ==>
      r.requests == [Request("PUT", "/session/schedule", Some(RendererParams(backend, f)))] &&
      r.initAfter.None? && r.shown.None?
    ensures status == HTTP_CONFLICT ==> r.requests == [] && r.initAfter == Some(START_DELAY) && r.shown.None?
    ensures status != HTTP_CREATED && status != HTTP_CONFLICT ==> r.requests == [] && r.initAfter.None? && r.shown == Some(text)
  {
    if status == HTTP_CREATED then
      Reaction([Request("PUT", "/session/schedule", Some(RendererParams(backend, f)))], None, None)
    else if status == HTTP_CONFLICT then Reaction([], Some(START_DELAY), None)
    else Reaction([], None, Some(text))
  }

  /** The reply to the schedule request: success starts the view after a second, anything else is shown as the status. */
  function ScheduleReply(status: int, text: string): (r: Reaction)
    ensures r.requests == []
    ensures r.initAfter.Some? <==> status == HTTP_OK
    ensures r.shown.Some? <==> status != HTTP_OK
    ensures r.shown.Some? ==> r.shown.value == text
  {
    if status == HTTP_OK then Reaction([], Some(START_DELAY), None) else Reaction([], None, Some(text))
  }

  /** Whatever the create reply, the page sends at most one request and either schedules, waits or shows an error. */
  lemma StartRendererOneWay(backend: string, f: Form, status: int, text: string)
    ensures var r := StartRenderer(backend, f, status, text);
      && |r.requests| <= 1
      && (|r.requests| == 1 <==> r.initAfter.None? && r.shown.None?)
      && !(r.initAfter.Some? && r.shown.Some?)
  {
  }

  // ---------------------------------------------------------------------
  // polling
  // ---------------------------------------------------------------------

  /** Each poll asks for the session's status and its log. */
  function PollRequests(): (rs: seq<Request>)
    ensures |rs| == 2 && rs[0].verb == "GET" && rs[1].verb == "GET"
    ensures rs[0].path == "/session/status" && rs[1].path == "/session/log"
  {
    [Request("GET", "/session/status", None), Request("GET", "/session/log", None)]
  }

  /** The page's memory between polls. */
  datatype PageState = PageState(
    sessionStatus: int,
    firstImageRetrieved: bool,
    statusText: string,
    positionChangeCounter: int)

  /** A status reply: its HTTP status and text, and the code and description its JSON carries. */
  datatype StatusReply = StatusReply(status: int, text: string, code: int, description: string)

  datatype PollOutcome = PollOutcome(page: PageState, requests: seq<Request>)

  /**
   * The status reply's handler: the text is shown, replaced by the
   * description when the reply is 200, whose code becomes the page's status.
   * For a running renderer whose first image is still missing (or when
   * rendering continuously) the vocabulary is fetched, and for brayns also
   * the camera.
   */
  function StatusCallback(p: PageState, reply: StatusReply, backend: string, continuousRendering: bool): (r: PollOutcome)
    ensures reply.status != HTTP_OK ==> r.page == p.(statusText := reply.text) && r.requests == []
    ensures reply.status == HTTP_OK ==> r.page.statusText == reply.description && r.page.sessionStatus == reply.code
    ensures r.requests != [] <==>
      reply.status == HTTP_OK && reply.code == SESSION_STATUS_RUNNING && (!p.firstImageRetrieved || continuousRendering)
    ensures r.requests != [] ==>
      r.requests[0] == Request("GET", "/session/vocabulary", None) && r.page.positionChangeCounter == 0
    ensures Request("GET", "/session/CAMERA", None) in r.requests <==> r.requests != [] && backend == BRAYNS
    ensures r.page.firstImageRetrieved == p.firstImageRetrieved
  {
    if reply.status != HTTP_OK then PollOutcome(p.(statusText := reply.text), [])
    else
      var p1 := p.(statusText := reply.description, sessionStatus := reply.code);
      if reply.code == SESSION_STATUS_RUNNING && (!p.firstImageRetrieved || continuousRendering) then
        var camera := if backend == BRAYNS then [Request("GET", "/session/CAMERA", None)] else [];
        PollOutcome(p1.(positionChangeCounter := 0), [Request("GET", "/session/vocabulary", None)] + camera)
      else PollOutcome(p1, [])
  }

  /** Once the first image is in and rendering is not continuous, polls fetch nothing more, whatever the status. */
  lemma PollQuietAfterFirstImage(p: PageState, reply: StatusReply, backend: string)
    requires p.firstImageRetrieved
    ensures StatusCallback(p, reply, backend, false).requests == []
  {
  }

  /** The vocabulary reply's handler: 200 enables snapshots and asks for the image feed. */
  function VocabularyCallback(status: int): (r: seq<Request>)
    ensures r != [] <==> status == HTTP_OK
    ensures r != [] ==> r == [Request("GET", "/session/imagefeed", None)]
  {
    if status == HTTP_OK then [Request("GET", "/session/imagefeed", None)] else []
  }

  /** The image feed reply's handler: the image comes from the returned address and the first image counts as retrieved. */
  function ImageFeedCallback(p: PageState, uri: string): (r: (PageState, string))
    ensures r.0.firstImageRetrieved
    ensures r.0.(firstImageRetrieved := p.firstImageRetrieved) == p
    ensures IsPrefix("http://", r.1) && r.1[7..] == uri
  {
    var src := "http://" + uri;
    assert src[..7] == "http://";
    (p.(firstImageRetrieved := true), src)
  }

  /** Every carriage return and line feed becomes a `<br/>`; other characters stay. */
  function LogHtml(text: string): (html: string)
    ensures '\n' !in html && '\r' !in html
    ensures '\n' !in text && '\r' !in text ==> html == text
    decreases |text|
  {
    if text == [] then []
    else (if text[0] == '\n' || text[0] == '\r' then "<br/>" else [text[0]]) + LogHtml(text[1..])
  }

  /** Converting a log is done piecewise: the conversion of a concatenation is the concatenation of the conversions. */
  lemma {:induction false} LogHtmlAppend(a: string, b: string)
    ensures LogHtml(a + b) == LogHtml(a) + LogHtml(b)
    decreases |a|
  {
    if a == [] {
      assert a + b == b;
    } else {
      var ab := a + b;
      var head := if a[0] == '\n' || a[0] == '\r' then "<br/>" else [a[0]];
      assert ab[0] == a[0] && ab[1..] == a[1..] + b;
      assert LogHtml(ab) == head + LogHtml(a[1..] + b);
      LogHtmlAppend(a[1..], b);
      StringAssoc(head, LogHtml(a[1..]), LogHtml(b));
    }
  }

  lemma StringAssoc(x: string, y: string, z: string)
    ensures x + (y + z) == x + y + z
  {
  }

  /** A lone line break character converts to one `<br/>`. */
  lemma LogHtmlBreak(c: char)
    requires c == '\n' || c == '\r'
    ensures LogHtml([c]) == "<br/>"
  {
    assert [c][1..] == [];
  }

  /** The HTML break every line break character of the log becomes. */
  const BREAK := "<br/>"

  /** A Windows line end: carriage return, then line feed. */
  const CR_LF: string := ['\r', '\n']

  /** Text without line break characters. */
  predicate SingleLine(t: string) {
    '\n' !in t && '\r' !in t
  }

  /** Each line break is one `<br/>`, so a two-character Windows line end becomes two. */
  lemma LogHtmlLineEnd(a: string, b: string)
    requires SingleLine(a) && SingleLine(b)
    ensures LogHtml(a + CR_LF + b) == a + BREAK + BREAK + b
  {
    LogHtmlCrLf();
    LogHtmlAppend(a + CR_LF, b);
    LogHtmlAppend(a, CR_LF);
  }

  lemma LogHtmlCrLf()
    ensures LogHtml(CR_LF) == BREAK + BREAK
  {
    var cr: string, lf: string := ['\r'], ['\n'];
    LogHtmlBreak('\r');
    LogHtmlBreak('\n');
    LogHtmlAppend(cr, lf);
    assert CR_LF == cr + lf;
  }

  /** The log reply's handler: on 200 the panel shows the converted text, replacing what it showed. */
  function LogCallback(panel: Option<string>, status: int, text: string): (shown: Option<string>)
    ensures status == HTTP_OK ==> shown == Some(LogHtml(text))
    ensures status != HTTP_OK ==> shown == panel
  {
    if status == HTTP_OK then Some(LogHtml(text)) else panel
  }

  // ---------------------------------------------------------------------
  // the camera
  // ---------------------------------------------------------------------

  /** The camera's position; the page's floating-point values as reals. */
  datatype Position = Position(x: real, y: real, z: real)

  /** The camera matrix the view starts with. */
  const INITIAL_MATRIX: seq<real> := [1.0, 0.0, 0.0, 0.0, 0.0, 1.0, 0.0, 0.0, 0.0, 0.0, 1.0, 0.0, 0.0, 0.0, -1.0, 1.0]

  /** The slots the rotation fills. */
  predicate RotationSlot(i: int) {
    i in {0, 1, 2, 4, 5, 6, 8, 9, 10}
  }

  /** rtneuron works in a thousand times the page's units. */
  function Scaling(backend: string): (k: real)
    ensures backend == RTNEURON ==> k == 1000.0
    ensures backend != RTNEURON ==> k == 1.0
  {
    if backend == RTNEURON then 1000.0 else 1.0
  }

  datatype RenderOutcome = RenderOutcome(matrix: seq<real>, request: Option<Request>, positionChangeCounter: int)

  /**
   * `render`: nothing is sent while the camera sits at depth 0. brayns gets
   * the position with x and z negated in the first three slots. The other
   * backends get the rotation (computed from the position by the page, a
   * parameter here) and the scaled depth, but only when `angleInRange`, the
   * page's guard on the rotation angles; the matrix is sent either way.
   */
  function Render(backend: string, camera: Position, matrix: seq<real>, rotation: seq<real>,
                  angleInRange: bool, counter: int): (r: RenderOutcome)
    requires |matrix| == 16 && |rotation| == 16
    ensures |r.matrix| == 16
    ensures r.positionChangeCounter == counter + 1
    ensures camera.z == 0.0 ==> r.matrix == matrix && r.request.None?
    ensures camera.z != 0.0 ==> r.request == Some(Request("PUT", "/session/CAMERA", Some(CameraBody(r.matrix))))
    ensures camera.z != 0.0 && backend == BRAYNS ==>
      && r.matrix[0] == -camera.x && r.matrix[1] == camera.y && r.matrix[2] == -camera.z
      && r.matrix[3..] == matrix[3..]
    ensures camera.z != 0.0 && backend != BRAYNS && angleInRange ==>
      && r.matrix[14] == -camera.z * Scaling(backend)
      && (forall i :: 0 <= i < 16 && RotationSlot(i) ==> r.matrix[i] == rotation[i])
      && (forall i :: 0 <= i < 16 && !RotationSlot(i) && i != 14 ==> r.matrix[i] == matrix[i])
    ensures backend != BRAYNS && !angleInRange ==> r.matrix == matrix
  {
    if camera.z == 0.0 then RenderOutcome(matrix, None, counter + 1)
    else
      var m :=
        if backend == BRAYNS then matrix[0 := -camera.x][1 := camera.y][2 := -camera.z]
        else if angleInRange then
          seq(16, i requires 0 <= i < 16 =>
            if RotationSlot(i) then rotation[i]
            else if i == 14 then -camera.z * Scaling(backend)
            else matrix[i])
        else matrix;
      RenderOutcome(m, Some(Request("PUT", "/session/CAMERA", Some(CameraBody(m)))), counter + 1)
  }

  /** Rendering again from the same camera sends the same matrix: the update depends on the position, not on the previous matrix's moved slots. */
  lemma RenderIdempotent(backend: string, camera: Position, matrix: seq<real>, rotation: seq<real>, angleInRange: bool, counter: int)
    requires |matrix| == 16 && |rotation| == 16
    ensures var first := Render(backend, camera, matrix, rotation, angleInRange, counter);
      Render(backend, camera, first.matrix, rotation, angleInRange, first.positionChangeCounter).matrix == first.matrix
  {
    var first := Render(backend, camera, matrix, rotation, angleInRange, counter);
    var second := Render(backend, camera, first.matrix, rotation, angleInRange, first.positionChangeCounter);
    if camera.z != 0.0 && backend == BRAYNS {
      assert second.matrix[3..] == first.matrix[3..];
      assert second.matrix == second.matrix[..3] + second.matrix[3..];
      assert first.matrix == first.matrix[..3] + first.matrix[3..];
    }
  }

  /**
   * The CAMERA reply's handler: the first three entries of the returned
   * matrix become the camera's position. With fewer than three entries a
   * coordinate would become JavaScript's `undefined`, which is modelled as
   * no position.
   */
  function CameraCallback(reply: seq<real>): (r: Option<Position>)
    ensures r.Some? <==> |reply| >= 3
    ensures r.Some? ==> r.value.x == reply[0] && r.value.y == reply[1] && r.value.z == reply[2]
  {
    if |reply| >= 3 then Some(Position(reply[0], reply[1], reply[2])) else None
  }

  /**
   * When brayns answers the CAMERA query with the matrix the page last
   * sent, the page's camera comes back mirrored: x and z change sign.
   */
  lemma EchoedCameraMirrors(camera: Position, matrix: seq<real>, rotation: seq<real>, angleInRange: bool, counter: int)
    requires |matrix| == 16 && |rotation| == 16 && camera.z != 0.0
    ensures CameraCallback(Render(BRAYNS, camera, matrix, rotation, angleInRange, counter).matrix)
         == Some(Position(-camera.x, camera.y, -camera.z))
  {
  }

  /**
   * Two such echoes restore the camera: rendering from the mirrored
   * position and reading the echo back gives the original position.
   */
  lemma EchoTwiceRestores(camera: Position, matrix: seq<real>, rotation: seq<real>, angleInRange: bool, counter: int)
    requires |matrix| == 16 && |rotation| == 16 && camera.z != 0.0
    ensures var first := Render(BRAYNS, camera, matrix, rotation, angleInRange, counter);
      var mirrored := CameraCallback(first.matrix).value;
      CameraCallback(Render(BRAYNS, mirrored, first.matrix, rotation, angleInRange, first.positionChangeCounter).matrix)
        == Some(camera)
  {
    var first := Render(BRAYNS, camera, matrix, rotation, angleInRange, counter);
    EchoedCameraMirrors(camera, matrix, rotation, angleInRange, counter);
    var mirrored := CameraCallback(first.matrix).value;
    EchoedCameraMirrors(mirrored, first.matrix, rotation, angleInRange, first.positionChangeCounter);
  }
}

=== FILE: image_feed.dfy ===
/**
 * The image feed manager: gets or creates the image-streaming route of a
 * session. The streaming service is external; each of its replies is a
 * parameter and the model returns the requests it would send.
 */
module ImageFeed {
  import opened Common
  import opened Text
  import opened Models

  /** How one request to the streaming service ended. */
  datatype Transport =
    | Delivered(body: string)             // the service answered successfully
    | HttpError(code: int, reason: string) // the service answered with an error status
    | UrlError(reason: string)             // the service could not be reached

  /** One request to the streaming service's `/route` resource. */
  datatype FeedRequest = FeedRequest(verb: string, url: string, data: string, cookie: string)

  /** The status and body a request is reported with. */
  function DoRequest(t: Transport): (r: Response)
    ensures t.Delivered? ==> r == Response(HTTP_OK, t.body)
    ensures t.HttpError? ==> r == Response(t.code, t.reason)
    ensures t.UrlError? ==> r == Response(HTTP_UNAUTHORIZED, t.reason)
  {
    match t
    case Delivered(b) => Response(HTTP_OK, b)
    case HttpError(c, reason) => Response(c, reason)
    case UrlError(reason) => Response(HTTP_UNAUTHORIZED, reason)
  }

  /** The route address of a session, as the JSON document the service expects. */
  function RouteUri(s: Session): (doc: string)
    ensures IsPrefix("{\"uri\": \"http://" + s.httpHost + ":", doc)
  {
    var prefix := "{\"uri\": \"http://" + s.httpHost + ":";
    var doc := prefix + IntToString(s.httpPort) + "\"}";
    assert doc[..|prefix|] == prefix;
    doc
  }

  /** A request for the session's route, identified by the session cookie. */
  function RouteRequest(service: string, sessionId: string, verb: string, data: string): (q: FeedRequest)
    ensures q.url == service + "/route" && q.cookie == "HBP=" + sessionId
    ensures q.verb == verb && q.data == data
  {
    FeedRequest(verb, service + "/route", data, "HBP=" + sessionId)
  }

  /** The reply of a route lookup and the requests it sent, in order. */
  datatype RouteOutcome = RouteOutcome(response: Response, requests: seq<FeedRequest>)

  /**
   * Looks the route up; when the service does not know it, adds it once and
   * looks it up again. `lookup`, `add` and `relookup` are the service's
   * replies to the three requests, each used only if that request is sent.
   */
  function GetRoute(service: string, s: Session, lookup: Transport, add: Transport, relookup: Transport): (r: RouteOutcome)
    ensures 1 <= |r.requests| <= 3
    ensures r.requests[0] == RouteRequest(service, s.id, "GET", "")
    ensures DoRequest(lookup).code == HTTP_OK ==> r == RouteOutcome(DoRequest(lookup), r.requests[..1])
    ensures DoRequest(lookup).code == HTTP_NOT_FOUND <==> |r.requests| > 1
    ensures |r.requests| > 1 ==> r.requests[1] == RouteRequest(service, s.id, "POST", RouteUri(s))
    ensures |r.requests| == 3 <==> DoRequest(lookup).code == HTTP_NOT_FOUND && DoRequest(add).code == HTTP_OK
    ensures |r.requests| == 3 ==> r.requests[2] == r.requests[0] && r.response == DoRequest(relookup)
    ensures DoRequest(lookup).code != HTTP_OK && |r.requests| != 3 ==> r.response.code == HTTP_BAD_REQUEST
    ensures forall i :: 0 <= i < |r.requests| && r.requests[i].verb == "POST" ==> i == 1
  {
    var get := RouteRequest(service, s.id, "GET", "");
    var first := DoRequest(lookup);
    if first.code == HTTP_OK then RouteOutcome(first, [get])
    else if first.code == HTTP_NOT_FOUND then
      var post := RouteRequest(service, s.id, "POST", RouteUri(s));
      var added := DoRequest(add);
      if added.code == HTTP_OK then
        RouteOutcome(DoRequest(relookup), [get, post, get])
      else
        RouteOutcome(Response(HTTP_BAD_REQUEST, "Image streaming service (" + service + ") failed to create new route: " + added.body),
                     [get, post])
    else
      RouteOutcome(Response(HTTP_BAD_REQUEST, "Image streaming service (" + service + ") is unreachable: " + first.body), [get])
  }

  /** An unreachable streaming service is reported as such, without any attempt to add the route. */
  lemma UnreachableServiceAddsNothing(service: string, s: Session, reason: string, add: Transport, relookup: Transport)
    ensures var r := GetRoute(service, s, UrlError(reason), add, relookup);
      && r.response == Response(HTTP_BAD_REQUEST, "Image streaming service (" + service + ") is unreachable: " + reason)
      && forall q :: q in r.requests ==> q.verb == "GET"
  {
  }
}

=== FILE: job_common.dfy ===
/**
 * What the SLURM and UNICORE job managers share: the job request record the
 * views hand them, and the pieces of the shell script that starts a renderer
 * on the allocated node (module loads, environment assignments, the command
 * line with its parameters).
 */
module JobCommon {
  import opened Common
  import opened Text
  import opened Models
  import SettingsManager

  /**
   * The resources and launch options of one job request. A zero count or an
   * empty text means "use the renderer settings"; `reservation` is None when
   * the request carries none at all.
   */
  datatype JobInformation = JobInformation(
    params: string,
    environment: string,
    reservation: Option<string>,
    exclusiveAllocation: bool,
    nbCpus: int,
    nbGpus: int,
    nbNodes: int,
    memory: int,
    allocationTime: string)

  /** The job request the views build before any request field is read. */
  function DefaultJobInformation(): (j: JobInformation)
    ensures j.params == "" && j.environment == "" && j.allocationTime == ""
    ensures j.reservation == Some("") && !j.exclusiveAllocation
    ensures j.nbCpus == 0 && j.nbGpus == 0 && j.nbNodes == 0 && j.memory == 0
  {
    JobInformation("", "", Some(""), false, 0, 0, 0, 0, "")
  }

  // ---------------------------------------------------------------------
  // Module loads: one `module load <m>` line per module, in order
  // ---------------------------------------------------------------------

  function ModuleLoads(modules: seq<string>): string
    decreases |modules|
  {
    if modules == [] then "" else "module load " + modules[0] + "\n" + ModuleLoads(modules[1..])
  }

  /** The script lines the module loads stand for. */
  function LoadLines(modules: seq<string>): (lines: seq<string>)
    ensures |lines| == |modules|
    ensures forall i :: 0 <= i < |modules| ==> lines[i] == "module load " + modules[i]
  {
    seq(|modules|, i requires 0 <= i < |modules| => "module load " + modules[i])
  }

  predicate LineFree(parts: seq<string>) {
    forall i :: 0 <= i < |parts| ==> '\n' !in parts[i]
  }

  /** Words never hold a newline. */
  lemma TokensLineFree(ts: seq<string>)
    requires AllTokens(ts)
    ensures LineFree(ts)
  {
    forall i | 0 <= i < |ts|
      ensures '\n' !in ts[i]
    {
      assert IsToken(ts[i]);
    }
  }

  /** Each line followed by a newline. */
  function Lines(ls: seq<string>): string
    decreases |ls|
  {
    if ls == [] then "" else ls[0] + "\n" + Lines(ls[1..])
  }

  lemma LineRegroup(line: string, following: string, rest: string)
    ensures line + "\n" + following + rest == line + ['\n'] + (following + rest)
  {
  }

  lemma ConsRegroup(x: string, t: seq<string>, r: seq<string>)
    ensures [x] + (t + r) == [x] + t + r
  {
  }

  /** Newline-terminated lines split back into those lines, then whatever follows. */
  lemma {:induction false} SplitLines(ls: seq<string>, rest: string)
    requires LineFree(ls)
    ensures Split(Lines(ls) + rest, '\n') == ls + Split(rest, '\n')
    decreases |ls|
  {
    if ls == [] {
      assert Lines(ls) + rest == rest;
    } else {
      var line, following, others := ls[0], Lines(ls[1..]), Split(rest, '\n');
      var tail := following + rest;
      assert Lines(ls) == line + "\n" + following;
      LineRegroup(line, following, rest);
      assert '\n' !in line;
      SplitSeparated(line, '\n', tail);
      SplitLines(ls[1..], rest);
      ConsRegroup(line, ls[1..], others);
      assert [line] + ls[1..] == ls;
    }
  }

  /** Splitting the module loads into lines gives one `module load` line per module. */
  lemma SplitModuleLoads(modules: seq<string>, rest: string)
    requires LineFree(modules)
    ensures Split(ModuleLoads(modules) + rest, '\n') == LoadLines(modules) + Split(rest, '\n')
  {
    ModuleLoadsAreLines(modules);
    LoadLinesLineFree(modules);
    SplitLines(LoadLines(modules), rest);
  }

  /** The module loads are exactly their script lines, each newline-terminated. */
  lemma {:induction false} ModuleLoadsAreLines(modules: seq<string>)
    ensures ModuleLoads(modules) == Lines(LoadLines(modules))
    decreases |modules|
  {
    if modules != [] {
      ModuleLoadsAreLines(modules[1..]);
      assert LoadLines(modules)[1..] == LoadLines(modules[1..]);
    }
  }

  lemma LoadLinesLineFree(modules: seq<string>)
    requires LineFree(modules)
    ensures LineFree(LoadLines(modules))
  {
    var prefix := "module load ";
    assert '\n' !in prefix;
    forall i | 0 <= i < |modules|
      ensures '\n' !in LoadLines(modules)[i]
    {
      assert LoadLines(modules)[i] == prefix + modules[i];
    }
  }

  // ---------------------------------------------------------------------
  // Environment assignments and the launch command
  // ---------------------------------------------------------------------

  /** The settings' environment words, then the job's, as the script lists them. */
  function EnvironmentWords(settings: SettingsManager.RenderingResourceSettings, job: JobInformation): (ws: seq<string>)
    ensures AllTokens(ws)
  {
    Words(settings.environmentVariables) + Words(job.environment)
  }

  /** Every environment word followed by one space. */
  function EnvironmentPrefix(settings: SettingsManager.RenderingResourceSettings, job: JobInformation): string {
    SpaceTerminated(EnvironmentWords(settings, job))
  }

  /**
   * The REST parameters a job-started renderer receives: the scheduler
   * template filled with the session's host, port and `rest<settings id><session id>`.
   */
  function SchedulerRestParameters(settings: SettingsManager.RenderingResourceSettings, s: Session): string {
    SettingsManager.FormatRestParameters(
      settings.schedulerRestParametersFormat, s.httpHost, IntToString(s.httpPort),
      "rest" + settings.id + s.id)
  }

  /** The parameters the command line gets: the REST parameters' words, then the request's. */
  function LaunchParameters(settings: SettingsManager.RenderingResourceSettings, s: Session, job: JobInformation): (ps: seq<string>)
    ensures AllTokens(ps)
  {
    Words(SchedulerRestParameters(settings, s)) + Words(job.params)
  }

  /**
   * The command line with each parameter after one space, emitted only when
   * the settings' environment text is non-empty.
   */
  function LaunchCommand(settings: SettingsManager.RenderingResourceSettings, s: Session, job: JobInformation): string {
    if settings.environmentVariables != "" then
      settings.commandLine + SpacePrefixed(LaunchParameters(settings, s, job))
    else ""
  }

  /** The line a script runs the renderer with: environment assignments, then the launch command. */
  function LaunchLine(settings: SettingsManager.RenderingResourceSettings, s: Session, job: JobInformation): string {
    EnvironmentPrefix(settings, job) + LaunchCommand(settings, s, job)
  }

  /**
   * The launch line splits into the environment words (settings first, then
   * the job's), followed, when the settings' environment is non-empty, by the
   * words of the command line and then every parameter in order; with an
   * empty settings environment nothing but the job's environment words remain.
   */
  lemma LaunchLineWords(settings: SettingsManager.RenderingResourceSettings, s: Session, job: JobInformation)
    ensures Words(LaunchLine(settings, s, job)) ==
      Words(settings.environmentVariables) + Words(job.environment) +
      (if settings.environmentVariables != ""
       then Words(settings.commandLine) + LaunchParameters(settings, s, job)
       else [])
  {
    var env := EnvironmentWords(settings, job);
    WordsSpaceTerminated(env, LaunchCommand(settings, s, job));
    if settings.environmentVariables != "" {
      WordsSpacePrefixed(settings.commandLine, LaunchParameters(settings, s, job));
    } else {
      assert Words(settings.environmentVariables) == [];
      assert Words(LaunchCommand(settings, s, job)) == [];
    }
  }

  /** A launch line holds no newline when the command line holds none. */
  lemma LaunchLineFree(settings: SettingsManager.RenderingResourceSettings, s: Session, job: JobInformation)
    requires '\n' !in settings.commandLine
    ensures '\n' !in LaunchLine(settings, s, job)
  {
    var env := EnvironmentWords(settings, job);
    TokensLineFree(env);
    SpaceTerminatedFree(env);
    if settings.environmentVariables != "" {
      var ps := LaunchParameters(settings, s, job);
      TokensLineFree(ps);
      SpacePrefixedFree(ps);
    }
  }

  lemma {:induction false} SpaceTerminatedFree(ts: seq<string>)
    requires LineFree(ts)
    ensures '\n' !in SpaceTerminated(ts)
    decreases |ts|
  {
    if ts != [] {
      SpaceTerminatedFree(ts[1..]);
      assert '\n' !in ts[0];
      assert SpaceTerminated(ts) == ts[0] + " " + SpaceTerminated(ts[1..]);
    }
  }

  lemma {:induction false} SpacePrefixedFree(ts: seq<string>)
    requires LineFree(ts)
    ensures '\n' !in SpacePrefixed(ts)
    decreases |ts|
  {
    if ts != [] {
      SpacePrefixedFree(ts[1..]);
      assert '\n' !in ts[0];
      assert SpacePrefixed(ts) == " " + ts[0] + SpacePrefixed(ts[1..]);
    }
  }
}

=== FILE: keep_alive.dfy ===
/**
 * One pass of the keep-alive sweep: every session whose expiry has passed
 * is marked STOPPING, has its process and job released, and is removed.
 * Nothing in the pass catches an exception: a stop that raises ends the
 * pass, and the keep-alive thread with it. The thread loop around the pass
 * and its sleep are not modelled.
 */
module KeepAlive {
  import opened Models
  import SessionManager

  /** Expired means strictly past: a session expiring exactly now survives. */
  predicate Expired(s: Session, now: int) {
    now > s.validUntil
  }

  /** The rows a pass over `rows` leaves in place, in their order. */
  function Survivors(rows: seq<Session>, now: int): (kept: seq<Session>)
    ensures |kept| <= |rows|
    decreases |rows|
  {
    if rows == [] then []
    else
      var last := rows[|rows| - 1];
      Survivors(rows[..|rows| - 1], now) + (if Expired(last, now) then [] else [last])
  }

  /** The stop calls a pass over `rows` issues, in order. */
  function SweepCalls(rows: seq<Session>, now: int): seq<StopCall>
    decreases |rows|
  {
    if rows == [] then []
    else
      var last := rows[|rows| - 1];
      SweepCalls(rows[..|rows| - 1], now) + (if Expired(last, now) then StopCalls(Closing(last)) else [])
  }

  /** A row survives exactly when it is in the table and not expired. */
  lemma {:induction false} SurvivorsExact(rows: seq<Session>, now: int, s: Session)
    ensures s in Survivors(rows, now) <==> s in rows && !Expired(s, now)
    decreases |rows|
  {
    if rows != [] {
      var init := rows[..|rows| - 1];
      SurvivorsExact(init, now, s);
      assert rows == init + [rows[|rows| - 1]];
    }
  }

  /**
   * Every stop call of a pass is for an expired row, marked STOPPING, and
   * only for a resource that row holds.
   */
  lemma {:induction false} SweepCallsOnlyExpired(rows: seq<Session>, now: int, c: StopCall)
    requires c in SweepCalls(rows, now)
    ensures c.session.status == Stopping
    ensures exists s :: s in rows && Expired(s, now) && c.session == Closing(s)
    ensures c.StopProcess? ==> HasProcess(c.session)
    ensures c.StopJob? ==> HasJob(c.session)
    decreases |rows|
  {
    var init := rows[..|rows| - 1];
    var last := rows[|rows| - 1];
    if c in SweepCalls(init, now) {
      SweepCallsOnlyExpired(init, now, c);
      var s :| s in init && Expired(s, now) && c.session == Closing(s);
      assert s in rows;
    } else {
      assert Expired(last, now) && c in StopCalls(Closing(last));
      var i :| 0 <= i < |StopCalls(Closing(last))| && StopCalls(Closing(last))[i] == c;
      assert c.session == Closing(last);
      assert last in rows;
    }
  }

  /** Every expired row with a process, or with a job, has it released by the pass. */
  lemma {:induction false} SweepStopsEveryExpired(rows: seq<Session>, now: int, s: Session)
    requires s in rows && Expired(s, now)
    ensures HasProcess(s) ==> StopProcess(Closing(s)) in SweepCalls(rows, now)
    ensures HasJob(s) ==> StopJob(Closing(s)) in SweepCalls(rows, now)
    decreases |rows|
  {
    var init := rows[..|rows| - 1];
    assert rows == init + [rows[|rows| - 1]];
    if s in init {
      SweepStopsEveryExpired(init, now, s);
    } else {
      assert s == rows[|rows| - 1];
    }
  }

  /** Which stop of a session raises: the process manager's or the job manager's. */
  datatype StopFault = ProcessFault | JobFault

  /** Closing `s` raises: the stop named in `faults` for its id is one the session needs. */
  predicate Raises(s: Session, faults: map<string, StopFault>) {
    s.id in faults && (if faults[s.id] == ProcessFault then HasProcess(s) else HasJob(s))
  }

  /** The stop calls made for a session whose closing raises, the raising one last. */
  function FaultCalls(s: Session, fault: StopFault): (calls: seq<StopCall>)
    ensures |calls| <= |StopCalls(Closing(s))|
    ensures forall i :: 0 <= i < |calls| ==> calls[i] == StopCalls(Closing(s))[i]
  {
    if fault == ProcessFault then (if HasProcess(s) then [StopProcess(Closing(s))] else [])
    else StopCalls(Closing(s))
  }

  /**
   * The table after a pass, its stop calls, and whether a stop raised.
   * The row whose stop raised stays, saved as STOPPING; the rows after it
   * are not looked at.
   */
  datatype PassResult = PassResult(table: seq<Session>, calls: seq<StopCall>, crashed: bool)

  /** The pass so far `r`, carried over one more row `s`. */
  function Advance(r: PassResult, s: Session, now: int, faults: map<string, StopFault>): PassResult {
    if r.crashed || !Expired(s, now) then r.(table := r.table + [s])
    else if Raises(s, faults) then PassResult(r.table + [Closing(s)], r.calls + FaultCalls(s, faults[s.id]), true)
    else r.(calls := r.calls + StopCalls(Closing(s)))
  }

  /** A pass over `rows` in order, stopping at the first expired row whose closing raises. */
  function Pass(rows: seq<Session>, now: int, faults: map<string, StopFault>): (r: PassResult)
    ensures |r.table| <= |rows|
    decreases |rows|
  {
    if rows == [] then PassResult([], [], false)
    else Advance(Pass(rows[..|rows| - 1], now, faults), rows[|rows| - 1], now, faults)
  }

  /** A pass ends early exactly when some expired row's closing raises. */
  lemma {:induction false} PassCrashExact(rows: seq<Session>, now: int, faults: map<string, StopFault>)
    ensures Pass(rows, now, faults).crashed <==>
      exists i :: 0 <= i < |rows| && Expired(rows[i], now) && Raises(rows[i], faults)
    decreases |rows|
  {
    if rows != [] {
      var init := rows[..|rows| - 1];
      PassCrashExact(init, now, faults);
      forall i | 0 <= i < |init|
        ensures init[i] == rows[i]
      {
      }
    }
  }

  /** When no closing raises, the pass removes exactly the expired rows and stops all of them. */
  lemma {:induction false} PassWithoutFaults(rows: seq<Session>, now: int, faults: map<string, StopFault>)
    requires forall i :: 0 <= i < |rows| && Expired(rows[i], now) ==> !Raises(rows[i], faults)
    ensures Pass(rows, now, faults) == PassResult(Survivors(rows, now), SweepCalls(rows, now), false)
    decreases |rows|
  {
    if rows != [] {
      var init := rows[..|rows| - 1];
      forall i | 0 <= i < |init| && Expired(init[i], now)
        ensures !Raises(init[i], faults)
      {
        assert init[i] == rows[i];
      }
      PassWithoutFaults(init, now, faults);
    }
  }

  /**
   * The first raising row ends the pass: the rows before it are swept, it
   * stays saved as STOPPING, and every later row stays as it was, expired
   * or not, with no stop call made for it.
   */
  lemma {:induction false} PassStopsAtFault(rows: seq<Session>, now: int, faults: map<string, StopFault>, j: nat)
    requires j < |rows| && Expired(rows[j], now) && Raises(rows[j], faults)
    requires forall i :: 0 <= i < j && Expired(rows[i], now) ==> !Raises(rows[i], faults)
    ensures Pass(rows, now, faults) ==
      PassResult(Survivors(rows[..j], now) + [Closing(rows[j])] + rows[j + 1..],
                 SweepCalls(rows[..j], now) + FaultCalls(rows[j], faults[rows[j].id]), true)
    decreases |rows|
  {
    var init := rows[..|rows| - 1];
    if j == |rows| - 1 {
      assert init == rows[..j];
      PassWithoutFaults(init, now, faults);
      assert rows[j + 1..] == [];
    } else {
      assert init[j] == rows[j];
      assert init[..j] == rows[..j];
      PassStopsAtFault(init, now, faults, j);
      assert rows[j + 1..] == init[j + 1..] + [rows[|rows| - 1]];
    }
  }

  /**
   * One pass over the rows of the session table: returns the table after
   * it, the stop calls made in order, and whether a stop raised.
   * `faults` says whose closing raises.
   */
  method Sweep(rows: seq<Session>, now: int, faults: map<string, StopFault>) returns (kept: seq<Session>, calls: seq<StopCall>, crashed: bool)
    ensures PassResult(kept, calls, crashed) == Pass(rows, now, faults)
    ensures crashed <==> exists i :: 0 <= i < |rows| && Expired(rows[i], now) && Raises(rows[i], faults)
    ensures !crashed ==> kept == Survivors(rows, now) && calls == SweepCalls(rows, now)
    ensures !crashed ==> forall s :: s in kept ==> !Expired(s, now)
  {
    kept := [];
    calls := [];
    crashed := false;
    var i := 0;
    while i < |rows|
      invariant 0 <= i <= |rows|
      invariant PassResult(kept, calls, crashed) == Pass(rows[..i], now, faults)
    {
      var s := rows[i];
      PassPrefixStep(rows, now, faults, i);
      if crashed || !Expired(s, now) {
        kept := kept + [s];
      } else if Raises(s, faults) {
        kept := kept + [Closing(s)];
        calls := calls + FaultCalls(s, faults[s.id]);
        crashed := true;
      } else {
        calls := calls + StopCalls(Closing(s));
      }
      i := i + 1;
    }
    assert rows[..|rows|] == rows;
    PassCrashExact(rows, now, faults);
    if !crashed {
      PassWithoutFaults(rows, now, faults);
      SurvivorsUnexpired(rows, now);
    }
  }

  /** The pass over one more row of `rows` advances the pass over the rows before it. */
  lemma PassPrefixStep(rows: seq<Session>, now: int, faults: map<string, StopFault>, i: nat)
    requires i < |rows|
    ensures Pass(rows[..i + 1], now, faults) == Advance(Pass(rows[..i], now, faults), rows[i], now, faults)
  {
    assert rows[..i + 1][..i] == rows[..i];
  }

  /** No survivor of a pass is expired. */
  lemma SurvivorsUnexpired(rows: seq<Session>, now: int)
    ensures forall s :: s in Survivors(rows, now) ==> !Expired(s, now)
  {
    forall s | s in Survivors(rows, now)
      ensures !Expired(s, now)
    {
      SurvivorsExact(rows, now, s);
    }
  }

  /**
   * A pass in which no stop raises, applied to the session table: the
   * expired sessions are removed, the rest untouched.
   */
  function SweepState(st: SessionManager.State, now: int): (r: SessionManager.State)
    ensures r.global == st.global
    ensures forall k :: k in r.sessions <==> k in st.sessions && !Expired(st.sessions[k], now)
    ensures forall k :: k in r.sessions ==> r.sessions[k] == st.sessions[k]
  {
    st.(sessions := map k | k in st.sessions && !Expired(st.sessions[k], now) :: st.sessions[k])
  }

  /** A session kept alive at `now` survives every pass up to `now` plus the timeout. */
  lemma KeepAliveSurvivesSweep(st: SessionManager.State, id: string, now: int, later: int)
    requires id in st.sessions && now <= later <= now + st.global.keepAliveTimeout
    ensures id in SweepState(SessionManager.KeepAliveSession(st, id, now).state, later).sessions
  {
    SessionManager.KeepAliveDefersExpiry(st, id, now, later);
  }

  /** A second pass at the same moment removes nothing more. */
  lemma SweepIdempotent(st: SessionManager.State, now: int)
    ensures SweepState(SweepState(st, now), now) == SweepState(st, now)
  {
    var once := SweepState(st, now);
    assert SweepState(once, now).sessions == once.sessions;
  }
}

=== FILE: models.dfy ===
/**
 * The persistent records of the session service: the session status codes,
 * the Session row and the single SystemGlobalSettings row.
 */
module Models {
  import opened Common

  /**
   * Session status. The first five are the codes the session model defines
   * (0..4). `Scheduling` and `Failed` are the two further statuses the SLURM
   * job manager assigns while trying hosts; the session model gives them no
   * numeric code.
   */
  datatype Status = Stopped | Scheduled | Starting | Running | Stopping | Scheduling | Failed

  /** The numeric code a status is stored and reported as, where it has one. */
  function Code(s: Status): (c: Option<int>)
    ensures c.Some? <==> !(s.Scheduling? || s.Failed?)
    ensures c.Some? ==> 0 <= c.value <= 4
  {
    match s
    case Stopped => Some(0)
    case Scheduled => Some(1)
    case Starting => Some(2)
    case Running => Some(3)
    case Stopping => Some(4)
    case Scheduling => None
    case Failed => None
  }

  /** The status a stored code stands for. */
  function StatusOf(code: int): (s: Option<Status>)
    ensures s.Some? <==> 0 <= code <= 4
  {
    if code == 0 then Some(Stopped)
    else if code == 1 then Some(Scheduled)
    else if code == 2 then Some(Starting)
    else if code == 3 then Some(Running)
    else if code == 4 then Some(Stopping)
    else None
  }

  /** The codes 0..4 and the five defined statuses are in one-to-one correspondence. */
  lemma CodeRoundTrip(s: Status, code: int)
    ensures Code(s) == Some(code) <==> StatusOf(code) == Some(s)
  {
  }

  /** Distinct defined statuses have distinct codes. */
  lemma CodeInjective(s: Status, t: Status)
    requires Code(s).Some? && Code(s) == Code(t)
    ensures s == t
  {
  }

  /** The "no local process" value of `process_pid`. */
  const NO_PROCESS := -1

  /** The default of `http_host`. */
  const DEFAULT_HTTP_HOST := "localhost"

  /** The default of `renderer_id`. */
  const UNDEFINED_RENDERER := "undefined"

  /**
   * One row of the session table. Times are whole seconds. `clusterNode`
   * is the attribute the SLURM job manager attaches to the session while
   * allocating. `rendererId` is the backend selector (the browser calls it
   * `configuration_id`).
   */
  datatype Session = Session(
    id: string,
    created: int,
    validUntil: int,
    owner: string,
    rendererId: string,
    jobId: string,
    processPid: int,
    httpHost: string,
    httpPort: int,
    command: string,
    parameters: string,
    status: Status,
    clusterNode: string)

  predicate HasProcess(s: Session) {
    s.processPid != NO_PROCESS
  }

  predicate HasJob(s: Session) {
    s.jobId != ""
  }

  /** A session row as the session manager inserts it, every other column at its default. */
  function NewSession(id: string, owner: string, rendererId: string, now: int, timeout: int): (s: Session)
    ensures s.id == id && s.owner == owner && s.rendererId == rendererId
    ensures s.status == Stopped && Code(s.status) == Some(0)
    ensures !HasProcess(s) && !HasJob(s)
    ensures s.httpHost == DEFAULT_HTTP_HOST && s.httpPort == 0
    ensures s.validUntil == now + timeout
  {
    Session(id, now, now + timeout, owner, rendererId, "", NO_PROCESS,
            DEFAULT_HTTP_HOST, 0, "", "", Stopped, "")
  }

  /**
   * A call into the process manager or the job manager that releases a
   * session's resources, carrying the session as the caller saw it.
   */
  datatype StopCall = StopProcess(session: Session) | StopJob(session: Session)

  /** The session as it is saved just before its resources are released. */
  function Closing(s: Session): (c: Session)
    ensures c.status == Stopping
    ensures c.(status := s.status) == s
  {
    s.(status := Stopping)
  }

  /**
   * The stop calls closing a session issues, in order: the local process
   * only if there is one, then the job only if there is one.
   */
  function StopCalls(s: Session): (calls: seq<StopCall>)
    ensures StopProcess(s) in calls <==> HasProcess(s)
    ensures StopJob(s) in calls <==> HasJob(s)
    ensures forall i :: 0 <= i < |calls| ==> calls[i].session == s
    ensures |calls| == 2 ==> calls == [StopProcess(s), StopJob(s)]
  {
    (if HasProcess(s) then [StopProcess(s)] else []) + (if HasJob(s) then [StopJob(s)] else [])
  }

  /** The single row of global settings. */
  datatype GlobalSettings = GlobalSettings(sessionCreation: bool, keepAliveTimeout: int)

  /** Default keep-alive timeout of the global settings model, in seconds. */
  const MODEL_KEEP_ALIVE_TIMEOUT := 1000

  /** Keep-alive timeout the session manager writes when it creates the row, in seconds. */
  const KEEP_ALIVE_TIMEOUT := 600

  /** The row as the model's field defaults describe it. */
  function DefaultGlobalSettings(): (g: GlobalSettings)
    ensures g.sessionCreation
    ensures g.keepAliveTimeout == MODEL_KEEP_ALIVE_TIMEOUT
  {
    GlobalSettings(true, MODEL_KEEP_ALIVE_TIMEOUT)
  }

  /** The row the session manager inserts when none exists yet. */
  function InitialGlobalSettings(): (g: GlobalSettings)
    ensures g.sessionCreation
    ensures g.keepAliveTimeout == KEEP_ALIVE_TIMEOUT
  {
    GlobalSettings(true, KEEP_ALIVE_TIMEOUT)
  }
}

=== FILE: process_manager.dfy ===
/**
 * The process manager: launching a renderer as a local process from its
 * settings record, and stopping it again by pid. Process creation and
 * signals are external; the model returns the argument vector it would
 * launch and the actions it would take.
 */
module ProcessManager {
  import opened Common
  import opened Text
  import opened Models
  import SettingsManager

  /** The schema value a locally launched renderer receives. */
  function ProcessSchema(settings: SettingsManager.RenderingResourceSettings, s: Session): (schema: string)
    ensures IsPrefix("rest", schema)
    ensures schema[4..] == settings.id + s.id
  {
    var schema := "rest" + settings.id + s.id;
    assert schema[..4] == "rest";
    schema
  }

  /** The REST parameters of the settings' process template, filled in for the session. */
  function ProcessRestParameters(settings: SettingsManager.RenderingResourceSettings, s: Session): string {
    SettingsManager.FormatRestParameters(settings.processRestParametersFormat, s.httpHost,
                                         IntToString(s.httpPort), ProcessSchema(settings, s))
  }

  /**
   * The argument vector of the launched process: the command line as one
   * argument, then the words of the filled-in REST parameters, then the
   * words of the caller's parameters.
   */
  function Argv(settings: SettingsManager.RenderingResourceSettings, s: Session, params: string): (argv: seq<string>)
    ensures |argv| >= 1 && argv[0] == settings.commandLine
    ensures forall i :: 1 <= i < |argv| ==> IsToken(argv[i])
    ensures argv[1..] == Words(ProcessRestParameters(settings, s)) + Words(params)
  {
    var argv := [settings.commandLine] + Words(ProcessRestParameters(settings, s)) + Words(params);
    assert argv[1..] == Words(ProcessRestParameters(settings, s)) + Words(params);
    argv
  }

  /**
   * Parameters written as space-separated tokens reach the process as
   * exactly those arguments, after the REST parameters.
   */
  lemma ArgvEndsWithParameters(settings: SettingsManager.RenderingResourceSettings, s: Session, ts: seq<string>)
    requires AllTokens(ts)
    ensures var argv := Argv(settings, s, SpacePrefixed(ts));
      |argv| >= |ts| + 1 && argv[|argv| - |ts|..] == ts
  {
    WordsSpacePrefixed("", ts);
    assert "" + SpacePrefixed(ts) == SpacePrefixed(ts);
    assert Words(SpacePrefixed(ts)) == ts;
    var argv := Argv(settings, s, SpacePrefixed(ts));
    var rest := Words(ProcessRestParameters(settings, s));
    assert argv == [settings.commandLine] + rest + ts;
    assert argv[|argv| - |ts|..] == ts;
  }

  /** A template without placeholders contributes its own words, whatever the session. */
  lemma ArgvWithPlainTemplate(settings: SettingsManager.RenderingResourceSettings, s: Session, params: string)
    requires var f := settings.processRestParametersFormat;
      !Contains(f, SettingsManager.REST_HOSTNAME) && !Contains(f, SettingsManager.REST_PORT) && !Contains(f, SettingsManager.REST_SCHEMA)
    ensures Argv(settings, s, params) == [settings.commandLine] + Words(settings.processRestParametersFormat) + Words(params)
  {
    SettingsManager.FormatWithoutPlaceholders(settings.processRestParametersFormat, s.httpHost,
                                              IntToString(s.httpPort), ProcessSchema(settings, s));
  }

  /**
   * How a start ended: a reply with the session as it then stands and the
   * argument vector launched (if any), or the operating system's refusal to
   * create the process, which escapes to the caller.
   */
  datatype StartOutcome =
    | StartReturned(session: Session, response: Response, argv: Option<seq<string>>)
    | StartRaised(error: string, argv: Option<seq<string>>)

  /**
   * Launches the renderer whose settings are stored under the session's
   * lower-cased renderer id. `pid` is the id the operating system gives
   * the new process and `spawnError` its refusal to create one, if any;
   * only the missing settings record is caught. `environment` is accepted
   * and not used for the launch.
   */
  function Start(store: SettingsManager.Store, s: Session, params: string, environment: string, pid: int, spawnError: Option<string>): (r: StartOutcome)
    ensures r.StartRaised? <==> Lower(s.rendererId) in store && spawnError.Some?
    ensures r.StartReturned? && r.response.code == HTTP_OK <==> Lower(s.rendererId) in store && spawnError.None?
    ensures Lower(s.rendererId) !in store ==>
      r == StartReturned(s, Response(HTTP_NOT_FOUND, SettingsManager.SETTINGS_DOES_NOT_EXIST), None)
    ensures Lower(s.rendererId) in store ==> r.argv == Some(Argv(store[Lower(s.rendererId)], s, params))
    ensures r.StartRaised? ==> r.error == spawnError.value
    ensures r.StartReturned? && r.response.code == HTTP_OK ==>
      var settings := store[Lower(s.rendererId)];
      && r.session == s.(processPid := pid, status := Starting)
      && r.response.body == settings.id + " successfully started [" + IntToString(pid) + "]"
  {
    match SettingsManager.GetById(store, Lower(s.rendererId))
    case None => StartReturned(s, Response(HTTP_NOT_FOUND, SettingsManager.SETTINGS_DOES_NOT_EXIST), None)
    case Some(settings) =>
      var argv := Argv(settings, s, params);
      if spawnError.Some? then StartRaised(spawnError.value, Some(argv))
      else
        StartReturned(s.(processPid := pid, status := Starting),
                      Response(HTTP_OK, settings.id + " successfully started [" + IntToString(pid) + "]"),
                      Some(argv))
  }

  /** The environment argument has no effect on a start. */
  lemma StartIgnoresEnvironment(store: SettingsManager.Store, s: Session, params: string, e1: string, e2: string, pid: int, spawnError: Option<string>)
    ensures Start(store, s, params, e1, pid, spawnError) == Start(store, s, params, e2, pid, spawnError)
  {
  }

  /**
   * A started process is found again by a stop: a session started from a
   * renderer id stored in lower case has a process, and stopping it signals
   * that process.
   */
  lemma StartThenStop(store: SettingsManager.Store, s: Session, params: string, environment: string, pid: int, stillAlive: bool)
    requires pid != NO_PROCESS && s.rendererId == Lower(s.rendererId) && s.rendererId in store
    ensures var r := Start(store, s, params, environment, pid, None);
      && r.StartReturned? && HasProcess(r.session)
      && Signal(pid, SIGTERM) in Stop(store, r.session, None, stillAlive, None, None).actions
  {
  }

  // ---------------------------------------------------------------------
  // stop
  // ---------------------------------------------------------------------

  const SIGTERM := 15
  const SIGKILL := 9

  /** What stopping a process does to the outside world. */
  datatype ProcessAction =
    | ExitRequest(url: string)       // the renderer's graceful EXIT command
    | Signal(pid: int, signal: int)  // os.kill; signal 0 only probes
    | Reap                           // collect any finished child

  /** The result of a stop: a reply, or an exception that escapes to the caller. */
  datatype StopOutcome =
    | Returned(response: Response, actions: seq<ProcessAction>)
    | Raised(error: string, actions: seq<ProcessAction>)

  /** The renderer's EXIT command address. */
  function ExitUrl(s: Session): string {
    "http://" + s.httpHost + ":" + IntToString(s.httpPort) + "/EXIT"
  }

  /**
   * Stops the session's process: an EXIT request when the settings ask for
   * a graceful exit, SIGTERM, a probe, SIGKILL when `kill` says so, and a
   * reap. `termError`, `killError` and `reapError` are the operating
   * system's refusals of SIGTERM, SIGKILL and the reap (`os.waitpid` with no
   * child left refuses); each is answered 400. The settings are looked up
   * under the renderer id as stored; a missing record raises.
   */
  function StopKillingWhen(store: SettingsManager.Store, s: Session, termError: Option<string>, kill: bool,
                           killError: Option<string>, reapError: Option<string>): (r: StopOutcome)
    ensures !HasProcess(s) ==> r == Returned(Response(HTTP_NOT_FOUND, "Process does not exist"), [])
    ensures HasProcess(s) && s.rendererId !in store ==> r.Raised?
    ensures forall i :: 0 <= i < |r.actions| && r.actions[i].Signal? ==> r.actions[i].pid == s.processPid
    ensures Signal(s.processPid, SIGTERM) in r.actions <==> HasProcess(s) && s.rendererId in store
    ensures Signal(s.processPid, SIGKILL) in r.actions <==> HasProcess(s) && s.rendererId in store && termError.None? && kill
    ensures (exists u :: ExitRequest(u) in r.actions) <==> HasProcess(s) && s.rendererId in store && store[s.rendererId].gracefulExit
    ensures Reap in r.actions <==> HasProcess(s) && s.rendererId in store && termError.None? && (!kill || killError.None?)
    ensures r.Returned? && r.response.code == HTTP_OK <==>
      HasProcess(s) && s.rendererId in store && termError.None? && (!kill || killError.None?) && reapError.None?
    ensures Reap in r.actions && reapError.Some? ==> r == Returned(Response(HTTP_BAD_REQUEST, reapError.value), r.actions)
    ensures r.Returned? && r.response.code == HTTP_OK ==>
      && r.response.body == "Successfully closed process " + IntToString(s.processPid)
      && |r.actions| > 0 && r.actions[|r.actions| - 1] == Reap
  {
    if !HasProcess(s) then Returned(Response(HTTP_NOT_FOUND, "Process does not exist"), [])
    else if s.rendererId !in store then Raised(SettingsManager.SETTINGS_DOES_NOT_EXIST, [])
    else
      var exit := if store[s.rendererId].gracefulExit then [ExitRequest(ExitUrl(s))] else [];
      var term := exit + [Signal(s.processPid, SIGTERM)];
      if termError.Some? then Returned(Response(HTTP_BAD_REQUEST, termError.value), term)
      else
        var probed := term + [Signal(s.processPid, 0)];
        if kill then
          var killed := probed + [Signal(s.processPid, SIGKILL)];
          if killError.Some? then Returned(Response(HTTP_BAD_REQUEST, killError.value), killed)
          else Reaped(s, killed, reapError)
        else Reaped(s, probed, reapError)
  }

  /** The reap that ends a stop whose signals went through, and the reply that follows it. */
  function Reaped(s: Session, actions: seq<ProcessAction>, reapError: Option<string>): StopOutcome {
    match reapError
    case Some(e) => Returned(Response(HTTP_BAD_REQUEST, e), actions + [Reap])
    case None => Returned(Response(HTTP_OK, "Successfully closed process " + IntToString(s.processPid)), actions + [Reap])
  }

  /**
   * What a stop of the session's process raises, if anything: the settings
   * lookup fails for a renderer id not stored as written; every operating
   * system failure is caught and answered.
   */
  function StopError(store: SettingsManager.Store, s: Session): (e: Option<string>)
    ensures forall termError, kill, killError, reapError ::
      e.Some? <==> StopKillingWhen(store, s, termError, kill, killError, reapError).Raised?
    ensures e.Some? ==> e.value == SettingsManager.SETTINGS_DOES_NOT_EXIST
  {
    if HasProcess(s) && s.rendererId !in store then Some(SettingsManager.SETTINGS_DOES_NOT_EXIST) else None
  }

  /**
   * The stop as written: SIGKILL follows only when the probe raises, that
   * is when no process `pid` is left. `stillAlive` says whether the
   * process survived SIGTERM.
   */
  function StopAsWritten(store: SettingsManager.Store, s: Session, termError: Option<string>, stillAlive: bool,
                         killError: Option<string>, reapError: Option<string>): (r: StopOutcome)
    ensures Signal(s.processPid, SIGKILL) in r.actions ==> !stillAlive
  {
    StopKillingWhen(store, s, termError, !stillAlive, killError, reapError)
  }

  /** A process that ignores SIGTERM is reported closed and never receives SIGKILL. */
  lemma StopAsWrittenSparesLiveProcess(store: SettingsManager.Store, s: Session, killError: Option<string>)
    requires HasProcess(s) && s.rendererId in store
    ensures var r := StopAsWritten(store, s, None, true, killError, None);
      r.Returned? && r.response.code == HTTP_OK && Signal(s.processPid, SIGKILL) !in r.actions
  {
  }

  /** The stop as intended: a process still alive after SIGTERM is killed. */
  function Stop(store: SettingsManager.Store, s: Session, termError: Option<string>, stillAlive: bool,
                killError: Option<string>, reapError: Option<string>): (r: StopOutcome)
    ensures Signal(s.processPid, SIGKILL) in r.actions <==> HasProcess(s) && s.rendererId in store && termError.None? && stillAlive
    ensures r.Returned? && r.response.code == HTTP_OK ==> !stillAlive || Signal(s.processPid, SIGKILL) in r.actions
  {
    StopKillingWhen(store, s, termError, stillAlive, killError, reapError)
  }
}

=== FILE: qml_launcher.dfy ===
/**
 * The QML demo launcher: `launch` opens a session for a demo, and every
 * completed request moves a two-state machine, NONE to CREATED (issuing the
 * schedule request) and CREATED back to NONE. `updateStatus` turns the
 * status reply into the text of the status signal.
 */
module QmlLauncher {
  import opened Common

  const STATUS_NONE := 0
  const STATUS_SESSION_CREATED := 1
  const STATUS_SESSION_RUNNING := 2

  /** The user name the launcher opens sessions for. */
  const OWNER := "bbpdemolauncher"

  /** The JSON bodies the launcher sends: the session parameters, or the (empty) renderer parameters. */
  datatype Body = SessionBody(owner: string, configurationId: string) | EmptyObject

  /** A request, with the value of its `HBP` header. */
  datatype Request = Request(verb: string, path: string, hbp: string, body: Option<Body>)

  /** The launcher's state: the current status and the demo the session is for. */
  datatype Launcher = Launcher(status: int, configurationId: string)

  function Initial(): (l: Launcher)
    ensures l.status == STATUS_NONE && l.configurationId == ""
  {
    Launcher(STATUS_NONE, "")
  }

  datatype Step = Step(launcher: Launcher, requests: seq<Request>)

  /** `createSession`: records the demo, then posts the session parameters naming it. */
  function CreateSession(l: Launcher, demo: string): (r: Step)
    ensures r.launcher == l.(configurationId := demo)
    ensures |r.requests| == 1
    ensures r.requests[0].verb == "POST" && r.requests[0].path == "/session/"
    ensures r.requests[0].body == Some(SessionBody(OWNER, demo))
    ensures forall q :: q in r.requests ==> q.hbp == demo
  {
    Step(l.(configurationId := demo), [Request("POST", "/session/", demo, Some(SessionBody(OWNER, demo)))])
  }

  /**
   * A request completed, whatever its HTTP status: in NONE the launcher
   * moves to CREATED and sends the schedule request; in CREATED it moves
   * back to NONE and sends nothing. No other status is ever entered.
   */
  function OnDone(l: Launcher, httpStatus: int): (r: Step)
    ensures r.launcher.configurationId == l.configurationId
    ensures l.status == STATUS_NONE ==>
      r.launcher.status == STATUS_SESSION_CREATED && |r.requests| == 1 &&
      r.requests[0].verb == "PUT" && r.requests[0].path == "/session/schedule"
    ensures l.status == STATUS_SESSION_CREATED ==> r.launcher.status == STATUS_NONE && r.requests == []
    ensures l.status != STATUS_NONE && l.status != STATUS_SESSION_CREATED ==> r == Step(l, [])
    ensures forall q :: q in r.requests ==> q.hbp == l.configurationId
  {
    if l.status == STATUS_NONE then
      Step(l.(status := STATUS_SESSION_CREATED),
           [Request("PUT", "/session/schedule", l.configurationId, Some(EmptyObject))])
    else if l.status == STATUS_SESSION_CREATED then Step(l.(status := STATUS_NONE), [])
    else Step(l, [])
  }

  /** The transitions look only at completion, never at the HTTP status. */
  lemma OnDoneIgnoresStatus(l: Launcher, s1: int, s2: int)
    ensures OnDone(l, s1) == OnDone(l, s2)
  {
  }

  /**
   * A whole launch from NONE: the session post completes, the schedule
   * request it triggers completes, and the launcher is back in NONE with
   * the demo recorded, having sent exactly the post and the schedule.
   */
  lemma LaunchCycle(l: Launcher, demo: string, createStatus: int, scheduleStatus: int)
    requires l.status == STATUS_NONE
    ensures var c := CreateSession(l, demo);
      var d1 := OnDone(c.launcher, createStatus);
      var d2 := OnDone(d1.launcher, scheduleStatus);
      && d2.launcher == Launcher(STATUS_NONE, demo)
      && d2.requests == []
      && c.requests + d1.requests ==
         [Request("POST", "/session/", demo, Some(SessionBody(OWNER, demo))),
          Request("PUT", "/session/schedule", demo, Some(EmptyObject))]
  {
  }

  /** The status launcher never reaches RUNNING: from NONE or CREATED the status stays in those two. */
  lemma NeverRunning(l: Launcher, httpStatus: int)
    requires l.status == STATUS_NONE || l.status == STATUS_SESSION_CREATED
    ensures var r := OnDone(l, httpStatus).launcher.status;
      r != STATUS_SESSION_RUNNING && (r == STATUS_NONE || r == STATUS_SESSION_CREATED)
  {
  }

  /** The status request carries the demo as its `HBP` header. */
  function StatusRequest(l: Launcher): (q: Request)
    ensures q.verb == "GET" && q.path == "/session/status" && q.hbp == l.configurationId && q.body.None?
  {
    Request("GET", "/session/status", l.configurationId, None)
  }

  /** How the status reply's text parsed: not JSON, or JSON with or without a `description`. */
  datatype Parsed = NotJson | Json(description: Option<string>)

  /**
   * `updateStatus`: the signal carries the parsed description, or the raw
   * text when the reply is not JSON; a JSON reply without a description
   * signals nothing defined (None).
   */
  function StatusSignal(text: string, parsed: Parsed): (sig: Option<string>)
    ensures parsed.NotJson? ==> sig == Some(text)
    ensures parsed.Json? ==> sig == parsed.description
  {
    match parsed
    case NotJson => Some(text)
    case Json(description) => description
  }
}

=== FILE: session_manager.dfy ===
/**
 * The session manager: the table of user sessions and the global settings
 * row, with create / delete / suspend / resume / clear / keep-alive and the
 * status query that moves a session through its lifecycle. Every reply the
 * service would obtain from elsewhere (the renderer's vocabulary, the job
 * manager's hostname lookup, the clock) is a parameter.
 */
module SessionManager {
  import opened Common
  import opened Text
  import opened Models

  type Sessions = map<string, Session>

  /** The session table together with the single global settings row. */
  datatype State = State(sessions: Sessions, global: GlobalSettings)

  /** The state after an operation and the HTTP reply it produces. */
  datatype Outcome = Outcome(state: State, response: Response)

  /** The message of the ORM's lookup failure for a missing session. */
  const SESSION_DOES_NOT_EXIST := "Session matching query does not exist."

  /** The status code the service reports when a renderer cannot be reached. */
  const HTTP_STATUS_ERROR := 503

  /** The name of the cookie carrying the session id. */
  const COOKIE_ID := "HBP"

  /** The renderer command that lists its vocabulary. */
  const VOCABULARY_COMMAND := "vocabulary"

  /** The state the service starts from when no global row exists yet. */
  function InitialState(): (st: State)
    ensures st.sessions == map[]
    ensures st.global.sessionCreation
  {
    State(map[], InitialGlobalSettings())
  }

  // ---------------------------------------------------------------------
  // create / delete
  // ---------------------------------------------------------------------

  /**
   * Inserts a new session when creation is not suspended and the id is
   * free. `conflict` is the text of the database's integrity error.
   */
  function CreateSession(st: State, id: string, owner: string, rendererId: string, now: int, conflict: string): (r: Outcome)
    ensures r.response.code == HTTP_FORBIDDEN <==> !st.global.sessionCreation
    ensures r.response.code == HTTP_CONFLICT <==> st.global.sessionCreation && id in st.sessions
    ensures r.response.code == HTTP_CREATED <==> st.global.sessionCreation && id !in st.sessions
    ensures r.response.code != HTTP_CREATED ==> r.state == st
    ensures r.response.code == HTTP_CREATED ==>
      && r.state.global == st.global
      && r.state.sessions.Keys == st.sessions.Keys + {id}
      && (forall k :: k in st.sessions ==> r.state.sessions[k] == st.sessions[k])
      && r.state.sessions[id] == NewSession(id, owner, rendererId, now, st.global.keepAliveTimeout)
      && r.response.body == "Session " + id + " successfully created"
  {
    if !st.global.sessionCreation then
      Outcome(st, Response(HTTP_FORBIDDEN, "Session creation is currently suspended"))
    else if id in st.sessions then
      Outcome(st, Response(HTTP_CONFLICT, conflict))
    else
      var s := NewSession(id, owner, rendererId, now, st.global.keepAliveTimeout);
      Outcome(st.(sessions := st.sessions[id := s]),
              Response(HTTP_CREATED, "Session " + id + " successfully created"))
  }

  /** The state after a delete, its reply, and the stop calls it issued. */
  datatype DeleteOutcome = DeleteOutcome(state: State, response: Response, calls: seq<StopCall>)

  /**
   * Marks the session STOPPING, releases its process and job, and removes
   * it. `processStopError` and `jobStopError` are the failures the process
   * manager and the job manager raise while stopping, if any. A failure
   * ends the delete: the session stays, saved as STOPPING, no later stop is
   * attempted, and the failure is reported with 404 as every other
   * exception is.
   */
  function DeleteSession(st: State, id: string, processStopError: Option<string>, jobStopError: Option<string>): (r: DeleteOutcome)
    ensures r.response.code == HTTP_OK || r.response.code == HTTP_NOT_FOUND
    ensures r.state.global == st.global
    ensures id !in st.sessions ==> r.state == st && r.calls == [] && r.response == Response(HTTP_NOT_FOUND, SESSION_DOES_NOT_EXIST)
    ensures id in st.sessions && ProcessStopFails(st.sessions[id], processStopError) ==>
      r.calls == [StopProcess(Closing(st.sessions[id]))] && r.response == Response(HTTP_NOT_FOUND, processStopError.value)
    ensures id in st.sessions && !ProcessStopFails(st.sessions[id], processStopError) ==>
      r.calls == StopCalls(Closing(st.sessions[id]))
    ensures r.response.code == HTTP_OK <==>
      id in st.sessions && !ProcessStopFails(st.sessions[id], processStopError) && (jobStopError.None? || !HasJob(st.sessions[id]))
    ensures r.response.code == HTTP_OK ==>
      r.state.sessions == st.sessions - {id} && r.response.body == id + " successfully destroyed"
    ensures id in st.sessions && r.response.code == HTTP_NOT_FOUND ==>
      r.state.sessions == st.sessions[id := Closing(st.sessions[id])]
  {
    if id !in st.sessions then
      DeleteOutcome(st, Response(HTTP_NOT_FOUND, SESSION_DOES_NOT_EXIST), [])
    else
      var s := Closing(st.sessions[id]);
      var kept := st.(sessions := st.sessions[id := s]);
      if ProcessStopFails(s, processStopError) then
        DeleteOutcome(kept, Response(HTTP_NOT_FOUND, processStopError.value), [StopProcess(s)])
      else if HasJob(s) && jobStopError.Some? then
        DeleteOutcome(kept, Response(HTTP_NOT_FOUND, jobStopError.value), StopCalls(s))
      else
        DeleteOutcome(st.(sessions := st.sessions - {id}), Response(HTTP_OK, id + " successfully destroyed"), StopCalls(s))
  }

  /** Stopping the session's process raises: it has one, and the process manager fails. */
  predicate ProcessStopFails(s: Session, processStopError: Option<string>) {
    HasProcess(s) && processStopError.Some?
  }

  /** A failing process stop keeps the job running: the job manager is never called. */
  lemma ProcessStopFailureKeepsJob(st: State, id: string, error: string, jobStopError: Option<string>)
    requires id in st.sessions && HasProcess(st.sessions[id]) && HasJob(st.sessions[id])
    ensures var d := DeleteSession(st, id, Some(error), jobStopError);
      && d.response.code == HTTP_NOT_FOUND
      && (forall c :: c in d.calls ==> !c.StopJob?)
      && id in d.state.sessions && HasJob(d.state.sessions[id])
  {
  }

  /** A session just created and deleted again leaves the table as it was, and nothing is stopped. */
  lemma CreateThenDelete(st: State, id: string, owner: string, rendererId: string, now: int, conflict: string, processStopError: Option<string>, jobStopError: Option<string>)
    requires st.global.sessionCreation && id !in st.sessions
    ensures var c := CreateSession(st, id, owner, rendererId, now, conflict);
      var d := DeleteSession(c.state, id, processStopError, jobStopError);
      d.state == st && d.calls == [] && d.response.code == HTTP_OK
  {
    var c := CreateSession(st, id, owner, rendererId, now, conflict);
    assert c.state.sessions - {id} == st.sessions;
  }

  /** A second create with the same id is refused and leaves the first session as it was. */
  lemma CreateTwice(st: State, id: string, owner: string, rendererId: string, now: int, owner2: string, rendererId2: string, now2: int, conflict: string)
    requires st.global.sessionCreation
    ensures var c := CreateSession(st, id, owner, rendererId, now, conflict);
      var c2 := CreateSession(c.state, id, owner2, rendererId2, now2, conflict);
      c2.response.code == HTTP_CONFLICT && c2.state == c.state
  {
  }

  /** A freshly created session reports status code 0 on its first query. */
  lemma CreatedSessionReportsStopped(st: State, id: string, owner: string, rendererId: string, now: int, conflict: string, vocabulary: VocabularyReply, jobHostname: string)
    requires st.global.sessionCreation && id !in st.sessions
    ensures var c := CreateSession(st, id, owner, rendererId, now, conflict);
      var q := QueryStatus(c.state, id, now, vocabulary, jobHostname);
      q.result.Reported? && Code(q.result.status) == Some(0)
  {
  }

  // ---------------------------------------------------------------------
  // suspend / resume / clear
  // ---------------------------------------------------------------------

  /** Stops the creation of new sessions. */
  function SuspendSessions(st: State): (r: Outcome)
    ensures r.response.code == HTTP_OK
    ensures !r.state.global.sessionCreation
    ensures r.state.sessions == st.sessions
    ensures r.state.global.keepAliveTimeout == st.global.keepAliveTimeout
    ensures r.response.body == (if st.global.sessionCreation then "Creation of new session now suspended"
                                else "Session creation already suspended")
  {
    if !st.global.sessionCreation then
      Outcome(st, Response(HTTP_OK, "Session creation already suspended"))
    else
      Outcome(st.(global := st.global.(sessionCreation := false)),
              Response(HTTP_OK, "Creation of new session now suspended"))
  }

  /** Allows the creation of new sessions again. */
  function ResumeSessions(st: State): (r: Outcome)
    ensures r.response.code == HTTP_OK
    ensures r.state.global.sessionCreation
    ensures r.state.sessions == st.sessions
    ensures r.state.global.keepAliveTimeout == st.global.keepAliveTimeout
    ensures r.response.body == (if st.global.sessionCreation then "Session creation already resumed"
                                else "Creation of new session now resumed")
  {
    if st.global.sessionCreation then
      Outcome(st, Response(HTTP_OK, "Session creation already resumed"))
    else
      Outcome(st.(global := st.global.(sessionCreation := true)),
              Response(HTTP_OK, "Creation of new session now resumed"))
  }

  /** Suspending twice changes nothing the second time and says so. */
  lemma SuspendIdempotent(st: State)
    ensures SuspendSessions(SuspendSessions(st).state).state == SuspendSessions(st).state
    ensures SuspendSessions(SuspendSessions(st).state).response.body == "Session creation already suspended"
  {
  }

  /** Resuming twice changes nothing the second time and says so. */
  lemma ResumeIdempotent(st: State)
    ensures ResumeSessions(ResumeSessions(st).state).state == ResumeSessions(st).state
    ensures ResumeSessions(ResumeSessions(st).state).response.body == "Session creation already resumed"
  {
  }

  /** Suspending and resuming restores a state in which creation was allowed; the reverse order restores one in which it was not. */
  lemma SuspendResumeRoundTrip(st: State)
    ensures st.global.sessionCreation ==> ResumeSessions(SuspendSessions(st).state).state == st
    ensures !st.global.sessionCreation ==> SuspendSessions(ResumeSessions(st).state).state == st
  {
  }

  /** While creation is suspended every create is refused, whatever the id. */
  lemma SuspendedRefusesCreate(st: State, id: string, owner: string, rendererId: string, now: int, conflict: string)
    ensures var s := SuspendSessions(st).state;
      CreateSession(s, id, owner, rendererId, now, conflict) == Outcome(s, Response(HTTP_FORBIDDEN, "Session creation is currently suspended"))
  {
  }

  /** Removes every session; the global row is kept. */
  function ClearSessions(st: State): (r: Outcome)
    ensures r.state.sessions == map[] && r.state.global == st.global
    ensures r.response == Response(HTTP_OK, "Sessions cleared")
  {
    Outcome(st.(sessions := map[]), Response(HTTP_OK, "Sessions cleared"))
  }

  // ---------------------------------------------------------------------
  // vocabulary
  // ---------------------------------------------------------------------

  /**
   * What asking a renderer for its vocabulary returned: a transport error
   * with its text, or the parsed lists together with the raw body.
   */
  datatype VocabularyReply =
    | Unreachable(error: string)
    | Reply(subscribed: seq<string>, published: seq<string>, raw: string)

  /** The renderer can serve requests: it answered and defines some vocabulary. */
  predicate VocabularyDefined(v: VocabularyReply) {
    v.Reply? && (|v.subscribed| > 0 || |v.published| > 0)
  }

  /** The address of a session's renderer vocabulary. */
  function VocabularyUrl(s: Session): (url: string)
    ensures IsPrefix("http://" + s.httpHost + ":", url)
  {
    var prefix := "http://" + s.httpHost + ":";
    var url := prefix + IntToString(s.httpPort) + "/" + VOCABULARY_COMMAND;
    assert url[..|prefix|] == prefix;
    url
  }

  /** Queries the vocabulary of the session's renderer; `reply` is what the address returned. */
  function RequestVocabulary(st: State, id: string, reply: VocabularyReply): (r: Response)
    ensures id !in st.sessions ==> r == Response(HTTP_NOT_FOUND, SESSION_DOES_NOT_EXIST)
    ensures id in st.sessions ==> (r.code == HTTP_OK <==> VocabularyDefined(reply))
    ensures id in st.sessions ==> (r.code == HTTP_STATUS_ERROR <==> !VocabularyDefined(reply))
    ensures id in st.sessions && VocabularyDefined(reply) ==> r.body == reply.raw
    ensures id in st.sessions && reply.Reply? && !VocabularyDefined(reply) ==> r.body == "No vocabulary defined"
    ensures id in st.sessions && reply.Unreachable? ==> r.body == reply.error
  {
    if id !in st.sessions then Response(HTTP_NOT_FOUND, SESSION_DOES_NOT_EXIST)
    else match reply
      case Unreachable(e) => Response(HTTP_STATUS_ERROR, e)
      case Reply(sub, pub, raw) =>
        if |sub| == 0 && |pub| == 0 then Response(HTTP_STATUS_ERROR, "No vocabulary defined")
        else Response(HTTP_OK, raw)
  }

  // ---------------------------------------------------------------------
  // status query
  // ---------------------------------------------------------------------

  /** The status report of a query: the session's id, status code and a description. */
  datatype StatusResult =
    | Reported(sessionId: string, status: Status, description: string)
    | Missing(message: string)

  /** The HTTP code a status result is returned with. */
  function StatusHttpCode(r: StatusResult): (code: int)
    ensures code == HTTP_OK <==> r.Reported?
    ensures code == HTTP_OK || code == HTTP_NOT_FOUND
  {
    if r.Reported? then HTTP_OK else HTTP_NOT_FOUND
  }

  datatype QueryOutcome = QueryOutcome(state: State, result: StatusResult)

  /** The lifecycle moves one step at a time: a session stays or takes the next step. */
  predicate OneStep(before: Status, after: Status) {
    before == after || (before == Scheduled && after == Starting) || (before == Starting && after == Running)
  }

  /** The expiry after a status query: pushed forward only when already past. */
  function RefreshedExpiry(s: Session, now: int, timeout: int): (t: int)
    ensures now > s.validUntil ==> t == now + timeout
    ensures now <= s.validUntil ==> t == s.validUntil
  {
    if now > s.validUntil then now + timeout else s.validUntil
  }

  /**
   * Reports the session's status and advances it where the outside world
   * allows: a scheduled session whose host is known becomes STARTING, a
   * starting one whose renderer defines a vocabulary becomes RUNNING. A
   * starting session whose renderer cannot serve and whose job has no host
   * any more, and every stopping session, are removed.
   * `jobHostname` is the job manager's answer for the session's job.
   */
  function QueryStatus(st: State, id: string, now: int, vocabulary: VocabularyReply, jobHostname: string): (r: QueryOutcome)
    ensures r.state.global == st.global
    ensures r.result.Missing? <==> id !in st.sessions
    ensures id !in st.sessions ==> r.state == st && r.result.message == SESSION_DOES_NOT_EXIST
    ensures forall k :: k in st.sessions && k != id ==> k in r.state.sessions && r.state.sessions[k] == st.sessions[k]
    ensures r.state.sessions.Keys <= st.sessions.Keys
    ensures id in st.sessions ==> r.result.Reported? && r.result.sessionId == id
    ensures id in st.sessions ==> OneStep(st.sessions[id].status, r.result.status)
    ensures id in st.sessions ==>
      (r.result.status != st.sessions[id].status <==>
        (st.sessions[id].status == Scheduled && st.sessions[id].httpHost != "") ||
        (st.sessions[id].status == Starting && VocabularyDefined(vocabulary)))
    ensures id in st.sessions ==>
      (id !in r.state.sessions <==>
        st.sessions[id].status == Stopping ||
        (st.sessions[id].status == Starting && !VocabularyDefined(vocabulary) && jobHostname == ""))
    ensures id in r.state.sessions ==>
      var before := st.sessions[id];
      var after := r.state.sessions[id];
      && after.status == r.result.status
      && after.validUntil == RefreshedExpiry(before, now, st.global.keepAliveTimeout)
      && after.(status := before.status, validUntil := before.validUntil) == before
  {
    if id !in st.sessions then QueryOutcome(st, Missing(SESSION_DOES_NOT_EXIST))
    else
      var s0 := st.sessions[id];
      var s := s0.(validUntil := RefreshedExpiry(s0, now, st.global.keepAliveTimeout));
      var running := s.rendererId + " running on " + s.httpHost;
      var vocab := RequestVocabulary(st, id, vocabulary);
      match s.status
      case Scheduled =>
        if s.httpHost != "" then
          QueryOutcome(st.(sessions := st.sessions[id := s.(status := Starting)]), Reported(id, Starting, running))
        else
          QueryOutcome(st.(sessions := st.sessions[id := s]), Reported(id, Scheduled, s.rendererId + " is scheduled"))
      case Starting =>
        if vocab.code == HTTP_OK then
          QueryOutcome(st.(sessions := st.sessions[id := s.(status := Running)]), Reported(id, Running, running))
        else if jobHostname == "" then
          QueryOutcome(st.(sessions := st.sessions - {id}),
                       Reported(id, Starting, s.rendererId + " bas been cancelled. Session will be deleted" + vocab.body))
        else
          QueryOutcome(st.(sessions := st.sessions[id := s]), Reported(id, Starting, s.rendererId + " is starting... " + vocab.body))
      case Stopping =>
        QueryOutcome(st.(sessions := st.sessions - {id}), Reported(id, Stopping, s.rendererId + " is terminating..."))
      case Stopped =>
        QueryOutcome(st.(sessions := st.sessions[id := s]), Reported(id, Stopped, s.rendererId + " is not active"))
      case _ =>
        QueryOutcome(st.(sessions := st.sessions[id := s]), Reported(id, s.status, running))
  }

  /**
   * The database's refusal to store a row again once it is deleted: the
   * deletion clears the object's primary key, so the save that follows
   * inserts a row without an id.
   */
  const SAVE_AFTER_DELETE_ERROR := "IntegrityError"

  /** A status query as written: its reply, or the exception that escaped and the table it left. */
  datatype QueryAsWritten = QueryAnswered(outcome: QueryOutcome) | QueryRaised(state: State, error: string)

  /**
   * `query_status` as written: the STOPPING branch deletes the session and
   * then saves it, and the save raises an integrity error, which the method
   * does not catch; the deletion stands. Every other branch is `QueryStatus`.
   */
  function QueryStatusAsWritten(st: State, id: string, now: int, vocabulary: VocabularyReply, jobHostname: string): (r: QueryAsWritten)
    ensures id in st.sessions && st.sessions[id].status == Stopping ==>
      r == QueryRaised(st.(sessions := st.sessions - {id}), SAVE_AFTER_DELETE_ERROR)
    ensures !(id in st.sessions && st.sessions[id].status == Stopping) ==>
      r == QueryAnswered(QueryStatus(st, id, now, vocabulary, jobHostname))
  {
    if id in st.sessions && st.sessions[id].status == Stopping then
      QueryRaised(st.(sessions := st.sessions - {id}), SAVE_AFTER_DELETE_ERROR)
    else QueryAnswered(QueryStatus(st, id, now, vocabulary, jobHostname))
  }

  /**
   * Querying a STOPPING session removes it either way; as written the
   * caller gets an exception instead of the report, while the corrected
   * query reports the session as terminating with status code 4.
   */
  lemma StoppingQueryAsWrittenRaises(st: State, id: string, now: int, vocabulary: VocabularyReply, jobHostname: string)
    requires id in st.sessions && st.sessions[id].status == Stopping
    ensures var w := QueryStatusAsWritten(st, id, now, vocabulary, jobHostname);
      w.QueryRaised? && id !in w.state.sessions
    ensures var q := QueryStatus(st, id, now, vocabulary, jobHostname);
      && id !in q.state.sessions
      && q.result == Reported(id, Stopping, st.sessions[id].rendererId + " is terminating...")
      && Code(q.result.status) == Some(4)
  {
  }

  /**
   * What the vocabulary address gave before the reply is read: a reply
   * `json.loads` parses and that lists both `subscribed` and `published`
   * (or a transport error), or a body that is no JSON or lacks one of the
   * lists, with the ValueError or KeyError that reading it raises.
   */
  datatype VocabularyFetch = Readable(reply: VocabularyReply) | Unreadable(error: string)

  /** How `request_vocabulary` ended: with a reply, or with an exception it does not catch. */
  datatype VocabularyCall = VocabularyAnswered(response: Response) | VocabularyRaised(error: string)

  /**
   * `request_vocabulary` on the unread reply: only a URLError is caught,
   * so a body that cannot be read as the two lists raises out of it.
   */
  function RequestVocabularyFetched(st: State, id: string, fetch: VocabularyFetch): (r: VocabularyCall)
    ensures id !in st.sessions ==> r == VocabularyAnswered(Response(HTTP_NOT_FOUND, SESSION_DOES_NOT_EXIST))
    ensures id in st.sessions ==> (r.VocabularyRaised? <==> fetch.Unreadable?)
    ensures r.VocabularyRaised? ==> r.error == fetch.error
    ensures fetch.Readable? ==> r == VocabularyAnswered(RequestVocabulary(st, id, fetch.reply))
  {
    match fetch
    case Readable(reply) => VocabularyAnswered(RequestVocabulary(st, id, reply))
    case Unreadable(e) =>
      if id !in st.sessions then VocabularyAnswered(Response(HTTP_NOT_FOUND, SESSION_DOES_NOT_EXIST))
      else VocabularyRaised(e)
  }

  /**
   * `query_status` on the unread vocabulary reply: only a STARTING session
   * asks for the vocabulary, so only there does an unreadable reply raise,
   * after the refreshed deadline is saved and before the status moves.
   * A readable reply gives the status query.
   */
  function QueryStatusFetched(st: State, id: string, now: int, fetch: VocabularyFetch, jobHostname: string): (r: QueryAsWritten)
    ensures fetch.Readable? ==> r == QueryAnswered(QueryStatus(st, id, now, fetch.reply, jobHostname))
    ensures r.QueryRaised? <==> id in st.sessions && st.sessions[id].status == Starting && fetch.Unreadable?
    ensures r.QueryRaised? ==>
      && r.error == fetch.error
      && r.state.global == st.global
      && r.state.sessions == st.sessions[id := st.sessions[id].(validUntil := RefreshedExpiry(st.sessions[id], now, st.global.keepAliveTimeout))]
  {
    match fetch
    case Readable(reply) => QueryAnswered(QueryStatus(st, id, now, reply, jobHostname))
    case Unreadable(e) =>
      if id in st.sessions && st.sessions[id].status == Starting then
        var s := st.sessions[id];
        QueryRaised(st.(sessions := st.sessions[id := s.(validUntil := RefreshedExpiry(s, now, st.global.keepAliveTimeout))]), e)
      else QueryAnswered(QueryStatus(st, id, now, Unreachable(e), jobHostname))
  }

  /**
   * Outside the STARTING status the vocabulary is never asked for: an
   * unreadable reply gives the same answer and table as any reply would.
   */
  lemma UnreadableVocabularyMattersOnlyWhenStarting(st: State, id: string, now: int, error: string,
                                                    vocabulary: VocabularyReply, jobHostname: string)
    requires !(id in st.sessions && st.sessions[id].status == Starting)
    ensures QueryStatusFetched(st, id, now, Unreadable(error), jobHostname)
         == QueryAnswered(QueryStatus(st, id, now, vocabulary, jobHostname))
  {
  }

  /** RUNNING and STOPPED sessions keep their status, whatever the outside world answers. */
  lemma QueryKeepsSettledStatus(st: State, id: string, now: int, vocabulary: VocabularyReply, jobHostname: string)
    requires id in st.sessions && (st.sessions[id].status == Running || st.sessions[id].status == Stopped)
    ensures var q := QueryStatus(st, id, now, vocabulary, jobHostname);
      id in q.state.sessions && q.state.sessions[id].status == st.sessions[id].status
  {
  }

  /** Querying a session that has not expired leaves it exactly as it was, unless its status advances or it is removed. */
  lemma QueryKeepsUnexpired(st: State, id: string, now: int, vocabulary: VocabularyReply, jobHostname: string)
    requires id in st.sessions && now <= st.sessions[id].validUntil
    ensures var q := QueryStatus(st, id, now, vocabulary, jobHostname);
      id in q.state.sessions && q.result.status == st.sessions[id].status ==> q.state == st
  {
    var q := QueryStatus(st, id, now, vocabulary, jobHostname);
    if id in q.state.sessions && q.result.status == st.sessions[id].status {
      assert q.state.sessions[id] == st.sessions[id];
      assert q.state.sessions == st.sessions;
    }
  }

  // ---------------------------------------------------------------------
  // keep-alive and session ids
  // ---------------------------------------------------------------------

  /** Moves the session's expiry to `now` plus the configured timeout. */
  function KeepAliveSession(st: State, id: string, now: int): (r: Outcome)
    ensures r.state.global == st.global
    ensures r.response.code == HTTP_OK <==> id in st.sessions
    ensures id !in st.sessions ==> r.state == st && r.response == Response(HTTP_NOT_FOUND, SESSION_DOES_NOT_EXIST)
    ensures id in st.sessions ==>
      && r.state.sessions == st.sessions[id := st.sessions[id].(validUntil := now + st.global.keepAliveTimeout)]
      && r.response.body == "Session " + id + " successfully updated"
  {
    if id !in st.sessions then Outcome(st, Response(HTTP_NOT_FOUND, SESSION_DOES_NOT_EXIST))
    else
      var s := st.sessions[id].(validUntil := now + st.global.keepAliveTimeout);
      Outcome(st.(sessions := st.sessions[id := s]), Response(HTTP_OK, "Session " + id + " successfully updated"))
  }

  /** A session kept alive at `now` is not expired at any moment up to `now` plus the timeout. */
  lemma KeepAliveDefersExpiry(st: State, id: string, now: int, later: int)
    requires id in st.sessions && now <= later <= now + st.global.keepAliveTimeout
    ensures var s := KeepAliveSession(st, id, now).state.sessions[id];
      !(later > s.validUntil)
  {
  }

  /**
   * The session id of a request: its `HBP` cookie when present, otherwise
   * `newId`, the newly generated id.
   */
  function SessionIdFromRequest(cookies: map<string, string>, newId: string): (id: string)
    ensures COOKIE_ID in cookies ==> id == cookies[COOKIE_ID]
    ensures COOKIE_ID !in cookies ==> id == newId
  {
    if COOKIE_ID in cookies then cookies[COOKIE_ID] else newId
  }
}

=== FILE: session_views.dfy ===
/**
 * The REST command view of a session: `execute` finds the session named by
 * the request's cookie and either handles the command itself (schedule a
 * job, open a local process, report the status, return the job's log) or
 * forwards it to the session's renderer. Everything the view learns from
 * other components (the random port offset, the job manager, the process
 * id, the renderer's replies, the clock) arrives in a `World` record.
 */
module SessionViews {
  import opened Common
  import opened Text
  import opened Models
  import SettingsManager
  import SessionManager
  import ProcessManager

  /** Base of the port range a renderer listens on. */
  const DEFAULT_RENDERER_HTTP_PORT := 3000

  /** The host a local renderer process listens on. */
  const DEFAULT_RENDERER_HOST := "localhost"

  /** `random.randint(0, 1000)` draws from 0..1000, both ends included. */
  const MAX_PORT_OFFSET := 1000

  /** The host name the job manager reports for a job that has gone. */
  const FAILED_HOST := "FAILED"

  /** What a call into another component did: returned a reply, or raised. */
  datatype Call = Returned(response: Response) | Threw(trace: string)

  /** What the renderer did with a forwarded request. */
  datatype ForwardReply =
    | Delivered(contentLength: int, data: string)  // the declared length and the bytes read
    | NoContentLength                               // a reply without a content-length header
    | Unreachable(trace: string)                    // the request could not be delivered
    | Broken(trace: string)                         // any other failure

  /** The answers of the world around the view for one request. */
  datatype World = World(
    portOffset: int,                                // the random port offset drawn
    jobSchedule: Call,                              // the job manager's answer to scheduling
    store: SettingsManager.Store,                   // the rendering resource settings
    pid: int,                                       // the id of a newly started process
    spawnError: Option<string>,                     // the operating system's refusal to start it, if any
    jobHostname: string,                            // the job manager's host name for the job
    recheckHostname: string,                        // its answer when asked again after a failed forward
    vocabulary: SessionManager.VocabularyReply,     // the renderer's vocabulary reply
    now: int,                                       // the clock, in seconds
    jobStopError: Option<string>,                   // what stopping the job raised, if anything
    log: string,                                    // the job manager's log text
    forward: ForwardReply)                          // the renderer's reply to a forwarded command

  /** A port offset `random.randint(0, 1000)` can draw. */
  predicate ValidWorld(w: World) {
    0 <= w.portOffset <= MAX_PORT_OFFSET
  }

  /** How a handler ended: with a reply, a missing dictionary key, or another exception. */
  datatype Completion = Answered(response: Response) | MissingKey(key: string) | Crashed(trace: string)

  /** The table after a handler, and how the handler ended. */
  datatype Step = Step(state: SessionManager.State, completion: Completion)

  /** A request body field, `''` when the body lacks it. */
  function Field(data: map<string, string>, key: string): (v: string)
    ensures key in data ==> v == data[key]
    ensures key !in data ==> v == ""
  {
    if key in data then data[key] else ""
  }

  // ---------------------------------------------------------------------
  // schedule / open
  // ---------------------------------------------------------------------

  datatype ScheduleOutcome = ScheduleOutcome(handed: Session, completion: Completion)

  /**
   * `__schedule_job`: clears the session's host, draws its port, and hands
   * it to the job manager, whose reply (or exception) is the result.
   */
  function ScheduleJob(s: Session, w: World): (r: ScheduleOutcome)
    ensures r.handed.httpHost == ""
    ensures ValidWorld(w) ==>
      DEFAULT_RENDERER_HTTP_PORT <= r.handed.httpPort <= DEFAULT_RENDERER_HTTP_PORT + MAX_PORT_OFFSET
    ensures r.handed.(httpHost := s.httpHost, httpPort := s.httpPort) == s
    ensures r.completion.Answered? <==> w.jobSchedule.Returned?
    ensures w.jobSchedule.Returned? ==> r.completion.response == w.jobSchedule.response
  {
    var handed := s.(httpHost := "", httpPort := DEFAULT_RENDERER_HTTP_PORT + w.portOffset);
    match w.jobSchedule
    case Returned(response) => ScheduleOutcome(handed, Answered(response))
    case Threw(trace) => ScheduleOutcome(handed, Crashed(trace))
  }

  /**
   * `__open_process`: a session that already has a process is refused with
   * 401; otherwise it is pointed at a local host and a drawn port, the
   * process manager starts the renderer, and the session is saved. A
   * process the operating system refuses to create escapes before the save.
   */
  function OpenProcess(st: SessionManager.State, id: string, params: string, environment: string, w: World): (r: Step)
    requires id in st.sessions
    ensures r.state.global == st.global
    ensures r.completion.Crashed? <==>
      !HasProcess(st.sessions[id]) && Lower(st.sessions[id].rendererId) in w.store && w.spawnError.Some?
    ensures r.completion.Crashed? ==> r.state == st && r.completion.trace == w.spawnError.value
    ensures !r.completion.Crashed? ==> r.completion.Answered?
    ensures r.completion.Answered? && r.completion.response.code == HTTP_UNAUTHORIZED <==> HasProcess(st.sessions[id])
    ensures HasProcess(st.sessions[id]) ==>
      r.state == st && r.completion.response.body == "process is already started"
    ensures r.state.sessions.Keys == st.sessions.Keys
    ensures !HasProcess(st.sessions[id]) && r.completion.Answered? ==>
      var s := r.state.sessions[id];
      && (forall k :: k in st.sessions && k != id ==> r.state.sessions[k] == st.sessions[k])
      && s.httpHost == DEFAULT_RENDERER_HOST
      && (ValidWorld(w) ==> DEFAULT_RENDERER_HTTP_PORT <= s.httpPort <= DEFAULT_RENDERER_HTTP_PORT + MAX_PORT_OFFSET)
      && (Lower(s.rendererId) in w.store ==> s.processPid == w.pid && s.status == Starting)
  {
    var s := st.sessions[id];
    if s.processPid == NO_PROCESS then
      var placed := s.(httpHost := DEFAULT_RENDERER_HOST, httpPort := DEFAULT_RENDERER_HTTP_PORT + w.portOffset);
      match ProcessManager.Start(w.store, placed, params, environment, w.pid, w.spawnError)
      case StartRaised(error, _) => Step(st, Crashed(error))
      case StartReturned(started, response, _) =>
        Step(st.(sessions := st.sessions[id := started]), Answered(response))
    else
      Step(st, Answered(Response(HTTP_UNAUTHORIZED, "process is already started")))
  }

  /**
   * Once a process has been started for a session, opening it again is
   * refused and changes nothing, whatever the world answers the second time.
   */
  lemma OpenTwiceRefused(st: SessionManager.State, id: string, params: string, environment: string, w: World, w2: World)
    requires id in st.sessions && !HasProcess(st.sessions[id])
    requires Lower(st.sessions[id].rendererId) in w.store && w.pid != NO_PROCESS && w.spawnError.None?
    ensures var first := OpenProcess(st, id, params, environment, w);
      var second := OpenProcess(first.state, id, params, environment, w2);
      && first.completion.response.code == HTTP_OK
      && second.state == first.state
      && second.completion.response == Response(HTTP_UNAUTHORIZED, "process is already started")
  {
  }

  // ---------------------------------------------------------------------
  // host name, status and log
  // ---------------------------------------------------------------------

  /** What the process manager raises when a delete stops the process of session `id`. */
  function ProcessStopFailure(st: SessionManager.State, id: string, w: World): Option<string> {
    if id in st.sessions then ProcessManager.StopError(w.store, Closing(st.sessions[id])) else None
  }

  /** The table, the in-memory session and the reply after a host name check. */
  datatype HostCheck = HostCheck(state: SessionManager.State, session: Session, response: Response)

  /** The host name is looked up only for a job whose renderer host is still unknown. */
  predicate NeedsLookup(s: Session) {
    HasJob(s) && s.httpHost == ""
  }

  /**
   * `__verify_hostname`: for a job without a known host, asks the job
   * manager. No host yet answers 404; a failed job deletes the session and
   * answers 404; a host is stored in the session. A session that needs no
   * lookup answers 200 straight away.
   */
  function VerifyHostname(st: SessionManager.State, id: string, s: Session, w: World): (r: HostCheck)
    ensures r.response.code == HTTP_OK || r.response.code == HTTP_NOT_FOUND
    ensures r.response.code == HTTP_OK <==> !NeedsLookup(s) || (w.jobHostname != "" && w.jobHostname != FAILED_HOST)
    ensures !NeedsLookup(s) ==> r.state == st && r.session == s
    ensures NeedsLookup(s) && w.jobHostname == "" ==> r.state == st && r.session == s
    ensures NeedsLookup(s) && w.jobHostname == FAILED_HOST ==>
      r.state == SessionManager.DeleteSession(st, id, ProcessStopFailure(st, id, w), w.jobStopError).state && r.response.body == "Job as been cancelled"
    ensures NeedsLookup(s) && r.response.code == HTTP_OK ==>
      r.session == s.(httpHost := w.jobHostname) && r.state == st.(sessions := st.sessions[id := r.session])
    ensures r.response.code == HTTP_OK ==> !NeedsLookup(r.session)
  {
    if NeedsLookup(s) then
      var hostname := w.jobHostname;
      if hostname == "" then
        HostCheck(st, s, Response(HTTP_NOT_FOUND, "Job scheduled but " + s.rendererId + " is not yet running"))
      else if hostname == FAILED_HOST then
        HostCheck(SessionManager.DeleteSession(st, id, ProcessStopFailure(st, id, w), w.jobStopError).state, s, Response(HTTP_NOT_FOUND, "Job as been cancelled"))
      else
        var resolved := s.(httpHost := hostname);
        HostCheck(st.(sessions := st.sessions[id := resolved]), resolved,
                  Response(HTTP_OK, "Resolved hostname for job " + s.jobId + " to " + hostname))
    else
      HostCheck(st, s, Response(HTTP_OK, "Job is running on host " + s.httpHost))
  }

  /**
   * A host once resolved is kept: checking the same session again asks the
   * job manager nothing and changes nothing, whatever it would answer.
   */
  lemma ResolvedHostIsKept(st: SessionManager.State, id: string, s: Session, w: World, w2: World)
    requires NeedsLookup(s)
    ensures var first := VerifyHostname(st, id, s, w);
      first.response.code == HTTP_OK ==>
        var second := VerifyHostname(first.state, id, first.session, w2);
        second.state == first.state && second.session == first.session &&
        second.response == Response(HTTP_OK, "Job is running on host " + w.jobHostname)
  {
  }

  /** The code a status reports for the session, `null` for a status without one. */
  function CodeText(status: Status): (t: string)
    ensures Code(status).Some? ==> t == IntToString(Code(status).value)
    ensures Code(status).None? ==> t == "null"
  {
    match Code(status)
    case Some(c) => IntToString(c)
    case None => "null"
  }

  /** The pieces of the status body around its three values. */
  const CODE_OPEN := "{\"code\": "
  const DESCRIPTION_OPEN := ", \"description\": \""
  const SESSION_ID_OPEN := "\", \"session_id\": \""
  const BODY_CLOSE := "\"}"

  /**
   * The body of a status reply: the status code, description and session
   * id as a JSON object. Python 2's `json.dumps` writes a dictionary in its
   * hash-table order, which for these three keys is code, description,
   * session_id; the separators are `", "` and `": "`.
   */
  function StatusBody(result: SessionManager.StatusResult): (body: string)
    ensures result.Missing? ==> body == result.message
    ensures result.Reported? ==>
      var head := CODE_OPEN + CodeText(result.status) + DESCRIPTION_OPEN;
      var tail := SESSION_ID_OPEN + result.sessionId + BODY_CLOSE;
      var d := result.description;
      && |body| == |head| + |d| + |tail|
      && body[..|head|] == head
      && body[|head|..|head| + |d|] == d
      && body[|head| + |d|..] == tail
  {
    match result
    case Missing(message) => message
    case Reported(sessionId, status, description) =>
      CODE_OPEN + CodeText(status) + DESCRIPTION_OPEN + description + SESSION_ID_OPEN + sessionId + BODY_CLOSE
  }

  /**
   * `__session_status`: the host name check first; only when it answers 200
   * is the session's status queried (and possibly advanced).
   */
  function SessionStatus(st: SessionManager.State, id: string, s: Session, w: World): (r: HostCheck)
    ensures var v := VerifyHostname(st, id, s, w);
      v.response.code != HTTP_OK ==> r == v
    ensures var v := VerifyHostname(st, id, s, w);
      v.response.code == HTTP_OK ==>
        var q := SessionManager.QueryStatus(v.state, id, w.now, w.vocabulary, w.jobHostname);
        && r.state == q.state
        && r.session == v.session
        && (r.response.code == HTTP_OK <==> id in v.state.sessions)
        && (id in v.state.sessions ==> SessionManager.OneStep(v.state.sessions[id].status, q.result.status))
  {
    var v := VerifyHostname(st, id, s, w);
    if v.response.code != HTTP_OK then v
    else
      var q := SessionManager.QueryStatus(v.state, id, w.now, w.vocabulary, w.jobHostname);
      HostCheck(q.state, v.session, Response(SessionManager.StatusHttpCode(q.result), StatusBody(q.result)))
  }

  /**
   * A session just created has no job, so its status is queried straight
   * away, and the reply reads code 0 and names the session.
   */
  lemma StatusOfCreatedSession(st: SessionManager.State, id: string, owner: string, rendererId: string, conflict: string, w: World)
    requires st.global.sessionCreation && id !in st.sessions
    ensures var c := SessionManager.CreateSession(st, id, owner, rendererId, w.now, conflict);
      var r := SessionStatus(c.state, id, c.state.sessions[id], w);
      && r.response.code == HTTP_OK
      && IsPrefix(CODE_OPEN + "0" + DESCRIPTION_OPEN, r.response.body)
      && IsSuffix(SESSION_ID_OPEN + id + BODY_CLOSE, r.response.body)
  {
    var c := SessionManager.CreateSession(st, id, owner, rendererId, w.now, conflict);
    SessionManager.CreatedSessionReportsStopped(st, id, owner, rendererId, w.now, conflict, w.vocabulary, w.jobHostname);
    var q := SessionManager.QueryStatus(c.state, id, w.now, w.vocabulary, w.jobHostname);
    assert CodeText(q.result.status) == "0";
  }

  /** `__rendering_resource_log`: the job manager's log for a session with a job, empty text otherwise. */
  function RenderingResourceLog(s: Session, w: World): (r: Response)
    ensures r.code == HTTP_OK
    ensures HasJob(s) ==> r.body == w.log
    ensures !HasJob(s) ==> r.body == ""
  {
    Response(HTTP_OK, if HasJob(s) then w.log else "")
  }

  // ---------------------------------------------------------------------
  // forwarding
  // ---------------------------------------------------------------------

  /** The address a command is forwarded to: the renderer's host and port, then the command. */
  function ForwardUrl(s: Session, command: string): (url: string)
    ensures IsPrefix("http://" + s.httpHost + ":", url)
    ensures |url| >= |command| + 1 && url[|url| - |command| - 1..] == "/" + command
  {
    var prefix := "http://" + s.httpHost + ":";
    var url := prefix + IntToString(s.httpPort) + "/" + command;
    assert url[..|prefix|] == prefix;
    assert url[|url| - |command| - 1..] == "/" + command;
    url
  }

  /** The vocabulary query of the session manager goes to the same address as a forwarded `vocabulary` command. */
  lemma VocabularyIsForwardedAddress(s: Session)
    ensures ForwardUrl(s, SessionManager.VOCABULARY_COMMAND) == SessionManager.VocabularyUrl(s)
  {
  }

  /** A delivered reply: 200 with the data when every declared byte arrived, 400 naming the shortfall otherwise. */
  function CheckBytes(contentLength: int, data: string): (r: Response)
    ensures r.code == HTTP_OK <==> contentLength == |data|
    ensures r.code == HTTP_OK ==> r.body == data
    ensures r.code != HTTP_OK ==>
      r.code == HTTP_BAD_REQUEST && r.body == "Missing bytes:  " + IntToString(contentLength - |data|)
  {
    var missing := contentLength - |data|;
    if missing != 0 then Response(HTTP_BAD_REQUEST, "Missing bytes:  " + IntToString(missing))
    else Response(HTTP_OK, data)
  }

  /**
   * `__forward_request` as written: when the renderer cannot be reached and
   * the session has a job whose host is not reported FAILED, no branch
   * returns, and the handler's result is None.
   */
  function ForwardRequestAsWritten(st: SessionManager.State, id: string, s: Session, command: string, w: World): (r: (SessionManager.State, Option<Completion>))
    ensures r.1.None? <==>
      var status := SessionStatus(st, id, s, w);
      && status.response.code == HTTP_OK
      && w.forward.Unreachable?
      && HasJob(status.session)
      && w.recheckHostname != FAILED_HOST
  {
    var status := SessionStatus(st, id, s, w);
    if status.response.code != HTTP_OK then (status.state, Some(Answered(status.response)))
    else
      var session := status.session;
      var url := ForwardUrl(session, command);
      match w.forward
      case Delivered(n, data) => (status.state, Some(Answered(CheckBytes(n, data))))
      case NoContentLength => (status.state, Some(MissingKey("content-length")))
      case Broken(trace) => (status.state, Some(Crashed(trace)))
      case Unreachable(_) =>
        if HasJob(session) then
          if w.recheckHostname == FAILED_HOST then
            (SessionManager.DeleteSession(status.state, id, ProcessStopFailure(status.state, id, w), w.jobStopError).state,
             Some(Answered(Response(HTTP_BAD_REQUEST, session.rendererId + " is down"))))
          else (status.state, None)
        else
          (status.state, Some(Answered(Response(HTTP_BAD_REQUEST, "Failed to contact rendering resource: " + url))))
  }

  /**
   * `__forward_request` as evidently intended: an unreachable renderer whose
   * job is still alive is reported like one without a job, with 400 and the
   * address that failed. Every other branch is the code as written.
   */
  function ForwardRequest(st: SessionManager.State, id: string, s: Session, command: string, w: World): (r: Step)
    ensures var status := SessionStatus(st, id, s, w);
      status.response.code != HTTP_OK ==> r == Step(status.state, Answered(status.response))
    ensures var status := SessionStatus(st, id, s, w);
      status.response.code == HTTP_OK && w.forward.Delivered? ==>
        r.completion == Answered(CheckBytes(w.forward.contentLength, w.forward.data)) && r.state == status.state
    ensures var status := SessionStatus(st, id, s, w);
      status.response.code == HTTP_OK && w.forward.Unreachable? ==>
        r.completion.Answered? && r.completion.response.code == HTTP_BAD_REQUEST
    ensures var status := SessionStatus(st, id, s, w);
      status.response.code == HTTP_OK && w.forward.Unreachable? &&
      !(HasJob(status.session) && w.recheckHostname == FAILED_HOST) ==>
        r.state == status.state &&
        r.completion.response.body == "Failed to contact rendering resource: " + ForwardUrl(status.session, command)
  {
    var status := SessionStatus(st, id, s, w);
    if status.response.code != HTTP_OK then Step(status.state, Answered(status.response))
    else
      var session := status.session;
      var url := ForwardUrl(session, command);
      match w.forward
      case Delivered(n, data) => Step(status.state, Answered(CheckBytes(n, data)))
      case NoContentLength => Step(status.state, MissingKey("content-length"))
      case Broken(trace) => Step(status.state, Crashed(trace))
      case Unreachable(_) =>
        if HasJob(session) && w.recheckHostname == FAILED_HOST then
          Step(SessionManager.DeleteSession(status.state, id, ProcessStopFailure(status.state, id, w), w.jobStopError).state,
               Answered(Response(HTTP_BAD_REQUEST, session.rendererId + " is down")))
        else
          Step(status.state, Answered(Response(HTTP_BAD_REQUEST, "Failed to contact rendering resource: " + url)))
  }

  /** Wherever the code as written returns a reply, the corrected handler returns the same one. */
  lemma ForwardAgreesWhereAnswered(st: SessionManager.State, id: string, s: Session, command: string, w: World)
    ensures var written := ForwardRequestAsWritten(st, id, s, command, w);
      var fixed := ForwardRequest(st, id, s, command, w);
      written.1.Some? ==> written.0 == fixed.state && written.1.value == fixed.completion
  {
  }

  /** A session with a job and a known host whose renderer is down, and a job manager that still reports the host. */
  function LostReplyWorld(): (w: World)
    ensures w.forward.Unreachable? && w.recheckHostname != FAILED_HOST
  {
    World(0, Returned(Response(HTTP_OK, "")), map[], 1, None, "node1", "node1",
          SessionManager.Unreachable("down"), 0, None, "", Unreachable("connection refused"))
  }

  /**
   * The lost reply happens: a running session with job `42` on host
   * `node1`, whose renderer refuses the connection, gets no reply from the
   * code as written, and 400 from the corrected handler.
   */
  lemma ForwardAsWrittenLosesReply()
    ensures var s := Session("s1", 0, 100, "owner", "brayns", "42", NO_PROCESS, "node1", 3000, "", "", Running, "");
      var st := SessionManager.State(map["s1" := s], InitialGlobalSettings());
      && ForwardRequestAsWritten(st, "s1", s, "camera", LostReplyWorld()).1.None?
      && ForwardRequest(st, "s1", s, "camera", LostReplyWorld()).completion.response.code == HTTP_BAD_REQUEST
  {
    var s := Session("s1", 0, 100, "owner", "brayns", "42", NO_PROCESS, "node1", 3000, "", "", Running, "");
    var st := SessionManager.State(map["s1" := s], InitialGlobalSettings());
    var w := LostReplyWorld();
    var v := VerifyHostname(st, "s1", s, w);
    assert !NeedsLookup(s);
    assert v.response.code == HTTP_OK && v.session == s && v.state == st;
    var q := SessionManager.QueryStatus(st, "s1", w.now, w.vocabulary, w.jobHostname);
    assert q.result.Reported?;
    assert SessionStatus(st, "s1", s, w).response.code == HTTP_OK;
  }

  // ---------------------------------------------------------------------
  // the command dispatcher
  // ---------------------------------------------------------------------

  /** The commands the view handles itself; every other command is forwarded. */
  predicate IsLocalCommand(command: string) {
    command == "schedule" || command == "open" || command == "status" || command == "log"
  }

  /** The reply a handler's ending turns into. */
  function Reply(c: Completion): (r: Response)
    ensures c.Answered? ==> r == c.response
    ensures c.MissingKey? ==> r == Response(HTTP_NOT_FOUND, "Cookie '" + c.key + "' is missing")
    ensures c.Crashed? ==> r == Response(HTTP_SERVER_ERROR, c.trace)
  {
    match c
    case Answered(response) => response
    case MissingKey(key) => Response(HTTP_NOT_FOUND, "Cookie '" + key + "' is missing")
    case Crashed(trace) => Response(HTTP_SERVER_ERROR, trace)
  }

  /** The handler a command goes to, on the session `id` names. */
  function Dispatch(st: SessionManager.State, id: string, command: string, params: string, environment: string, w: World): (r: Step)
    requires id in st.sessions
    ensures !IsLocalCommand(command) ==> r == ForwardRequest(st, id, st.sessions[id], command, w)
    ensures command == "log" || command == "schedule" ==> r.state == st
    ensures command == "status" || command == "log" ==> r.completion.Answered?
    ensures r.state.global == st.global
  {
    var s := st.sessions[id];
    if command == "schedule" then Step(st, ScheduleJob(s, w).completion)
    else if command == "open" then OpenProcess(st, id, params, environment, w)
    else if command == "status" then
      var status := SessionStatus(st, id, s, w);
      Step(status.state, Answered(status.response))
    else if command == "log" then Step(st, Answered(RenderingResourceLog(s, w)))
    else ForwardRequest(st, id, s, command, w)
  }

  datatype ExecOutcome = ExecOutcome(state: SessionManager.State, response: Response)

  /**
   * `execute`: the session is the one the `HBP` cookie names (a new id when
   * there is none, which matches no session); `params` and `environment`
   * default to empty text; a missing session answers 404, a missing key
   * 404 naming it, and any other exception 500.
   */
  function Execute(st: SessionManager.State, cookies: map<string, string>, data: map<string, string>,
                   command: string, newId: string, w: World): (r: ExecOutcome)
    ensures var id := SessionManager.SessionIdFromRequest(cookies, newId);
      id !in st.sessions ==> r == ExecOutcome(st, Response(HTTP_NOT_FOUND, "Session does not exist"))
    ensures var id := SessionManager.SessionIdFromRequest(cookies, newId);
      id in st.sessions ==>
        var step := Dispatch(st, id, command, Field(data, "params"), Field(data, "environment"), w);
        r.state == step.state && r.response == Reply(step.completion)
    ensures r.state.global == st.global
  {
    var id := SessionManager.SessionIdFromRequest(cookies, newId);
    if id !in st.sessions then ExecOutcome(st, Response(HTTP_NOT_FOUND, "Session does not exist"))
    else
      var step := Dispatch(st, id, command, Field(data, "params"), Field(data, "environment"), w);
      ExecOutcome(step.state, Reply(step.completion))
  }

  /**
   * The `log` command changes nothing and answers 200 with the job
   * manager's log for a session with a job, empty text otherwise.
   */
  lemma LogCommandReply(st: SessionManager.State, cookies: map<string, string>, data: map<string, string>,
                        newId: string, w: World)
    requires SessionManager.SessionIdFromRequest(cookies, newId) in st.sessions
    ensures var s := st.sessions[SessionManager.SessionIdFromRequest(cookies, newId)];
      Execute(st, cookies, data, "log", newId, w) ==
        ExecOutcome(st, Response(HTTP_OK, if HasJob(s) then w.log else ""))
  {
  }

  /**
   * The `schedule` command changes no row itself: its reply is the job
   * manager's, or 500 with the trace of what the job manager raised.
   */
  lemma ScheduleCommandReply(st: SessionManager.State, cookies: map<string, string>, data: map<string, string>,
                             newId: string, w: World)
    requires SessionManager.SessionIdFromRequest(cookies, newId) in st.sessions
    ensures var r := Execute(st, cookies, data, "schedule", newId, w);
      && r.state == st
      && (w.jobSchedule.Returned? ==> r.response == w.jobSchedule.response)
      && (w.jobSchedule.Threw? ==> r.response == Response(HTTP_SERVER_ERROR, w.jobSchedule.trace))
  {
  }

  /**
   * A session handed to the job manager has its host cleared, so once it
   * holds a job the next status check asks the job manager for the host.
   */
  lemma ScheduledSessionIsLookedUp(s: Session, w: World, jobId: string)
    requires jobId != ""
    ensures NeedsLookup(ScheduleJob(s, w).handed.(jobId := jobId))
  {
  }

  /** A request body without `params` or `environment` is handled as one carrying them empty. */
  lemma MissingFieldsAreEmpty(st: SessionManager.State, cookies: map<string, string>, data: map<string, string>,
                              command: string, newId: string, w: World)
    requires "params" !in data && "environment" !in data
    ensures Execute(st, cookies, data, command, newId, w) ==
            Execute(st, cookies, data["params" := ""]["environment" := ""], command, newId, w)
  {
    var filled := data["params" := ""]["environment" := ""];
    assert Field(filled, "params") == "" && Field(filled, "environment") == "";
  }

  /** The commands the view handles itself never reach the renderer: its reply plays no part. */
  lemma LocalCommandsAreNotForwarded(st: SessionManager.State, cookies: map<string, string>, data: map<string, string>,
                                     command: string, newId: string, w: World, reply: ForwardReply)
    requires IsLocalCommand(command)
    ensures Execute(st, cookies, data, command, newId, w) == Execute(st, cookies, data, command, newId, w.(forward := reply))
  {
    var id := SessionManager.SessionIdFromRequest(cookies, newId);
    if id in st.sessions {
      LocalDispatchIgnoresForward(st, id, command, Field(data, "params"), Field(data, "environment"), w, reply);
    }
  }

  lemma LocalDispatchIgnoresForward(st: SessionManager.State, id: string, command: string, params: string,
                                    environment: string, w: World, reply: ForwardReply)
    requires id in st.sessions && IsLocalCommand(command)
    ensures Dispatch(st, id, command, params, environment, w) == Dispatch(st, id, command, params, environment, w.(forward := reply))
  {
    var w2 := w.(forward := reply);
    var s := st.sessions[id];
    if command == "schedule" {
      assert ScheduleJob(s, w) == ScheduleJob(s, w2);
    } else if command == "open" {
      assert OpenProcess(st, id, params, environment, w) == OpenProcess(st, id, params, environment, w2);
    } else if command == "status" {
      assert SessionStatus(st, id, s, w) == SessionStatus(st, id, s, w2);
    } else {
      assert RenderingResourceLog(s, w) == RenderingResourceLog(s, w2);
    }
  }
}

=== FILE: settings_manager.dfy ===
/**
 * The rendering-resource settings registry: one configuration record per
 * renderer backend, keyed by its lower-cased id, with create / update /
 * delete / clear and the REST-parameter template substitution.
 */
module SettingsManager {
  import opened Common
  import opened Text

  /** How a renderer backend is launched and which resources it asks for. */
  datatype RenderingResourceSettings = RenderingResourceSettings(
    id: string,
    commandLine: string,
    environmentVariables: string,
    modules: string,
    processRestParametersFormat: string,
    schedulerRestParametersFormat: string,
    project: string,
    queue: string,
    exclusive: bool,
    nbNodes: int,
    nbCpus: int,
    nbGpus: int,
    memory: int,
    gracefulExit: bool,
    waitUntilRunning: bool,
    name: string,
    description: string)

  /** The fields a create or update request carries; `id` as the caller wrote it. */
  datatype SettingsParams = SettingsParams(
    id: string,
    commandLine: string,
    environmentVariables: string,
    modules: string,
    processRestParametersFormat: string,
    schedulerRestParametersFormat: string,
    project: string,
    queue: string,
    exclusive: bool,
    nbNodes: int,
    nbCpus: int,
    nbGpus: int,
    gracefulExit: bool,
    waitUntilRunning: bool,
    name: string,
    description: string)

  type Store = map<string, RenderingResourceSettings>

  datatype StoreResult = StoreResult(store: Store, response: Response)

  /** Memory of a record that create did not set. */
  const DEFAULT_MEMORY := 0

  const SETTINGS_DOES_NOT_EXIST := "RenderingResourceSettings matching query does not exist."

  /** The record a create request inserts: every listed field copied, the id lower-cased. */
  function FromParams(p: SettingsParams): (r: RenderingResourceSettings)
    ensures r.id == Lower(p.id) && r.memory == DEFAULT_MEMORY
  {
    RenderingResourceSettings(
      Lower(p.id), p.commandLine, p.environmentVariables, p.modules,
      p.processRestParametersFormat, p.schedulerRestParametersFormat,
      p.project, p.queue, p.exclusive, p.nbNodes, p.nbCpus, p.nbGpus,
      DEFAULT_MEMORY, p.gracefulExit, p.waitUntilRunning, p.name, p.description)
  }

  /** Every field an update request lists, taken from the request. */
  predicate TakesListedFields(r: RenderingResourceSettings, p: SettingsParams) {
    && r.commandLine == p.commandLine
    && r.environmentVariables == p.environmentVariables
    && r.modules == p.modules
    && r.processRestParametersFormat == p.processRestParametersFormat
    && r.schedulerRestParametersFormat == p.schedulerRestParametersFormat
    && r.project == p.project
    && r.queue == p.queue
    && r.exclusive == p.exclusive
    && r.nbNodes == p.nbNodes
    && r.nbCpus == p.nbCpus
    && r.nbGpus == p.nbGpus
    && r.gracefulExit == p.gracefulExit
    && r.waitUntilRunning == p.waitUntilRunning
    && r.name == p.name
    && r.description == p.description
  }

  /**
   * Inserts a new record under the lower-cased id. `conflict` is the text of
   * the database's integrity error, reported when the id is taken.
   */
  function Create(store: Store, p: SettingsParams, conflict: string): (r: StoreResult)
    ensures r.response.code == HTTP_CREATED <==> Lower(p.id) !in store
    ensures r.response.code == HTTP_CREATED || r.response.code == HTTP_CONFLICT
    ensures r.response.code == HTTP_CREATED ==>
      && r.store.Keys == store.Keys + {Lower(p.id)}
      && r.store[Lower(p.id)].id == Lower(p.id)
      && TakesListedFields(r.store[Lower(p.id)], p)
      && forall k :: k in store ==> r.store[k] == store[k]
    ensures r.response.code == HTTP_CONFLICT ==> r.store == store
  {
    var id := Lower(p.id);
    if id in store then
      StoreResult(store, Response(HTTP_CONFLICT, ContentsJson(conflict)))
    else
      StoreResult(store[id := FromParams(p)],
                  Response(HTTP_CREATED, ContentsJson("Rendering Resource " + id + " successfully configured")))
  }

  /** Replaces every listed field of the record under the lower-cased id. */
  function Update(store: Store, p: SettingsParams): (r: StoreResult)
    ensures r.response.code == HTTP_OK <==> Lower(p.id) in store
    ensures r.response.code == HTTP_OK || r.response.code == HTTP_NOT_FOUND
    ensures r.store.Keys == store.Keys
    ensures forall k :: k in store && k != Lower(p.id) ==> r.store[k] == store[k]
    ensures r.response.code == HTTP_OK ==>
      && r.response.body == ""
      && TakesListedFields(r.store[Lower(p.id)], p)
      && r.store[Lower(p.id)].id == store[Lower(p.id)].id
      && r.store[Lower(p.id)].memory == store[Lower(p.id)].memory
    ensures r.response.code == HTTP_NOT_FOUND ==> r.store == store
  {
    var id := Lower(p.id);
    if id !in store then
      StoreResult(store, Response(HTTP_NOT_FOUND, SETTINGS_DOES_NOT_EXIST))
    else
      var stored := store[id];
      var updated := stored.(
        commandLine := p.commandLine,
        environmentVariables := p.environmentVariables,
        modules := p.modules,
        processRestParametersFormat := p.processRestParametersFormat,
        schedulerRestParametersFormat := p.schedulerRestParametersFormat,
        project := p.project,
        queue := p.queue,
        exclusive := p.exclusive,
        nbNodes := p.nbNodes,
        nbCpus := p.nbCpus,
        nbGpus := p.nbGpus,
        gracefulExit := p.gracefulExit,
        waitUntilRunning := p.waitUntilRunning,
        name := p.name,
        description := p.description);
      StoreResult(store[id := updated], Response(HTTP_OK, ""))
  }

  /** Removes the record stored under exactly `id` (no case folding here). */
  function Delete(store: Store, id: string): (r: StoreResult)
    ensures r.response.code == HTTP_OK <==> id in store
    ensures r.response.code == HTTP_OK || r.response.code == HTTP_NOT_FOUND
    ensures r.store.Keys == store.Keys - {id}
    ensures forall k :: k in r.store ==> r.store[k] == store[k]
  {
    if id in store then
      StoreResult(store - {id}, Response(HTTP_OK, "Settings successfully deleted"))
    else
      StoreResult(store, Response(HTTP_NOT_FOUND, SETTINGS_DOES_NOT_EXIST))
  }

  /** Removes every record. */
  function Clear(store: Store): (r: StoreResult)
    ensures r.store == map[] && r.response.code == HTTP_OK
  {
    StoreResult(map[], Response(HTTP_OK, "Settings cleared"))
  }

  /** The record stored under exactly `id`; None where the lookup raises. */
  function GetById(store: Store, id: string): (r: Option<RenderingResourceSettings>)
    ensures r.Some? <==> id in store
    ensures r.Some? ==> r.value == store[id]
  {
    if id in store then Some(store[id]) else None
  }

  /** Creating a fresh record and deleting it again restores the registry. */
  lemma CreateThenDelete(store: Store, p: SettingsParams, conflict: string)
    requires Lower(p.id) !in store
    ensures Delete(Create(store, p, conflict).store, Lower(p.id)).store == store
    ensures Delete(Create(store, p, conflict).store, Lower(p.id)).response.code == HTTP_OK
  {
    var s1 := Create(store, p, conflict).store;
    assert s1 - {Lower(p.id)} == store;
  }

  /** A created record is found under its lower-cased id, but not under a differently-cased one. */
  lemma CreateThenGet(store: Store, p: SettingsParams, conflict: string)
    requires Lower(p.id) !in store
    ensures GetById(Create(store, p, conflict).store, Lower(p.id)) == Some(FromParams(p))
    ensures p.id != Lower(p.id) && p.id !in store ==>
      GetById(Create(store, p, conflict).store, p.id).None?
  {
  }

  /** A second create with the same id is refused and changes nothing. */
  lemma CreateTwice(store: Store, p: SettingsParams, conflict: string)
    ensures var s1 := Create(store, p, conflict).store;
      Create(s1, p, conflict).response.code == HTTP_CONFLICT && Create(s1, p, conflict).store == s1
  {
  }

  // ---------------------------------------------------------------------
  // REST parameter templates
  // ---------------------------------------------------------------------

  const REST_HOSTNAME := "${rest_hostname}"
  const REST_PORT := "${rest_port}"
  const REST_SCHEMA := "${rest_schema}"

  /**
   * Replaces every host placeholder, then every port placeholder, then
   * every schema placeholder: each pass cuts the text at the placeholder's
   * occurrences and joins the pieces with the value.
   */
  function FormatRestParameters(format: string, hostname: string, port: string, schema: string): (r: string)
    ensures r == Join(schema, SplitOn(Join(port, SplitOn(Join(hostname, SplitOn(format, REST_HOSTNAME)), REST_PORT)), REST_SCHEMA))
  {
    var withHost := Replace(format, REST_HOSTNAME, hostname);
    var withPort := Replace(withHost, REST_PORT, port);
    ReplaceIsJoinOfSplit(format, REST_HOSTNAME, hostname);
    ReplaceIsJoinOfSplit(withHost, REST_PORT, port);
    ReplaceIsJoinOfSplit(withPort, REST_SCHEMA, schema);
    Replace(withPort, REST_SCHEMA, schema)
  }

  /** A template without placeholders is returned as it is, whatever the values. */
  lemma FormatWithoutPlaceholders(format: string, hostname: string, port: string, schema: string)
    requires !Contains(format, REST_HOSTNAME) && !Contains(format, REST_PORT) && !Contains(format, REST_SCHEMA)
    ensures FormatRestParameters(format, hostname, port, schema) == format
  {
    ReplaceAbsent(format, REST_HOSTNAME, hostname);
    ReplaceAbsent(format, REST_PORT, port);
    ReplaceAbsent(format, REST_SCHEMA, schema);
  }

  /** Substituting each placeholder by its own text is the identity. */
  lemma FormatWithPlaceholderValues(format: string)
    ensures FormatRestParameters(format, REST_HOSTNAME, REST_PORT, REST_SCHEMA) == format
  {
    ReplaceByItself(format, REST_HOSTNAME);
    ReplaceByItself(format, REST_PORT);
    ReplaceByItself(format, REST_SCHEMA);
  }

  lemma ExampleHostStep()
    ensures Replace("--rest " + REST_HOSTNAME + ":" + REST_PORT, REST_HOSTNAME, "localhost") == "--rest localhost:" + REST_PORT
  {
    assert "--rest " + REST_HOSTNAME + ":" + REST_PORT == "--rest " + (REST_HOSTNAME + (":" + REST_PORT));
    ReplaceSkip("--rest ", REST_HOSTNAME + (":" + REST_PORT), REST_HOSTNAME, "localhost");
    ReplaceAtFront(REST_HOSTNAME, ":" + REST_PORT, "localhost");
    ReplaceSkip(":", REST_PORT, REST_HOSTNAME, "localhost");
    assert |REST_PORT| < |REST_HOSTNAME|;
    assert "--rest " + ("localhost" + (":" + REST_PORT)) == "--rest localhost:" + REST_PORT;
  }

  lemma ExamplePortStep()
    ensures Replace("--rest localhost:" + REST_PORT, REST_PORT, "3000") == "--rest localhost:3000"
  {
    ReplaceSkip("--rest localhost:", REST_PORT, REST_PORT, "3000");
    ReplaceAtFront(REST_PORT, "", "3000");
    assert REST_PORT + "" == REST_PORT;
  }

  lemma ExampleSchemaStep()
    ensures Replace("--rest localhost:3000", REST_SCHEMA, "schema") == "--rest localhost:3000"
  {
    ReplaceSkip("--rest localhost:3000", "", REST_SCHEMA, "schema");
    assert "--rest localhost:3000" + "" == "--rest localhost:3000";
  }

  /** The first substitution the registry's own test cases expect. */
  lemma FormatExample()
    ensures FormatRestParameters("--rest ${rest_hostname}:${rest_port}", "localhost", "3000", "schema")
         == "--rest localhost:3000"
  {
    assert "--rest " + REST_HOSTNAME + ":" + REST_PORT == "--rest ${rest_hostname}:${rest_port}";
    ExampleHostStep();
    ExamplePortStep();
    ExampleSchemaStep();
  }

  /**
   * The function takes no job id: a `${job_id}` placeholder is left in the
   * output, where the registry's seventh test case expects the job id.
   */
  lemma JobIdPlaceholderKept()
    ensures FormatRestParameters("--jobid=${job_id}", "localhost", "3000", "schema") == "--jobid=${job_id}"
  {
    var a, b := "--jobid=", "${job_id}";
    assert a + b == "--jobid=${job_id}";
    assert forall i :: 0 <= i < |a| ==> a[i] != '$';
    ShortTailKept(a, b, REST_HOSTNAME, "localhost");
    ShortTailKept(a, b, REST_PORT, "3000");
    ShortTailKept(a, b, REST_SCHEMA, "schema");
  }

  /**
   * Other `$` tokens pass through: the registry's fifth test case keeps
   * `$SLURMD_NODENAME` for the job's shell to expand and fills in the port.
   */
  lemma FormatNodeNameExample()
    ensures FormatRestParameters("--rest $SLURMD_NODENAME:${rest_port}", "localhost", "3000", "schema")
         == "--rest $SLURMD_NODENAME:3000"
  {
    var t := "--rest " + ("$" + ("SLURMD_NODENAME:" + REST_PORT));
    var u := "--rest " + ("$" + ("SLURMD_NODENAME:" + "3000"));
    NodeNameLiterals();
    NodeNameHostStep();
    NodeNamePortStep();
    NodeNameSchemaStep();
    assert FormatRestParameters(t, "localhost", "3000", "schema") == u;
  }

  lemma NodeNameLiterals()
    ensures "--rest " + ("$" + ("SLURMD_NODENAME:" + REST_PORT)) == "--rest $SLURMD_NODENAME:${rest_port}"
    ensures "--rest " + ("$" + ("SLURMD_NODENAME:" + "3000")) == "--rest $SLURMD_NODENAME:3000"
  {
  }

  lemma NodeNameHostStep()
    ensures var t := "--rest " + ("$" + ("SLURMD_NODENAME:" + REST_PORT));
      Replace(t, REST_HOSTNAME, "localhost") == t
  {
    ForeignDollarStep("--rest ", "SLURMD_NODENAME:", REST_PORT, REST_HOSTNAME, "localhost");
    assert |REST_PORT| < |REST_HOSTNAME|;
  }

  lemma NodeNamePortStep()
    ensures Replace("--rest " + ("$" + ("SLURMD_NODENAME:" + REST_PORT)), REST_PORT, "3000")
         == "--rest " + ("$" + ("SLURMD_NODENAME:" + "3000"))
  {
    ForeignDollarStep("--rest ", "SLURMD_NODENAME:", REST_PORT, REST_PORT, "3000");
    ReplaceAtFront(REST_PORT, "", "3000");
    assert REST_PORT + "" == REST_PORT;
  }

  lemma NodeNameSchemaStep()
    ensures var t := "--rest " + ("$" + ("SLURMD_NODENAME:" + "3000"));
      Replace(t, REST_SCHEMA, "schema") == t
  {
    ForeignDollarKept("--rest ", "SLURMD_NODENAME:" + "3000", REST_SCHEMA, "schema");
  }

  /**
   * A `$` whose next character is not `{` starts no placeholder: the text
   * around it is scanned on as usual.
   */
  lemma ForeignDollarStep(a: string, b: string, c: string, p: string, v: string)
    requires |p| > 1 && p[0] == '$' && p[1] == '{'
    requires '$' !in a && '$' !in b && b != [] && b[0] != '{'
    ensures Replace(a + ("$" + (b + c)), p, v) == a + ("$" + (b + Replace(c, p, v)))
  {
    var t := "$" + (b + c);
    assert forall i :: 0 <= i < |a| ==> a[i] != p[0];
    ReplaceSkip(a, t, p, v);
    assert t[1..] == b + c;
    if |t| >= |p| {
      assert t[..|p|][1] != p[1];
      ReplaceMiss(t, p, v);
    }
    assert forall i :: 0 <= i < |b| ==> b[i] != p[0];
    ReplaceSkip(b, c, p, v);
    if |t| < |p| {
      assert |c| < |p|;
      assert Replace(c, p, v) == c;
    }
  }

  /** Text whose only `$` starts no placeholder is kept by every substitution. */
  lemma ForeignDollarKept(a: string, b: string, p: string, v: string)
    requires |p| > 1 && p[0] == '$' && p[1] == '{'
    requires '$' !in a && '$' !in b && b != [] && b[0] != '{'
    ensures Replace(a + ("$" + b), p, v) == a + ("$" + b)
  {
    ForeignDollarStep(a, b, "", p, v);
    assert b + "" == b;
    DollarFreeKept("", p, v);
  }

  /** Text free of `$` followed by a tail shorter than the placeholder is left as it is. */
  lemma ShortTailKept(a: string, b: string, p: string, v: string)
    requires |p| > |b| && p[0] == '$'
    requires forall i :: 0 <= i < |a| ==> a[i] != '$'
    ensures Replace(a + b, p, v) == a + b
  {
    ReplaceSkip(a, b, p, v);
  }

  /** Text without `$` holds no placeholder: replacing one leaves it as it is. */
  lemma DollarFreeKept(t: string, p: string, v: string)
    requires |p| > 0 && p[0] == '$' && '$' !in t
    ensures Replace(t, p, v) == t
  {
    assert forall i :: 0 <= i < |t| ==> t[i] != p[0];
    ReplaceSkip(t, "", p, v);
    assert t + "" == t;
  }

  lemma SpliceHostTail()
    ensures Replace(REST_PORT + "hostname}", REST_HOSTNAME, "h") == REST_PORT + "hostname}"
  {
    var t := REST_PORT + "hostname}";
    HostTailFacts();
    ReplaceMiss(t, REST_HOSTNAME, "h");
    DollarFreeKept(t[1..], REST_HOSTNAME, "h");
    assert t == [t[0]] + t[1..];
  }

  lemma HostTailFacts()
    ensures (REST_PORT + "hostname}")[..|REST_HOSTNAME|] != REST_HOSTNAME
    ensures '$' !in (REST_PORT + "hostname}")[1..]
  {
    assert (REST_PORT + "hostname}")[..|REST_HOSTNAME|][7] != REST_HOSTNAME[7];
  }

  lemma SpliceHostStep()
    ensures Replace("${rest_" + REST_PORT + "hostname}", REST_HOSTNAME, "h") == "${rest_" + REST_PORT + "hostname}"
  {
    var s, tail := "${rest_" + REST_PORT + "hostname}", REST_PORT + "hostname}";
    SplicedFacts();
    ReplaceMiss(s, REST_HOSTNAME, "h");
    ReplaceSkip("{rest_", tail, REST_HOSTNAME, "h");
    SpliceHostTail();
  }

  lemma SplicePortStep()
    ensures Replace("${rest_" + REST_PORT + "hostname}", REST_PORT, "") == REST_HOSTNAME
  {
    var s, tail := "${rest_" + REST_PORT + "hostname}", REST_PORT + "hostname}";
    SplicedFacts();
    ReplaceMiss(s, REST_PORT, "");
    ReplaceSkip("{rest_", tail, REST_PORT, "");
    ReplaceAtFront(REST_PORT, "hostname}", "");
    DollarFreeKept("hostname}", REST_PORT, "");
    HostnameJoined();
  }

  /** The spliced template: `$`, then `{rest_`, then the port placeholder, then `hostname}`. */
  lemma SplicedFacts()
    ensures var s := "${rest_" + REST_PORT + "hostname}";
      && s[0] == '$' && s[1..] == "{rest_" + (REST_PORT + "hostname}")
      && s[..|REST_HOSTNAME|] != REST_HOSTNAME && s[..|REST_PORT|] != REST_PORT
      && (forall i :: 0 <= i < |"{rest_"| ==> "{rest_"[i] != '$')
  {
    var s := "${rest_" + REST_PORT + "hostname}";
    assert s[..|REST_HOSTNAME|][7] != REST_HOSTNAME[7];
    assert s[..|REST_PORT|][7] != REST_PORT[7];
  }

  /** The text around the port placeholder joins into the host placeholder. */
  lemma HostnameJoined()
    ensures "$" + ("{rest_" + ("" + "hostname}")) == REST_HOSTNAME
  {
  }

  lemma SpliceSchemaStep()
    ensures Replace(REST_HOSTNAME, REST_SCHEMA, "s") == REST_HOSTNAME
  {
    SchemaFacts();
    ReplaceMiss(REST_HOSTNAME, REST_SCHEMA, "s");
    DollarFreeKept(REST_HOSTNAME[1..], REST_SCHEMA, "s");
    assert REST_HOSTNAME == [REST_HOSTNAME[0]] + REST_HOSTNAME[1..];
  }

  lemma SchemaFacts()
    ensures REST_HOSTNAME[..|REST_SCHEMA|] != REST_SCHEMA
    ensures '$' !in REST_HOSTNAME[1..]
  {
    assert REST_HOSTNAME[..|REST_SCHEMA|][7] != REST_SCHEMA[7];
  }

  /**
   * Values free of placeholder text do not guarantee an output free of
   * placeholders: removing the port placeholder can join the text around
   * it into a host placeholder.
   */
  lemma PlaceholderCanBeSpliced()
    ensures FormatRestParameters("${rest_${rest_port}hostname}", "h", "", "s") == REST_HOSTNAME
  {
    assert "${rest_" + REST_PORT + "hostname}" == "${rest_${rest_port}hostname}";
    SpliceHostStep();
    SplicePortStep();
    SpliceSchemaStep();
  }
}

=== FILE: slurm_job_manager.dfy ===
/**
 * The SLURM job manager: builds the `salloc` command that reserves a node,
 * tries the configured cluster hosts one after the other, starts the
 * renderer on the allocated node through ssh, and queries `scontrol` for
 * the node's name and the job's logs. Every ssh round trip is a parameter
 * holding what the remote side answered.
 */
module SlurmJobManager {
  import opened Common
  import opened Text
  import opened Models
  import SettingsManager
  import opened JobCommon

  /**
   * The deployment settings the job manager reads: the ssh key and user, the
   * hosts to try in order, the default allocation time and the `--immediate`
   * timeout in seconds.
   */
  datatype SlurmConfig = SlurmConfig(
    sshKey: string,
    username: string,
    hosts: seq<string>,
    defaultTime: string,
    allocationTimeout: int)

  const OUTPUT_PREFIX := "/gpfs/bbp.cscs.ch/project/proj3/tmp/vws_%A_"
  const OUT_FILE := "_out.txt"
  const ERR_FILE := "_err.txt"
  const NOT_AVAILABLE := "Not currently available"

  /** What a job-manager call ended with: no answer at all, a reply, or an exception. */
  datatype JobResult = NoResult | Answered(response: Response) | Raised(error: string)

  /** The ssh command line a start runs through the shell, and the script it writes to the shell's input. */
  datatype Launch = Launch(command: string, script: string)

  /**
   * The session a call left saved, how the call ended, and the script the
   * call handed to ssh, if it handed one over.
   */
  datatype Outcome = Outcome(session: Session, result: JobResult, sent: Option<Launch> := None)

  /** `ssh -i <key> <user>@`, completed by the host name of each call. */
  function SshCommand(cfg: SlurmConfig): string {
    "/usr/bin/ssh -i " + cfg.sshKey + " " + cfg.username + "@"
  }

  // ---------------------------------------------------------------------
  // The salloc command
  // ---------------------------------------------------------------------

  /** A job value replaces the settings value unless it is zero. */
  function Override(jobValue: int, settingsValue: int): int {
    if jobValue != 0 then jobValue else settingsValue
  }

  function NodeCount(settings: SettingsManager.RenderingResourceSettings, job: JobInformation): int {
    Override(job.nbNodes, settings.nbNodes)
  }

  function CpuCount(settings: SettingsManager.RenderingResourceSettings, job: JobInformation): int {
    Override(job.nbCpus, settings.nbCpus)
  }

  function GpuCount(settings: SettingsManager.RenderingResourceSettings, job: JobInformation): int {
    Override(job.nbGpus, settings.nbGpus)
  }

  function MemoryAmount(settings: SettingsManager.RenderingResourceSettings, job: JobInformation): int {
    Override(job.memory, settings.memory)
  }

  predicate Exclusive(settings: SettingsManager.RenderingResourceSettings, job: JobInformation) {
    job.exclusiveAllocation || settings.exclusive
  }

  predicate HasReservation(job: JobInformation) {
    job.reservation.Some? && job.reservation.value != ""
  }

  /** The words of a zero-or-one-flag option group. */
  function ExclusiveWords(settings: SettingsManager.RenderingResourceSettings, job: JobInformation): seq<string> {
    if Exclusive(settings, job) then ["--exclusive"] else []
  }

  function NodeWords(settings: SettingsManager.RenderingResourceSettings, job: JobInformation): seq<string> {
    if NodeCount(settings, job) != 0 then ["-N", IntToString(NodeCount(settings, job))] else []
  }

  function ResourceWords(settings: SettingsManager.RenderingResourceSettings, job: JobInformation): seq<string> {
    ["-c", IntToString(CpuCount(settings, job)),
     "--gres=gpu:" + IntToString(GpuCount(settings, job)),
     "--mem=" + IntToString(MemoryAmount(settings, job))]
  }

  function ReservationWords(job: JobInformation): seq<string> {
    if HasReservation(job) then ["--reservation=" + job.reservation.value] else []
  }

  /**
   * The allocation options as the words the shell sees, in the order the
   * command lists them: every flag the settings and the request call for.
   */
  function OptionWords(settings: SettingsManager.RenderingResourceSettings, job: JobInformation): (ws: seq<string>)
    ensures Exclusive(settings, job) ==> "--exclusive" in ws
    ensures NodeCount(settings, job) != 0 ==> "-N" in ws && IntToString(NodeCount(settings, job)) in ws
    ensures "-c" in ws && IntToString(CpuCount(settings, job)) in ws
    ensures "--gres=gpu:" + IntToString(GpuCount(settings, job)) in ws
    ensures "--mem=" + IntToString(MemoryAmount(settings, job)) in ws
    ensures HasReservation(job) ==> "--reservation=" + job.reservation.value in ws
  {
    ExclusiveWords(settings, job) + NodeWords(settings, job) + ResourceWords(settings, job) + ReservationWords(job)
  }

  /** An integer's decimal text is never a flag: its second character, if any, is a digit. */
  lemma NumberIsNoFlag(n: int, flag: string)
    requires |flag| >= 2 && !IsDigit(flag[1])
    ensures IntToString(n) != flag
  {
    var t := IntToString(n);
    if |t| == |flag| {
      assert IsDigit(t[1]);
    }
  }

  /** `--exclusive` is among the options only when the request or the settings ask for it. */
  lemma ExclusiveOnlyWhenAsked(settings: SettingsManager.RenderingResourceSettings, job: JobInformation)
    ensures "--exclusive" in OptionWords(settings, job) <==> Exclusive(settings, job)
  {
    var flag := "--exclusive";
    NumberIsNoFlag(NodeCount(settings, job), flag);
    NumberIsNoFlag(CpuCount(settings, job), flag);
    var g := "--gres=gpu:" + IntToString(GpuCount(settings, job));
    var m := "--mem=" + IntToString(MemoryAmount(settings, job));
    assert g[2] != flag[2] && m[2] != flag[2];
    assert flag !in ResourceWords(settings, job);
    assert flag !in NodeWords(settings, job);
    if HasReservation(job) {
      assert ("--reservation=" + job.reservation.value)[2] != flag[2];
    }
    assert flag !in ReservationWords(job);
  }

  /** `-N` is among the options exactly when the node count in force is non-zero. */
  lemma NodesOnlyWhenNonZero(settings: SettingsManager.RenderingResourceSettings, job: JobInformation)
    ensures "-N" in OptionWords(settings, job) <==> NodeCount(settings, job) != 0
  {
    var flag := "-N";
    NumberIsNoFlag(CpuCount(settings, job), flag);
    var g := "--gres=gpu:" + IntToString(GpuCount(settings, job));
    var m := "--mem=" + IntToString(MemoryAmount(settings, job));
    assert |g| > 2 && |m| > 2;
    assert flag !in ResourceWords(settings, job);
    assert flag !in ExclusiveWords(settings, job);
    if HasReservation(job) {
      assert |"--reservation=" + job.reservation.value| > 2;
    }
    assert flag !in ReservationWords(job);
  }

  /** Without a non-empty reservation no option names one. */
  lemma ReservationOnlyWhenGiven(settings: SettingsManager.RenderingResourceSettings, job: JobInformation)
    requires !HasReservation(job)
    ensures forall w :: w in OptionWords(settings, job) ==> !IsPrefix("--reservation=", w)
  {
    var key := "--reservation=";
    var e, n, r := ExclusiveWords(settings, job), NodeWords(settings, job), ResourceWords(settings, job);
    assert ReservationWords(job) == [];
    assert OptionWords(settings, job) == e + n + r + [];
    ExclusiveNotReservation(settings, job);
    NodesNotReservation(settings, job);
    ResourcesNotReservation(settings, job);
  }

  /** A number's decimal text never starts with an option key: its second character, if any, is a digit. */
  lemma NumberNotKeyed(n: int, key: string)
    requires |key| >= 2 && !IsDigit(key[1])
    ensures !IsPrefix(key, IntToString(n))
  {
    var t := IntToString(n);
    if |t| >= |key| {
      assert IsDigit(t[1]);
      assert t[..|key|][1] == t[1];
    }
  }

  lemma ExclusiveNotReservation(settings: SettingsManager.RenderingResourceSettings, job: JobInformation)
    ensures forall w :: w in ExclusiveWords(settings, job) ==> !IsPrefix("--reservation=", w)
  {
    assert |"--exclusive"| < |"--reservation="|;
  }

  lemma NodesNotReservation(settings: SettingsManager.RenderingResourceSettings, job: JobInformation)
    ensures forall w :: w in NodeWords(settings, job) ==> !IsPrefix("--reservation=", w)
  {
    NumberNotKeyed(NodeCount(settings, job), "--reservation=");
  }

  lemma ResourcesNotReservation(settings: SettingsManager.RenderingResourceSettings, job: JobInformation)
    ensures forall w :: w in ResourceWords(settings, job) ==> !IsPrefix("--reservation=", w)
  {
    var key := "--reservation=";
    NumberNotKeyed(CpuCount(settings, job), key);
    var g := "--gres=gpu:" + IntToString(GpuCount(settings, job));
    var m := "--mem=" + IntToString(MemoryAmount(settings, job));
    assert g[2] != key[2] && m[2] != key[2];
  }

  /** The option string as the allocation command builds it, one fragment at a time. */
  function AllocationOptions(settings: SettingsManager.RenderingResourceSettings, job: JobInformation): string {
    ExclusiveFragment(settings, job) + NodeFragment(settings, job)
    + ResourceFragment(settings, job) + ReservationFragment(job)
  }

  function ExclusiveFragment(settings: SettingsManager.RenderingResourceSettings, job: JobInformation): string {
    if Exclusive(settings, job) then " --exclusive" else ""
  }

  function NodeFragment(settings: SettingsManager.RenderingResourceSettings, job: JobInformation): string {
    if NodeCount(settings, job) != 0 then " -N " + IntToString(NodeCount(settings, job)) else ""
  }

  function ResourceFragment(settings: SettingsManager.RenderingResourceSettings, job: JobInformation): string {
    " -c " + IntToString(CpuCount(settings, job))
    + " --gres=gpu:" + IntToString(GpuCount(settings, job))
    + " --mem=" + IntToString(MemoryAmount(settings, job))
  }

  function ReservationFragment(job: JobInformation): string {
    if HasReservation(job) then " --reservation=" + job.reservation.value else ""
  }

  lemma ResourceFragmentSpaced(settings: SettingsManager.RenderingResourceSettings, job: JobInformation)
    ensures ResourceFragment(settings, job) == SpacePrefixed(ResourceWords(settings, job))
  {
    ResourceShape(IntToString(CpuCount(settings, job)), IntToString(GpuCount(settings, job)),
                  IntToString(MemoryAmount(settings, job)));
  }

  /** The resource options, for any values, are their four words space-prefixed. */
  lemma ResourceShape(a: string, b: string, c: string)
    ensures " -c " + a + " --gres=gpu:" + b + " --mem=" + c
         == SpacePrefixed(["-c", a, "--gres=gpu:" + b, "--mem=" + c])
  {
    var p1, p2 := ["-c", a], ["--gres=gpu:" + b, "--mem=" + c];
    assert ["-c", a, "--gres=gpu:" + b, "--mem=" + c] == p1 + p2;
    CpuPair(a);
    OptionPair("--gres=gpu:", b, "--mem=", c);
    SpacePrefixedAppend(p1, p2);
    ResourceRegroup(a, b, c);
  }

  lemma CpuPair(a: string)
    ensures SpacePrefixed(["-c", a]) == " -c " + a
  {
    SpacePrefixedTwo("-c", a);
  }

  /** Two options, each a flag glued to its value, spaced as one fragment. */
  lemma OptionPair(flag1: string, value1: string, flag2: string, value2: string)
    ensures SpacePrefixed([flag1 + value1, flag2 + value2]) == " " + flag1 + value1 + " " + flag2 + value2
  {
    SpacePrefixedTwo(flag1 + value1, flag2 + value2);
  }

  lemma ResourceRegroup(a: string, b: string, c: string)
    ensures " -c " + a + " --gres=gpu:" + b + " --mem=" + c == (" -c " + a) + (" --gres=gpu:" + b + " --mem=" + c)
  {
  }

  lemma ExclusiveFragmentSpaced(settings: SettingsManager.RenderingResourceSettings, job: JobInformation)
    ensures ExclusiveFragment(settings, job) == SpacePrefixed(ExclusiveWords(settings, job))
  {
    SpacePrefixedOne("--exclusive");
  }

  lemma NodeFragmentSpaced(settings: SettingsManager.RenderingResourceSettings, job: JobInformation)
    ensures NodeFragment(settings, job) == SpacePrefixed(NodeWords(settings, job))
  {
    SpacePrefixedTwo("-N", IntToString(NodeCount(settings, job)));
  }

  lemma ReservationFragmentSpaced(job: JobInformation)
    ensures ReservationFragment(job) == SpacePrefixed(ReservationWords(job))
  {
    if HasReservation(job) {
      SpacePrefixedOne("--reservation=" + job.reservation.value);
    }
  }

  /** The option string is the option words, each preceded by one space. */
  lemma OptionsAreSpacedWords(settings: SettingsManager.RenderingResourceSettings, job: JobInformation)
    ensures AllocationOptions(settings, job) == SpacePrefixed(OptionWords(settings, job))
  {
    ExclusiveFragmentSpaced(settings, job);
    NodeFragmentSpaced(settings, job);
    ResourceFragmentSpaced(settings, job);
    ReservationFragmentSpaced(job);
    SpacePrefixedFour(ExclusiveWords(settings, job), NodeWords(settings, job),
                      ResourceWords(settings, job), ReservationWords(job));
  }

  /** The allocation time: the request's when it gives one, the deployment default otherwise. */
  function AllocationTime(cfg: SlurmConfig, job: JobInformation): (t: string)
    ensures t == cfg.defaultTime || t == job.allocationTime
    ensures t == job.allocationTime <== job.allocationTime != ""
    ensures t == cfg.defaultTime <== job.allocationTime == ""
  {
    if job.allocationTime != "" then job.allocationTime else cfg.defaultTime
  }

  function JobName(settings: SettingsManager.RenderingResourceSettings, s: Session): string {
    s.owner + "_" + settings.id
  }

  /** The command line that asks the session's cluster node for an allocation. */
  function AllocationCommand(cfg: SlurmConfig, settings: SettingsManager.RenderingResourceSettings, s: Session, job: JobInformation): (c: string)
    ensures IsPrefix(SshCommand(cfg) + s.clusterNode, c)
    ensures IsSuffix(AllocationOptions(settings, job), c)
  {
    var head := SshCommand(cfg) + s.clusterNode;
    var c := head + SallocArguments(cfg, settings, s, job) + AllocationOptions(settings, job);
    assert c[..|head|] == head;
    c
  }

  /** `salloc` with its fixed arguments, in the order the command gives them. */
  function SallocArguments(cfg: SlurmConfig, settings: SettingsManager.RenderingResourceSettings, s: Session, job: JobInformation): string {
    " salloc --no-shell"
    + " --immediate=" + IntToString(cfg.allocationTimeout)
    + " -p " + settings.queue
    + " --account=" + settings.project
    + " --job-name=" + JobName(settings, s)
    + " --time=" + AllocationTime(cfg, job)
  }

  function SshWords(cfg: SlurmConfig, s: Session): seq<string> {
    ["-i", cfg.sshKey, cfg.username + "@" + s.clusterNode]
  }

  function SallocWords(cfg: SlurmConfig, settings: SettingsManager.RenderingResourceSettings, s: Session, job: JobInformation): seq<string> {
    ["salloc", "--no-shell", "--immediate=" + IntToString(cfg.allocationTimeout),
     "-p", settings.queue, "--account=" + settings.project,
     "--job-name=" + JobName(settings, s), "--time=" + AllocationTime(cfg, job)]
  }

  /** The words of the allocation command: ssh and its target, salloc and its arguments, the options. */
  function AllocationWords(cfg: SlurmConfig, settings: SettingsManager.RenderingResourceSettings, s: Session, job: JobInformation): seq<string> {
    ["/usr/bin/ssh"] + SshWords(cfg, s) + SallocWords(cfg, settings, s, job) + OptionWords(settings, job)
  }

  lemma SshSpaced(cfg: SlurmConfig, s: Session)
    ensures SshCommand(cfg) + s.clusterNode == "/usr/bin/ssh" + SpacePrefixed(SshWords(cfg, s))
  {
    var w := SshWords(cfg, s);
    SpacePrefixedTwo(w[1], w[2]);
    SpacePrefixedOne(w[0]);
    SpacePrefixedAppend([w[0]], [w[1], w[2]]);
    assert w == [w[0]] + [w[1], w[2]];
    var host := cfg.username + "@" + s.clusterNode;
    assert SshCommand(cfg) + s.clusterNode == "/usr/bin/ssh" + " " + "-i" + (" " + cfg.sshKey + " " + host);
  }

  lemma SallocSpaced(cfg: SlurmConfig, settings: SettingsManager.RenderingResourceSettings, s: Session, job: JobInformation)
    ensures SallocArguments(cfg, settings, s, job) == SpacePrefixed(SallocWords(cfg, settings, s, job))
  {
    SallocShape(IntToString(cfg.allocationTimeout), settings.queue, settings.project,
                JobName(settings, s), AllocationTime(cfg, job));
  }

  /** The salloc arguments, for any values, are their eight words space-prefixed. */
  lemma SallocShape(t: string, q: string, p: string, n: string, tm: string)
    ensures " salloc --no-shell" + " --immediate=" + t + " -p " + q + " --account=" + p
            + " --job-name=" + n + " --time=" + tm
         == SpacePrefixed(["salloc", "--no-shell", "--immediate=" + t, "-p", q,
                           "--account=" + p, "--job-name=" + n, "--time=" + tm])
  {
    var w := ["salloc", "--no-shell", "--immediate=" + t, "-p", q, "--account=" + p, "--job-name=" + n, "--time=" + tm];
    var p1, p2, p3, p4 := w[..2], w[2..4], w[4..6], w[6..];
    assert w == p1 + p2 + p3 + p4;
    assert p1 == ["salloc", "--no-shell"];
    assert p2 == ["--immediate=" + t, "-p"];
    assert p3 == [q, "--account=" + p];
    assert p4 == ["--job-name=" + n, "--time=" + tm];
    SallocPair();
    ImmediatePair(t);
    AccountPair(q, p);
    OptionPair("--job-name=", n, "--time=", tm);
    SpacePrefixedFour(p1, p2, p3, p4);
    SallocRegroup(SpacePrefixed(p1), SpacePrefixed(p2), SpacePrefixed(p3), SpacePrefixed(p4), t, q, p, n, tm);
  }

  lemma SallocPair()
    ensures SpacePrefixed(["salloc", "--no-shell"]) == " salloc --no-shell"
  {
    SpacePrefixedTwo("salloc", "--no-shell");
  }

  lemma ImmediatePair(t: string)
    ensures SpacePrefixed(["--immediate=" + t, "-p"]) == " --immediate=" + t + " -p"
  {
    SpacePrefixedTwo("--immediate=" + t, "-p");
  }

  lemma AccountPair(q: string, p: string)
    ensures SpacePrefixed([q, "--account=" + p]) == " " + q + " --account=" + p
  {
    SpacePrefixedTwo(q, "--account=" + p);
  }

  lemma SallocRegroup(x1: string, x2: string, x3: string, x4: string, t: string, q: string, p: string, n: string, tm: string)
    requires x1 == " salloc --no-shell"
    requires x2 == " --immediate=" + t + " -p"
    requires x3 == " " + q + " --account=" + p
    requires x4 == " --job-name=" + n + " --time=" + tm
    ensures " salloc --no-shell" + " --immediate=" + t + " -p " + q + " --account=" + p
            + " --job-name=" + n + " --time=" + tm == x1 + x2 + x3 + x4
  {
  }

  predicate NoWhitespace(t: string) {
    forall i :: 0 <= i < |t| ==> !IsWhitespace(t[i])
  }

  /** The settings and request values the command embeds are single words. */
  predicate WordValues(cfg: SlurmConfig, settings: SettingsManager.RenderingResourceSettings, s: Session, job: JobInformation) {
    && IsToken(cfg.sshKey) && IsToken(cfg.username + "@" + s.clusterNode)
    && IsToken(settings.queue) && NoWhitespace(settings.project)
    && NoWhitespace(JobName(settings, s)) && NoWhitespace(AllocationTime(cfg, job))
    && (job.reservation.Some? ==> NoWhitespace(job.reservation.value))
  }

  lemma PrefixedToken(p: string, t: string)
    requires IsToken(p) && NoWhitespace(t)
    ensures IsToken(p + t)
  {
    assert forall i :: |p| <= i < |p + t| ==> (p + t)[i] == t[i - |p|];
  }

  /**
   * When the embedded values are single words, the shell splits the
   * allocation command into the ssh prefix, `salloc --no-shell`, the
   * `--immediate`, `-p`, `--account`, `--job-name` and `--time` settings in
   * that order, and then exactly the option words.
   */
  lemma AllocationCommandWords(cfg: SlurmConfig, settings: SettingsManager.RenderingResourceSettings, s: Session, job: JobInformation)
    requires WordValues(cfg, settings, s, job)
    ensures Words(AllocationCommand(cfg, settings, s, job)) == AllocationWords(cfg, settings, s, job)
  {
    var a, b, c := SshWords(cfg, s), SallocWords(cfg, settings, s, job), OptionWords(settings, job);
    var pa, pb, pc := SshCommand(cfg) + s.clusterNode, SallocArguments(cfg, settings, s, job), AllocationOptions(settings, job);
    AllocationWordsAreTokens(cfg, settings, s, job);
    SshSpaced(cfg, s);
    SallocSpaced(cfg, settings, s, job);
    OptionsAreSpacedWords(settings, job);
    SshPathIsToken();
    CommandOfGroups("/usr/bin/ssh", a, b, c, pa, pb, pc,
                    AllocationCommand(cfg, settings, s, job), AllocationWords(cfg, settings, s, job));
  }

  lemma SshPathIsToken()
    ensures IsToken("/usr/bin/ssh")
  {
    var p := "/usr/bin/ssh";
    assert forall i :: 0 <= i < |p| ==> p[i] in "/usrbinsh";
  }

  /** A command assembled from a head word and three space-prefixed groups of single words splits back into them. */
  lemma CommandOfGroups(head: string, a: seq<string>, b: seq<string>, c: seq<string>,
                        pa: string, pb: string, pc: string, command: string, ws: seq<string>)
    requires IsToken(head) && AllTokens(a + b + c)
    requires pa == head + SpacePrefixed(a) && pb == SpacePrefixed(b) && pc == SpacePrefixed(c)
    requires command == pa + pb + pc && ws == [head] + a + b + c
    ensures Words(command) == ws
  {
    WordsOfSpacedGroups(head, a, b, c, pa, pb, pc);
  }

  lemma AllocationWordsAreTokens(cfg: SlurmConfig, settings: SettingsManager.RenderingResourceSettings, s: Session, job: JobInformation)
    requires WordValues(cfg, settings, s, job)
    ensures AllTokens(SshWords(cfg, s) + SallocWords(cfg, settings, s, job) + OptionWords(settings, job))
  {
    var a, b, c := SshWords(cfg, s), SallocWords(cfg, settings, s, job), OptionWords(settings, job);
    SshWordsAreTokens(cfg, s);
    SallocWordsAreTokens(cfg, settings, s, job);
    OptionWordsAreTokens(settings, job);
    AllTokensAppend(a, b);
    AllTokensAppend(a + b, c);
  }

  lemma SshWordsAreTokens(cfg: SlurmConfig, s: Session)
    requires IsToken(cfg.sshKey) && IsToken(cfg.username + "@" + s.clusterNode)
    ensures AllTokens(SshWords(cfg, s))
  {
  }

  lemma SallocWordsAreTokens(cfg: SlurmConfig, settings: SettingsManager.RenderingResourceSettings, s: Session, job: JobInformation)
    requires WordValues(cfg, settings, s, job)
    ensures AllTokens(SallocWords(cfg, settings, s, job))
  {
    PrefixedToken("--account=", settings.project);
    PrefixedToken("--job-name=", JobName(settings, s));
    PrefixedToken("--time=", AllocationTime(cfg, job));
    PrefixedToken("--immediate=", IntToString(cfg.allocationTimeout));
  }

  lemma OptionWordsAreTokens(settings: SettingsManager.RenderingResourceSettings, job: JobInformation)
    requires job.reservation.Some? ==> NoWhitespace(job.reservation.value)
    ensures AllTokens(OptionWords(settings, job))
  {
    var e, n, r, v := ExclusiveWords(settings, job), NodeWords(settings, job), ResourceWords(settings, job), ReservationWords(job);
    FlagWordsAreTokens(settings, job);
    ResourceWordsAreTokens(settings, job);
    ReservationWordsAreTokens(job);
    AllTokensAppend(e, n);
    AllTokensAppend(e + n, r);
    AllTokensAppend(e + n + r, v);
  }

  lemma FlagWordsAreTokens(settings: SettingsManager.RenderingResourceSettings, job: JobInformation)
    ensures AllTokens(ExclusiveWords(settings, job)) && AllTokens(NodeWords(settings, job))
  {
  }

  lemma ResourceWordsAreTokens(settings: SettingsManager.RenderingResourceSettings, job: JobInformation)
    ensures AllTokens(ResourceWords(settings, job))
  {
    PrefixedToken("--gres=gpu:", IntToString(GpuCount(settings, job)));
    PrefixedToken("--mem=", IntToString(MemoryAmount(settings, job)));
  }

  lemma ReservationWordsAreTokens(job: JobInformation)
    requires job.reservation.Some? ==> NoWhitespace(job.reservation.value)
    ensures AllTokens(ReservationWords(job))
  {
    if HasReservation(job) {
      PrefixedToken("--reservation=", job.reservation.value);
    }
  }

  // ---------------------------------------------------------------------
  // Trying the hosts
  // ---------------------------------------------------------------------

  /** What the allocation command printed on stderr, or the error that kept it from running. */
  datatype HostReply = Stderr(text: string) | Unreachable(error: string)

  predicate Granted(r: HostReply) {
    r.Stderr? && Contains(r.text, "Granted")
  }

  function ScheduledJson(jobId: string): string {
    "{\"message\": \"Job scheduled\", \"jobId\": \"" + jobId + "\"}"
  }

  /** The session while the command for `host` runs. */
  function Trying(s: Session, host: string): (t: Session)
    ensures t.status == Scheduling && t.clusterNode == host
  {
    s.(status := Scheduling, clusterNode := host)
  }

  /**
   * The host loop from `hosts` on, `result` holding the answer of the host
   * tried last: the first granted host ends the loop with the job number
   * taken from stderr; a refusal marks the session failed and goes on; a
   * command that cannot run leaves the session scheduling and goes on.
   */
  function AllocateFrom(cfg: SlurmConfig, settings: SettingsManager.RenderingResourceSettings, s: Session,
                        job: JobInformation, hosts: seq<string>, replies: seq<HostReply>, result: JobResult): (r: Outcome)
    requires |replies| == |hosts|
    requires result == NoResult || (result.Answered? && result.response.code == HTTP_BAD_REQUEST)
    ensures hosts == [] ==> r == Outcome(s, result)
    ensures hosts != [] ==> r.session.status in {Scheduling, Failed, Scheduled}
    ensures r.result.Answered? && r.result.response.code == HTTP_OK ==>
              r.session.status == Scheduled && HasJob(r.session) && r.session.clusterNode in hosts
    ensures hosts != [] ==> r.result != NoResult
    ensures r.session.rendererId == s.rendererId
    ensures r.sent.None?
    decreases |hosts|
  {
    if hosts == [] then Outcome(s, result)
    else
      var t := Trying(s, hosts[0]);
      match replies[0]
      case Unreachable(e) =>
        AllocateFrom(cfg, settings, t, job, hosts[1..], replies[1..],
                     Answered(Response(HTTP_BAD_REQUEST, ContentsJson(e))))
      case Stderr(text) =>
        if Granted(replies[0]) then
          match FirstDigitRun(text)
          case None => Outcome(t, Raised("list index out of range"))
          case Some(id) =>
            Outcome(t.(jobId := id, status := Scheduled), Answered(Response(HTTP_OK, ScheduledJson(id))))
        else
          AllocateFrom(cfg, settings, t.(status := Failed), job, hosts[1..], replies[1..],
                       Answered(Response(HTTP_BAD_REQUEST, ContentsJson(text))))
  }

  /** `allocate`: the host loop over the configured hosts, with one reply per host. */
  function Allocate(cfg: SlurmConfig, settings: SettingsManager.RenderingResourceSettings, s: Session,
                    job: JobInformation, replies: seq<HostReply>): (r: Outcome)
    requires |replies| == |cfg.hosts|
    ensures cfg.hosts == [] <==> r.result == NoResult
    ensures r.session.rendererId == s.rendererId
    ensures r.sent.None?
  {
    AllocateFrom(cfg, settings, s, job, cfg.hosts, replies, NoResult)
  }

  /** The position of the first granting reply. */
  function FirstGranted(replies: seq<HostReply>): (k: Option<nat>)
    ensures k.Some? ==> k.value < |replies| && Granted(replies[k.value])
    ensures k.Some? ==> forall i :: 0 <= i < k.value ==> !Granted(replies[i])
    ensures k.None? ==> forall i :: 0 <= i < |replies| ==> !Granted(replies[i])
  {
    if replies == [] then None
    else if Granted(replies[0]) then Some(0)
    else match FirstGranted(replies[1..])
      case None => None
      case Some(k) => Some(k + 1)
  }

  /**
   * The loop ends on the first host whose reply says Granted: that host
   * becomes the session's cluster node and, when the reply holds a number,
   * the session is scheduled with the first number as job id and the reply
   * is 200. When no host grants, every host is tried, the session stays on
   * the last one, and the answer is the last host's 400.
   */
  lemma {:induction false} AllocateStopsAtFirstGrant(cfg: SlurmConfig, settings: SettingsManager.RenderingResourceSettings,
                                                     s: Session, job: JobInformation, hosts: seq<string>,
                                                     replies: seq<HostReply>, result: JobResult)
    requires |replies| == |hosts| && hosts != []
    requires result == NoResult || (result.Answered? && result.response.code == HTTP_BAD_REQUEST)
    ensures var r := AllocateFrom(cfg, settings, s, job, hosts, replies, result);
      match FirstGranted(replies)
      case Some(k) =>
        && r.session.clusterNode == hosts[k]
        && (FirstDigitRun(replies[k].text).Some? ==>
              && r.session.jobId == FirstDigitRun(replies[k].text).value
              && r.session.status == Scheduled
              && r.result.Answered? && r.result.response.code == HTTP_OK)
        && (FirstDigitRun(replies[k].text).None? ==> r.result.Raised?)
      case None =>
        && r.session.clusterNode == hosts[|hosts| - 1]
        && r.session.jobId == s.jobId
        && r.result.Answered? && r.result.response.code == HTTP_BAD_REQUEST
        && (replies[|hosts| - 1].Unreachable? <==> r.session.status == Scheduling)
        && (replies[|hosts| - 1].Stderr? <==> r.session.status == Failed)
    decreases |hosts|
  {
    var t := Trying(s, hosts[0]);
    if Granted(replies[0]) {
      assert FirstGranted(replies) == Some(0);
    } else {
      var next := if replies[0].Unreachable? then t else t.(status := Failed);
      var res := if replies[0].Unreachable?
                 then Answered(Response(HTTP_BAD_REQUEST, ContentsJson(replies[0].error)))
                 else Answered(Response(HTTP_BAD_REQUEST, ContentsJson(replies[0].text)));
      assert AllocateFrom(cfg, settings, s, job, hosts, replies, result)
          == AllocateFrom(cfg, settings, next, job, hosts[1..], replies[1..], res);
      if |hosts| > 1 {
        AllocateStopsAtFirstGrant(cfg, settings, next, job, hosts[1..], replies[1..], res);
        match FirstGranted(replies[1..])
        case Some(k) =>
          assert FirstGranted(replies) == Some(k + 1);
        case None =>
          assert FirstGranted(replies) == None;
      } else {
        assert FirstGranted(replies) == None;
      }
    }
  }

  // ---------------------------------------------------------------------
  // The name of the allocated node
  // ---------------------------------------------------------------------

  /** What `scontrol show job` printed, or the error that kept it from running. */
  datatype ScontrolReply = Output(text: string) | SshFailed(error: string)

  /**
   * `_query(session, attribute)`: the job's value of `attribute`, empty for a
   * cancelled job or when ssh fails; None where a search finds nothing and
   * the call raises.
   */
  function Query(attribute: string, reply: ScontrolReply): (r: Option<string>)
    ensures reply.SshFailed? ==> r == Some("")
    ensures reply.Output? && SearchWordAfter(reply.text, "JobState=") == Some("CANCELLED") ==> r == Some("")
    ensures reply.Output? && SearchWordAfter(reply.text, "JobState=") == None ==> r == None
    ensures r.Some? && r.value != "" ==> r == SearchWordAfter(reply.text, attribute + "=")
  {
    match reply
    case SshFailed(_) => Some("")
    case Output(text) =>
      match SearchWordAfter(text, "JobState=")
      case None => None
      case Some(state) =>
        if state == "CANCELLED" then Some("") else SearchWordAfter(text, attribute + "=")
  }

  /**
   * `hostname`: the batch host of the job completed with the domain of the
   * cluster node (its text after the first dot), or empty while there is none.
   */
  function Hostname(s: Session, reply: ScontrolReply): (r: Option<string>)
    ensures r.None? <==> Query("BatchHost", reply).None?
    ensures r == Some("") <==> Query("BatchHost", reply) == Some("")
  {
    match Query("BatchHost", reply)
    case None => None
    case Some(h) => Some(if h != "" then h + "." + Partition(s.clusterNode, '.').1 else "")
  }

  /** A batch host `h` on cluster node `name.domain` is reported as `h.domain`. */
  lemma HostnameKeepsClusterDomain(s: Session, reply: ScontrolReply, name: string, domain: string)
    requires s.clusterNode == name + "." + domain && '.' !in name
    requires Query("BatchHost", reply).Some? && Query("BatchHost", reply).value != ""
    ensures Hostname(s, reply) == Some(Query("BatchHost", reply).value + "." + domain)
  {
    PartitionOf(name, '.', domain);
  }

  /**
   * Reading scontrol's text: a job in state `state` (not cancelled) whose
   * batch host `host` follows later, with no other `B` in between, is reported on `host` completed with the
   * cluster node's domain.
   */
  lemma HostnameFromScontrol(s: Session, state: string, middle: string, host: string, rest: string,
                             name: string, domain: string)
    requires |state| > 0 && (forall i :: 0 <= i < |state| ==> IsWordChar(state[i])) && state != "CANCELLED" && 'B' !in state
    requires |middle| > 0 && !IsWordChar(middle[0]) && 'B' !in middle
    requires |host| > 0 && (forall i :: 0 <= i < |host| ==> IsWordChar(host[i]))
    requires rest == [] || !IsWordChar(rest[0])
    requires s.clusterNode == name + "." + domain && '.' !in name
    ensures Hostname(s, Output("JobState=" + state + middle + "BatchHost=" + host + rest)) == Some(host + "." + domain)
  {
    var text := "JobState=" + state + middle + "BatchHost=" + host + rest;
    ScontrolState(state, middle + "BatchHost=" + host + rest);
    assert text == "JobState=" + state + (middle + "BatchHost=" + host + rest);
    ScontrolBatchHost("JobState=" + state + middle, host, rest);
    BatchHostKey();
    assert Query("BatchHost", Output(text)) == Some(host);
    HostnameKeepsClusterDomain(s, Output(text), name, domain);
  }

  lemma BatchHostKey()
    ensures "BatchHost" + "=" == "BatchHost="
  {
  }

  lemma ScontrolState(state: string, tail: string)
    requires |state| > 0 && (forall i :: 0 <= i < |state| ==> IsWordChar(state[i]))
    requires tail == [] || !IsWordChar(tail[0])
    ensures SearchWordAfter("JobState=" + state + tail, "JobState=") == Some(state)
  {
    SearchWordAtFront("JobState=", state, tail);
  }

  lemma ScontrolBatchHost(lead: string, host: string, rest: string)
    requires 'B' !in lead
    requires |host| > 0 && (forall i :: 0 <= i < |host| ==> IsWordChar(host[i]))
    requires rest == [] || !IsWordChar(rest[0])
    ensures SearchWordAfter(lead + "BatchHost=" + host + rest, "BatchHost=") == Some(host)
  {
    var key := "BatchHost=";
    assert key[0] == 'B';
    assert lead + key + host + rest == lead + (key + host + rest);
    SearchSkipsFree(lead, key + host + rest, key);
    SearchWordAtFront(key, host, rest);
  }

  /** A cancelled job has no host, whatever else scontrol prints. */
  lemma CancelledJobHasNoHost(s: Session, rest: string)
    requires rest == [] || !IsWordChar(rest[0])
    ensures Hostname(s, Output("JobState=CANCELLED" + rest)) == Some("")
  {
    assert "JobState=CANCELLED" + rest == "JobState=" + "CANCELLED" + rest;
    SearchWordAtFront("JobState=", "CANCELLED", rest);
  }

  // ---------------------------------------------------------------------
  // Log files
  // ---------------------------------------------------------------------

  /** The cluster file a job's renderer writes the stream `extension` to. */
  function FileName(s: Session, extension: string): (f: string)
    ensures IsPrefix(OUTPUT_PREFIX + "_" + s.jobId, f)
    ensures |f| >= |extension| && f[|f| - |extension|..] == extension
  {
    OUTPUT_PREFIX + "_" + s.jobId + "_" + s.rendererId + "_" + extension
  }

  lemma FileNameLineFree(s: Session, extension: string)
    requires '\n' !in s.jobId && '\n' !in s.rendererId && '\n' !in extension
    ensures '\n' !in FileName(s, extension)
  {
    assert '\n' !in OUTPUT_PREFIX;
  }

  /** The output and the error log of a job are different files. */
  lemma LogFilesDistinct(s: Session)
    ensures FileName(s, OUT_FILE) != FileName(s, ERR_FILE)
  {
    var o := FileName(s, OUT_FILE);
    var e := FileName(s, ERR_FILE);
    if |o| == |e| {
      assert o[|o| - 7] == 'o' && e[|e| - 7] == 'e';
    }
  }

  /** What `cat` printed, or the error that kept it from running. */
  datatype CatReply = Printed(text: string) | CatFailed(error: string)

  datatype LogResult = LogResult(text: string, command: Option<string>)

  /**
   * `_rendering_resource_log`: the log is read from the cluster node only
   * while the renderer is starting or running; otherwise nothing is run and
   * the answer is "Not currently available".
   */
  function RenderingResourceLog(cfg: SlurmConfig, s: Session, extension: string, reply: CatReply): (r: LogResult)
    ensures r.command.Some? <==> s.status == Starting || s.status == Running
    ensures r.command.None? ==> r.text == NOT_AVAILABLE
    ensures r.command.Some? ==> IsPrefix(SshCommand(cfg) + s.clusterNode + " cat ", r.command.value)
    ensures r.command.Some? && reply.Printed? ==> r.text == reply.text
  {
    if s.status == Starting || s.status == Running then
      var command := SshCommand(cfg) + s.clusterNode + " cat " + FileName(s, extension);
      LogResult(if reply.Printed? then reply.text else reply.error, Some(command))
    else LogResult(NOT_AVAILABLE, None)
  }

  // ---------------------------------------------------------------------
  // Starting the renderer on the allocated node
  // ---------------------------------------------------------------------

  /** The script sent to the node: module loads, the launch line, output redirection. */
  function StartScript(settings: SettingsManager.RenderingResourceSettings, s: Session, job: JobInformation): (script: string)
    ensures IsPrefix(PURGE_LINE, script)
    ensures IsSuffix(BACKGROUND_END, script)
  {
    var launch := RedirectedLaunch(settings, s, job);
    BackgroundLaunchEnds(ModuleLoads(Words(settings.modules)), launch);
    PURGE_LINE + ModuleLoads(Words(settings.modules)) + launch + "\n"
  }

  /** The script's first line, and the background marker and line break that end it. */
  const PURGE_LINE := "module purge\n"
  const BACKGROUND_END := " &\n"

  lemma BackgroundLaunchEnds(loads: string, launch: string)
    requires |launch| >= 2 && launch[|launch| - 2..] == " &"
    ensures IsPrefix(PURGE_LINE, PURGE_LINE + loads + launch + "\n")
    ensures IsSuffix(BACKGROUND_END, PURGE_LINE + loads + launch + "\n")
  {
    var script := PURGE_LINE + loads + launch + "\n";
    assert script[..|PURGE_LINE|] == PURGE_LINE;
    assert script[|script| - 3..|script| - 1] == launch[|launch| - 2..];
    assert script[|script| - 3..] == BACKGROUND_END;
  }

  /**
   * The script's lines: `module purge`, one `module load` line per module,
   * then the launch line with its redirections in the background, and
   * nothing after the final newline.
   */
  lemma StartScriptLines(settings: SettingsManager.RenderingResourceSettings, s: Session, job: JobInformation)
    requires '\n' !in settings.commandLine && '\n' !in s.jobId && '\n' !in s.rendererId
    ensures Split(StartScript(settings, s, job), '\n') ==
      ["module purge"] + LoadLines(Words(settings.modules)) + [RedirectedLaunch(settings, s, job), ""]
  {
    var modules := Words(settings.modules);
    var last := RedirectedLaunch(settings, s, job);
    RedirectedLaunchLineFree(settings, s, job);
    SplitSeparated(last, '\n', "");
    assert last + "\n" == last + ['\n'] + "";
    TokensLineFree(modules);
    SplitModuleLoads(modules, last + "\n");
    SplitSeparated("module purge", '\n', ModuleLoads(modules) + (last + "\n"));
    StartScriptShape(settings, s, job);
  }

  /** The launch line with its output and error redirections, sent to the background. */
  function RedirectedLaunch(settings: SettingsManager.RenderingResourceSettings, s: Session, job: JobInformation): string {
    LaunchLine(settings, s, job) + " > " + FileName(s, OUT_FILE) + " 2> " + FileName(s, ERR_FILE) + " &"
  }

  lemma RedirectedLaunchLineFree(settings: SettingsManager.RenderingResourceSettings, s: Session, job: JobInformation)
    requires '\n' !in settings.commandLine && '\n' !in s.jobId && '\n' !in s.rendererId
    ensures '\n' !in RedirectedLaunch(settings, s, job)
  {
    LaunchLineFree(settings, s, job);
    FileNameLineFree(s, OUT_FILE);
    FileNameLineFree(s, ERR_FILE);
    assert '\n' !in " > " && '\n' !in " 2> " && '\n' !in " &";
  }

  lemma StartScriptShape(settings: SettingsManager.RenderingResourceSettings, s: Session, job: JobInformation)
    ensures StartScript(settings, s, job)
         == "module purge" + ['\n'] + (ModuleLoads(Words(settings.modules)) + (RedirectedLaunch(settings, s, job) + "\n"))
  {
    PurgeRegroup(ModuleLoads(Words(settings.modules)), RedirectedLaunch(settings, s, job));
  }

  lemma PurgeRegroup(m: string, r: string)
    ensures "module purge\n" + m + r + "\n" == "module purge" + ['\n'] + (m + (r + "\n"))
  {
  }

  /**
   * How the shell that runs ssh fared: it ran and read the script, the
   * operating system refused to spawn it, or writing the script to its
   * input failed. Neither the shell's nor ssh's exit status is read, so a
   * start whose ssh fails on the remote side still counts as `Ran`.
   */
  datatype ShellRun = Ran | SpawnFailed(error: string) | WriteFailed(error: string)

  /**
   * `start`: the session is saved as starting, and a shell runs ssh to the
   * session's host with the script on its input; afterwards the renderer
   * is running, or still starting when the settings ask to wait for it. A
   * shell that cannot be spawned answers 400; a failed write to its input
   * is no OSError and escapes. Both leave the session starting.
   */
  function Start(cfg: SlurmConfig, settings: SettingsManager.RenderingResourceSettings, s: Session,
                 job: JobInformation, shell: ShellRun): (r: Outcome)
    ensures r.result.Answered? <==> !shell.WriteFailed?
    ensures r.result.Raised? ==> shell.WriteFailed? && r.result.error == shell.error
    ensures r.result.Answered? ==> (r.result.response.code == HTTP_OK <==> shell.Ran?)
    ensures r.result.Answered? ==> (r.result.response.code == HTTP_BAD_REQUEST <==> shell.SpawnFailed?)
    ensures r.session.status == Running <==> shell.Ran? && !settings.waitUntilRunning
    ensures r.session.status == Running || r.session.status == Starting
    ensures r.session.(status := s.status) == s
    ensures r.sent.Some? <==> shell.Ran?
    ensures r.sent.Some? ==>
      && r.sent.value.command == SshCommand(cfg) + s.httpHost
      && r.sent.value.script == StartScript(settings, s, job)
  {
    var starting := s.(status := Starting);
    match shell
    case SpawnFailed(e) => Outcome(starting, Answered(Response(HTTP_BAD_REQUEST, ContentsJson(e))))
    case WriteFailed(e) => Outcome(starting, Raised(e))
    case Ran =>
      Outcome(starting.(status := if settings.waitUntilRunning then Starting else Running),
              Answered(Response(HTTP_OK, MessageJson(s.rendererId + " successfully started"))),
              Some(Launch(SshCommand(cfg) + s.httpHost, StartScript(settings, s, job))))
  }

  /**
   * What a start that ran hands over: ssh to the session's host, and a
   * script whose lines are `module purge`, one `module load` per module,
   * and the launch line with its redirections in the background.
   */
  lemma StartSendsScript(cfg: SlurmConfig, settings: SettingsManager.RenderingResourceSettings, s: Session, job: JobInformation)
    requires '\n' !in settings.commandLine && '\n' !in s.jobId && '\n' !in s.rendererId
    ensures var r := Start(cfg, settings, s, job, Ran);
      && r.sent.Some?
      && r.sent.value.command == SshCommand(cfg) + s.httpHost
      && Split(r.sent.value.script, '\n') ==
           ["module purge"] + LoadLines(Words(settings.modules)) + [RedirectedLaunch(settings, s, job), ""]
  {
    StartScriptLines(settings, s, job);
  }

  /**
   * Once started, as intended or as written, the session's log is read
   * from the node: the log is available exactly from then on.
   */
  lemma StartThenLogAvailable(cfg: SlurmConfig, settings: SettingsManager.RenderingResourceSettings, s: Session,
                              job: JobInformation, shell: ShellRun, extension: string, reply: CatReply)
    ensures RenderingResourceLog(cfg, Start(cfg, settings, s, job, shell).session, extension, reply).command.Some?
    ensures RenderingResourceLog(cfg, StartAsWritten(settings, s, shell).session, extension, reply).command.Some?
  {
  }

  /** What indexing the reply of an allocation that tried no host raises. */
  const NO_ALLOCATION_ERROR := "'NoneType' object has no attribute '__getitem__'"

  /** What the five-argument call of the four-parameter REST template filler raises. */
  const FORMAT_ARITY_ERROR := "format_rest_parameters() takes exactly 4 arguments (5 given)"

  /**
   * `start` as written: the session is saved as starting, then the launch
   * line is built by passing the job id as a fifth argument to the template
   * filler, which declares four; the TypeError escapes before ssh is run.
   */
  function StartAsWritten(settings: SettingsManager.RenderingResourceSettings, s: Session, shell: ShellRun): (r: Outcome)
    ensures r.result.Raised? && r.result.error == FORMAT_ARITY_ERROR
    ensures r.session.status == Starting && r.session.(status := s.status) == s
    ensures r.sent.None?
  {
    Outcome(s.(status := Starting), Raised(FORMAT_ARITY_ERROR))
  }

  /**
   * Whatever the shell would do, the start as written never reaches the
   * node and leaves the session saved as starting, while the corrected
   * start hands the script over and answers 200 when the shell runs.
   */
  lemma StartAsWrittenNeverLaunches(cfg: SlurmConfig, settings: SettingsManager.RenderingResourceSettings, s: Session,
                                    job: JobInformation, shell: ShellRun)
    ensures StartAsWritten(settings, s, shell).result.Raised?
    ensures StartAsWritten(settings, s, shell).session.status == Starting
    ensures StartAsWritten(settings, s, shell).sent.None?
    ensures Start(cfg, settings, s, job, Ran).result == Answered(Response(HTTP_OK, MessageJson(s.rendererId + " successfully started")))
    ensures Start(cfg, settings, s, job, Ran).sent.Some?
  {
  }

  /**
   * `schedule`: allocate, and only on a 200 take the node's host name and
   * start the renderer there; any other answer is the allocation's. With
   * no host to try the allocation has no answer, and reading it raises.
   */
  function Schedule(cfg: SlurmConfig, settings: SettingsManager.RenderingResourceSettings, s: Session,
                    job: JobInformation, replies: seq<HostReply>, hostReply: ScontrolReply,
                    shell: ShellRun): (r: Outcome)
    requires |replies| == |cfg.hosts|
    ensures cfg.hosts == [] ==> r == Outcome(s, Raised(NO_ALLOCATION_ERROR))
    ensures r.result != NoResult
    ensures var a := Allocate(cfg, settings, s, job, replies);
      !(a.result.Answered? && a.result.response.code == HTTP_OK) && cfg.hosts != [] ==> r == a
    ensures r.result.Answered? && r.result.response.code == HTTP_OK ==>
      && HasJob(r.session) && r.session.clusterNode in cfg.hosts
      && (r.session.status == Running || r.session.status == Starting)
    ensures r.sent.Some? <==> r.result.Answered? && r.result.response.code == HTTP_OK
    ensures r.sent.Some? ==>
      r.sent.value == Launch(SshCommand(cfg) + r.session.httpHost, StartScript(settings, r.session.(status := Scheduled), job))
  {
    var a := Allocate(cfg, settings, s, job, replies);
    if a.result == NoResult then Outcome(a.session, Raised(NO_ALLOCATION_ERROR))
    else if a.result.Answered? && a.result.response.code == HTTP_OK then
      match Hostname(a.session, hostReply)
      case None => Outcome(a.session, Raised("'NoneType' object has no attribute 'group'"))
      case Some(host) => Start(cfg, settings, a.session.(httpHost := host), job, shell)
    else a
  }

  /**
   * A scheduled renderer is started (running or starting) exactly when the
   * allocation answered 200 and the node's name could be read; it then sits
   * on the node the allocation chose, with the allocation's job id.
   */
  lemma ScheduleStartsOnlyAfterAllocation(cfg: SlurmConfig, settings: SettingsManager.RenderingResourceSettings, s: Session,
                                          job: JobInformation, replies: seq<HostReply>, hostReply: ScontrolReply,
                                          shell: ShellRun)
    requires |replies| == |cfg.hosts|
    requires s.status != Starting && s.status != Running
    ensures var a := Allocate(cfg, settings, s, job, replies);
      var r := Schedule(cfg, settings, s, job, replies, hostReply, shell);
      && ((r.session.status == Starting || r.session.status == Running) <==>
            a.result.Answered? && a.result.response.code == HTTP_OK && Hostname(a.session, hostReply).Some?)
      && (r.session.status == Running ==> r.session.jobId == a.session.jobId && r.session.clusterNode == a.session.clusterNode)
  {
    var a := Allocate(cfg, settings, s, job, replies);
    if cfg.hosts != [] {
      AllocateStopsAtFirstGrant(cfg, settings, s, job, cfg.hosts, replies, NoResult);
    }
  }

  // ---------------------------------------------------------------------
  // The settings lookup
  // ---------------------------------------------------------------------

  /**
   * `allocate` with its settings lookup: the allocation command of every
   * host is built from the settings stored under the lower-cased renderer
   * id, after the session is saved as scheduling on that host. A missing
   * record raises on the first host, which the loop does not catch; with
   * no host the lookup never happens.
   */
  function AllocateWithLookup(cfg: SlurmConfig, store: SettingsManager.Store, s: Session,
                              job: JobInformation, replies: seq<HostReply>): (r: Outcome)
    requires |replies| == |cfg.hosts|
    ensures Lower(s.rendererId) in store ==> r == Allocate(cfg, store[Lower(s.rendererId)], s, job, replies)
    ensures Lower(s.rendererId) !in store && cfg.hosts != [] ==>
      r == Outcome(Trying(s, cfg.hosts[0]), Raised(SettingsManager.SETTINGS_DOES_NOT_EXIST))
    ensures cfg.hosts == [] <==> r.result == NoResult
  {
    match SettingsManager.GetById(store, Lower(s.rendererId))
    case Some(settings) => Allocate(cfg, settings, s, job, replies)
    case None =>
      if cfg.hosts == [] then Outcome(s, NoResult)
      else Outcome(Trying(s, cfg.hosts[0]), Raised(SettingsManager.SETTINGS_DOES_NOT_EXIST))
  }

  /**
   * `start` with its settings lookup: the session is saved as starting
   * first, and a missing record then raises, which only an OSError handler
   * stands in the way of.
   */
  function StartWithLookup(cfg: SlurmConfig, store: SettingsManager.Store, s: Session, job: JobInformation,
                           shell: ShellRun): (r: Outcome)
    ensures Lower(s.rendererId) in store ==> r == Start(cfg, store[Lower(s.rendererId)], s, job, shell)
    ensures Lower(s.rendererId) !in store ==>
      r == Outcome(s.(status := Starting), Raised(SettingsManager.SETTINGS_DOES_NOT_EXIST))
  {
    match SettingsManager.GetById(store, Lower(s.rendererId))
    case Some(settings) => Start(cfg, settings, s, job, shell)
    case None => Outcome(s.(status := Starting), Raised(SettingsManager.SETTINGS_DOES_NOT_EXIST))
  }

  /**
   * `schedule` with the lookups: the allocation's and, on a 200, the
   * start's. The start looks up the record the allocation already found.
   */
  function ScheduleWithLookup(cfg: SlurmConfig, store: SettingsManager.Store, s: Session,
                              job: JobInformation, replies: seq<HostReply>, hostReply: ScontrolReply,
                              shell: ShellRun): (r: Outcome)
    requires |replies| == |cfg.hosts|
    ensures Lower(s.rendererId) in store ==>
      r == Schedule(cfg, store[Lower(s.rendererId)], s, job, replies, hostReply, shell)
    ensures Lower(s.rendererId) !in store && cfg.hosts != [] ==> r == AllocateWithLookup(cfg, store, s, job, replies)
    ensures r.result != NoResult
  {
    var a := AllocateWithLookup(cfg, store, s, job, replies);
    if a.result == NoResult then Outcome(a.session, Raised(NO_ALLOCATION_ERROR))
    else if a.result.Answered? && a.result.response.code == HTTP_OK then
      match Hostname(a.session, hostReply)
      case None => Outcome(a.session, Raised("'NoneType' object has no attribute 'group'"))
      case Some(host) => StartWithLookup(cfg, store, a.session.(httpHost := host), job, shell)
    else a
  }

  /**
   * A session whose renderer has no stored settings is never scheduled:
   * every schedule raises, the session gets no new job, and it is left
   * scheduling on the first host when there is one.
   */
  lemma UnknownRendererNeverScheduled(cfg: SlurmConfig, store: SettingsManager.Store, s: Session,
                                      job: JobInformation, replies: seq<HostReply>, hostReply: ScontrolReply,
                                      shell: ShellRun)
    requires |replies| == |cfg.hosts|
    requires Lower(s.rendererId) !in store
    ensures var r := ScheduleWithLookup(cfg, store, s, job, replies, hostReply, shell);
      && r.result.Raised?
      && r.session.jobId == s.jobId
      && (cfg.hosts != [] ==> r.session.status == Scheduling && r.session.clusterNode == cfg.hosts[0])
  {
  }

  /**
   * A session whose settings are stored is scheduled exactly as by
   * `Schedule` with those settings, so its renderer starts exactly when
   * the allocation answers 200 and the node's name can be read.
   */
  lemma KnownRendererScheduledAsFound(cfg: SlurmConfig, store: SettingsManager.Store, s: Session,
                                      job: JobInformation, replies: seq<HostReply>, hostReply: ScontrolReply,
                                      shell: ShellRun)
    requires |replies| == |cfg.hosts|
    requires Lower(s.rendererId) in store && s.status != Starting && s.status != Running
    ensures var settings := store[Lower(s.rendererId)];
      var a := Allocate(cfg, settings, s, job, replies);
      var r := ScheduleWithLookup(cfg, store, s, job, replies, hostReply, shell);
      (r.session.status == Starting || r.session.status == Running) <==>
        a.result.Answered? && a.result.response.code == HTTP_OK && Hostname(a.session, hostReply).Some?
  {
    ScheduleStartsOnlyAfterAllocation(cfg, store[Lower(s.rendererId)], s, job, replies, hostReply, shell);
  }

  // ---------------------------------------------------------------------
  // The allocation as written
  // ---------------------------------------------------------------------

  /**
   * What building the allocation command raises as written: it reads the
   * `--immediate` timeout from the session manager's settings module,
   * which does not define it.
   */
  const ALLOCATION_TIMEOUT_ERROR := "'module' object has no attribute 'SLURM_ALLOCATION_TIMEOUT'"

  /**
   * `allocate` as written: on the first host the session is saved as
   * scheduling there, the settings are looked up, and the command is then
   * built with the undefined timeout. Either failure is no OSError, so it
   * escapes the host loop before any salloc runs; with no host nothing
   * happens.
   */
  function AllocateAsWritten(cfg: SlurmConfig, store: SettingsManager.Store, s: Session): (r: Outcome)
    ensures cfg.hosts == [] <==> r.result == NoResult
    ensures cfg.hosts == [] ==> r.session == s
    ensures cfg.hosts != [] ==> r.session == Trying(s, cfg.hosts[0]) && r.result.Raised?
    ensures cfg.hosts != [] ==> (r.result.error == ALLOCATION_TIMEOUT_ERROR <==> Lower(s.rendererId) in store)
    ensures r.sent.None?
  {
    if cfg.hosts == [] then Outcome(s, NoResult)
    else match SettingsManager.GetById(store, Lower(s.rendererId))
      case None => Outcome(Trying(s, cfg.hosts[0]), Raised(SettingsManager.SETTINGS_DOES_NOT_EXIST))
      case Some(_) => Outcome(Trying(s, cfg.hosts[0]), Raised(ALLOCATION_TIMEOUT_ERROR))
  }

  /**
   * `schedule` as written: the allocation raises, or, with no host, its
   * missing reply is indexed and that raises.
   */
  function ScheduleAsWritten(cfg: SlurmConfig, store: SettingsManager.Store, s: Session): (r: Outcome)
    ensures r.result.Raised? && r.sent.None?
    ensures r.session.jobId == s.jobId
    ensures cfg.hosts == [] ==> r == Outcome(s, Raised(NO_ALLOCATION_ERROR))
    ensures cfg.hosts != [] ==> r == AllocateAsWritten(cfg, store, s)
  {
    var a := AllocateAsWritten(cfg, store, s);
    if a.result == NoResult then Outcome(a.session, Raised(NO_ALLOCATION_ERROR)) else a
  }

  /**
   * Even when the first host would grant the allocation, the schedule as
   * written raises the undefined timeout, leaves the session scheduling
   * on that host without a job and hands nothing to ssh, while the
   * corrected allocation is granted there with the job number from the
   * reply.
   */
  lemma AllocateAsWrittenNeverAllocates(cfg: SlurmConfig, store: SettingsManager.Store, s: Session,
                                        job: JobInformation, replies: seq<HostReply>)
    requires |replies| == |cfg.hosts| && cfg.hosts != [] && Lower(s.rendererId) in store
    requires Granted(replies[0]) && FirstDigitRun(replies[0].text).Some?
    ensures var w := ScheduleAsWritten(cfg, store, s);
      && w.result == Raised(ALLOCATION_TIMEOUT_ERROR)
      && w.session == Trying(s, cfg.hosts[0])
      && w.session.jobId == s.jobId
      && w.sent.None?
    ensures var a := AllocateWithLookup(cfg, store, s, job, replies);
      && a.result == Answered(Response(HTTP_OK, ScheduledJson(FirstDigitRun(replies[0].text).value)))
      && a.session.status == Scheduled
      && a.session.clusterNode == cfg.hosts[0]
      && a.session.jobId == FirstDigitRun(replies[0].text).value
  {
  }
}

=== FILE: text.dfy ===
/**
 * String operations the Python and JavaScript sources lean on: str.replace,
 * str.split() on whitespace, str.split(sep), str.join, ASCII case mapping,
 * str(int), indexOf, and the two regular-expression searches the job
 * managers make (first digit run, word after a key).
 */
module Text {
  import opened Common

  // ---------------------------------------------------------------------
  // Prefixes and substrings
  // ---------------------------------------------------------------------

  predicate IsPrefix(p: string, s: string) {
    |p| <= |s| && s[..|p|] == p
  }

  predicate IsSuffix(p: string, s: string) {
    |p| <= |s| && s[|s| - |p|..] == p
  }

  /** Text assembled from a head, two middle parts and a tail starts with the head and ends with the tail. */
  lemma Framed(head: string, first: string, second: string, tail: string)
    ensures IsPrefix(head, head + first + second + tail)
    ensures IsSuffix(tail, head + first + second + tail)
  {
    var s := head + first + second + tail;
    assert s[..|head|] == head;
    assert s[|s| - |tail|..] == tail;
  }

  /** `p` occurs somewhere in `s` (JavaScript `s.indexOf(p) !== -1`, Python `p in s`). */
  predicate Contains(s: string, p: string)
    decreases |s|
  {
    IsPrefix(p, s) || (|s| > 0 && Contains(s[1..], p))
  }

  /** Every occurrence found in a suffix is an occurrence in the whole string. */
  lemma {:induction false} ContainsSuffix(s: string, k: nat, p: string)
    requires k <= |s|
    requires Contains(s[k..], p)
    ensures Contains(s, p)
    decreases k
  {
    if k > 0 {
      assert s[1..][k - 1..] == s[k..];
      ContainsSuffix(s[1..], k - 1, p);
    }
  }

  /** Concatenation keeps the occurrences of its left operand. */
  lemma {:induction false} ContainsAppend(s: string, t: string, p: string)
    requires Contains(s, p)
    ensures Contains(s + t, p)
    decreases |s|
  {
    if IsPrefix(p, s) {
      assert (s + t)[..|p|] == s[..|p|];
    } else {
      assert (s + t)[1..] == s[1..] + t;
      ContainsAppend(s[1..], t, p);
    }
  }

  /** A string placed between two others occurs in the result. */
  lemma ContainsInfix(a: string, p: string, b: string)
    ensures Contains(a + p + b, p)
  {
    var s := a + p + b;
    assert s[|a|..][..|p|] == p;
    ContainsSuffix(s, |a|, p);
  }

  /** An occurrence in a string is an occurrence in every extension of it. */
  lemma ContainsExtended(s: string, t: string, p: string)
    requires IsPrefix(s, t) && Contains(s, p)
    ensures Contains(t, p)
  {
    assert t == s + t[|s|..];
    ContainsAppend(s, t[|s|..], p);
  }

  lemma PrefixTransitive(a: string, b: string, c: string)
    requires IsPrefix(a, b) && IsPrefix(b, c)
    ensures IsPrefix(a, c)
  {
    assert c[..|a|] == c[..|b|][..|a|];
  }

  // ---------------------------------------------------------------------
  // str.replace(old, new): every non-overlapping occurrence, left to right
  // ---------------------------------------------------------------------

  function Replace(s: string, p: string, v: string): string
    requires |p| > 0
    decreases |s|
  {
    if |s| < |p| then s
    else if s[..|p|] == p then v + Replace(s[|p|..], p, v)
    else [s[0]] + Replace(s[1..], p, v)
  }

  /** Replacing a pattern that does not occur leaves the text unchanged. */
  lemma {:induction false} ReplaceAbsent(s: string, p: string, v: string)
    requires |p| > 0
    requires !Contains(s, p)
    ensures Replace(s, p, v) == s
    decreases |s|
  {
    if |s| >= |p| {
      assert !IsPrefix(p, s);
      ReplaceAbsent(s[1..], p, v);
      assert [s[0]] + s[1..] == s;
    }
  }

  /** Replacing a pattern by itself is the identity. */
  lemma {:induction false} ReplaceByItself(s: string, p: string)
    requires |p| > 0
    ensures Replace(s, p, p) == s
    decreases |s|
  {
    if |s| >= |p| {
      if s[..|p|] == p {
        ReplaceByItself(s[|p|..], p);
        assert s[..|p|] + s[|p|..] == s;
      } else {
        ReplaceByItself(s[1..], p);
        assert [s[0]] + s[1..] == s;
      }
    }
  }

  /** Text without the pattern's first character is copied through unchanged. */
  lemma {:induction false} ReplaceSkip(a: string, s: string, p: string, v: string)
    requires |p| > 0
    requires forall i :: 0 <= i < |a| ==> a[i] != p[0]
    ensures Replace(a + s, p, v) == a + Replace(s, p, v)
    decreases |a|
  {
    if a != [] {
      var t, more := a + s, a[1..];
      assert t[1..] == more + s;
      ReplaceSkip(more, s, p, v);
      if |t| >= |p| {
        assert t[0] != p[0];
        assert t[..|p|] != p;
        assert Replace(t, p, v) == [t[0]] + Replace(more + s, p, v);
        assert a == [a[0]] + more;
        ConsRegroupChars(a[0], more, Replace(s, p, v));
      } else {
        assert Replace(s, p, v) == s;
      }
    } else {
      assert a + s == s;
    }
  }

  lemma ConsRegroupChars(c: char, x: string, y: string)
    ensures [c] + (x + y) == [c] + x + y
  {
  }

  /** An occurrence at the front is replaced and the scan resumes after it. */
  lemma ReplaceAtFront(p: string, s: string, v: string)
    requires |p| > 0
    ensures Replace(p + s, p, v) == v + Replace(s, p, v)
  {
    assert (p + s)[..|p|] == p;
    assert (p + s)[|p|..] == s;
  }

  /** Where no occurrence starts at the front, the first character is kept. */
  lemma ReplaceMiss(s: string, p: string, v: string)
    requires |p| > 0 && |s| >= |p| && s[..|p|] != p
    ensures Replace(s, p, v) == [s[0]] + Replace(s[1..], p, v)
  {
  }

  /**
   * Python's `s.split(p)` for a non-empty separator: the pieces between the
   * non-overlapping occurrences of `p`, found left to right.
   */
  function SplitOn(s: string, p: string): (parts: seq<string>)
    requires |p| > 0
    ensures |parts| >= 1
    decreases |s|
  {
    if |s| < |p| then [s]
    else if s[..|p|] == p then [[]] + SplitOn(s[|p|..], p)
    else
      var rest := SplitOn(s[1..], p);
      [[s[0]] + rest[0]] + rest[1..]
  }

  /**
   * `s.replace(p, v)` is `v.join(s.split(p))`: the replacement puts `v`
   * exactly where the split cuts, and keeps every piece in between.
   */
  lemma {:induction false} ReplaceIsJoinOfSplit(s: string, p: string, v: string)
    requires |p| > 0
    ensures Replace(s, p, v) == Join(v, SplitOn(s, p))
    decreases |s|
  {
    if |s| >= |p| {
      if s[..|p|] == p {
        ReplaceIsJoinOfSplit(s[|p|..], p, v);
        JoinEmptyFirst(v, SplitOn(s[|p|..], p));
      } else {
        var rest := SplitOn(s[1..], p);
        ReplaceIsJoinOfSplit(s[1..], p, v);
        assert rest == [rest[0]] + rest[1..];
        JoinConsChar(v, s[0], rest[0], rest[1..]);
        assert SplitOn(s, p) == [[s[0]] + rest[0]] + rest[1..];
      }
    }
  }

  /** Joining after an empty first piece starts with the separator. */
  lemma JoinEmptyFirst(sep: string, rest: seq<string>)
    requires |rest| >= 1
    ensures Join(sep, [[]] + rest) == sep + Join(sep, rest)
  {
    assert ([[]] + rest)[1..] == rest;
  }

  /** Joining the pieces of a split with the separator restores the text. */
  lemma JoinSplitOn(s: string, p: string)
    requires |p| > 0
    ensures Join(p, SplitOn(s, p)) == s
  {
    ReplaceIsJoinOfSplit(s, p, p);
    ReplaceByItself(s, p);
  }

  // ---------------------------------------------------------------------
  // str.split() without argument: maximal runs of non-whitespace
  // ---------------------------------------------------------------------

  /** The ASCII whitespace Python's argument-less split separates on. */
  predicate IsWhitespace(c: char) {
    c == ' ' || c == '\t' || c == '\n' || c == '\r' || c as int == 11 || c as int == 12
  }

  /** A word of a whitespace split: non-empty, free of whitespace. */
  predicate IsToken(t: string) {
    |t| > 0 && forall i :: 0 <= i < |t| ==> !IsWhitespace(t[i])
  }

  predicate AllTokens(ts: seq<string>) {
    forall i :: 0 <= i < |ts| ==> IsToken(ts[i])
  }

  lemma AllTokensAppend(a: seq<string>, b: seq<string>)
    requires AllTokens(a) && AllTokens(b)
    ensures AllTokens(a + b)
  {
    assert forall i :: |a| <= i < |a + b| ==> (a + b)[i] == b[i - |a|];
  }

  /** Length of the leading run of non-whitespace characters. */
  function TokenLength(s: string): (n: nat)
    ensures n <= |s|
    ensures forall i :: 0 <= i < n ==> !IsWhitespace(s[i])
    ensures n < |s| ==> IsWhitespace(s[n])
  {
    if s == [] || IsWhitespace(s[0]) then 0 else 1 + TokenLength(s[1..])
  }

  /** Python's `s.split()`. */
  function Words(s: string): (ws: seq<string>)
    ensures AllTokens(ws)
    decreases |s|
  {
    if s == [] then []
    else if IsWhitespace(s[0]) then Words(s[1..])
    else
      var n := TokenLength(s);
      [s[..n]] + Words(s[n..])
  }

  lemma {:induction false} TokenLengthAppend(x: string, y: string)
    requires TokenLength(x) < |x| || y == [] || IsWhitespace(y[0])
    ensures TokenLength(x + y) == TokenLength(x)
    decreases |x|
  {
    if x == [] {
    } else if IsWhitespace(x[0]) {
    } else {
      assert (x + y)[1..] == x[1..] + y;
      TokenLengthAppend(x[1..], y);
    }
  }

  /** A whitespace character splits a text into the words on either side of it. */
  lemma {:induction false} WordsSeparated(a: string, c: char, b: string)
    requires IsWhitespace(c)
    ensures Words(a + [c] + b) == Words(a) + Words(b)
    decreases |a|
  {
    var s := a + [c] + b;
    if a == [] {
      assert s[1..] == b;
    } else if IsWhitespace(a[0]) {
      assert s[1..] == a[1..] + [c] + b;
      WordsSeparated(a[1..], c, b);
    } else {
      TokenLengthAppend(a, [c] + b);
      assert s == a + ([c] + b);
      var n := TokenLength(a);
      assert n >= 1;
      assert s[..n] == a[..n];
      assert s[n..] == a[n..] + [c] + b;
      WordsSeparated(a[n..], c, b);
    }
  }

  /** A token splits to itself. */
  lemma WordsOfToken(t: string)
    requires IsToken(t)
    ensures Words(t) == [t]
  {
    assert TokenLength(t) == |t|;
    assert t[..|t|] == t;
    assert t[|t|..] == [];
  }

  /** Tokens each preceded by one space: `' ' + t1 + ' ' + t2 ...`. */
  function SpacePrefixed(ts: seq<string>): string {
    if ts == [] then [] else " " + ts[0] + SpacePrefixed(ts[1..])
  }

  /** Tokens each followed by one space: `t1 + ' ' + t2 + ' ' ...`. */
  function SpaceTerminated(ts: seq<string>): string {
    if ts == [] then [] else ts[0] + " " + SpaceTerminated(ts[1..])
  }

  lemma SpacePrefixedOne(a: string)
    ensures SpacePrefixed([a]) == " " + a
  {
    assert [a][1..] == [];
  }

  lemma SpacePrefixedTwo(a: string, b: string)
    ensures SpacePrefixed([a, b]) == " " + a + " " + b
  {
    assert [a, b][1..] == [b];
    SpacePrefixedOne(b);
  }

  /** Space-prefixing distributes over concatenation of token lists. */
  lemma {:induction false} SpacePrefixedAppend(a: seq<string>, b: seq<string>)
    ensures SpacePrefixed(a + b) == SpacePrefixed(a) + SpacePrefixed(b)
    decreases |a|
  {
    if a == [] {
      assert a + b == b;
    } else {
      assert (a + b)[0] == a[0];
      assert (a + b)[1..] == a[1..] + b;
      SpacePrefixedAppend(a[1..], b);
    }
  }

  /** Four space-prefixed groups side by side are the four groups space-prefixed together. */
  lemma SpacePrefixedFour(a: seq<string>, b: seq<string>, c: seq<string>, d: seq<string>)
    ensures SpacePrefixed(a) + SpacePrefixed(b) + SpacePrefixed(c) + SpacePrefixed(d)
         == SpacePrefixed(a + b + c + d)
  {
    SpacePrefixedAppend(a + b + c, d);
    SpacePrefixedAppend(a + b, c);
    SpacePrefixedAppend(a, b);
  }

  /** Appending space-prefixed tokens appends exactly those words. */
  lemma {:induction false} WordsSpacePrefixed(x: string, ts: seq<string>)
    requires AllTokens(ts)
    ensures Words(x + SpacePrefixed(ts)) == Words(x) + ts
    decreases ts
  {
    if ts == [] {
      assert x + SpacePrefixed(ts) == x;
    } else {
      var t, more := ts[0], ts[1..];
      var spaced := SpacePrefixed(more);
      var rest := t + spaced;
      assert SpacePrefixed(ts) == " " + t + spaced;
      SpacedRegroup(x, t, spaced);
      WordsSeparated(x, ' ', rest);
      WordsSpacePrefixed(t, more);
      WordsOfToken(t);
      assert ts == [t] + more;
      WordsRegroup(Words(x), t, more);
    }
  }

  /** A command word followed by three space-prefixed groups of words splits into exactly those words. */
  lemma WordsOfSpacedGroups(head: string, a: seq<string>, b: seq<string>, c: seq<string>,
                            pa: string, pb: string, pc: string)
    requires IsToken(head) && AllTokens(a + b + c)
    requires pa == head + SpacePrefixed(a) && pb == SpacePrefixed(b) && pc == SpacePrefixed(c)
    ensures Words(pa + pb + pc) == [head] + a + b + c
  {
    var abc := a + b + c;
    SpacedGroupsJoin(head, a, b, c, pa, pb, pc);
    WordsOfSpacedCommand(head, abc);
    GroupsRegroup(head, a, b, c);
  }

  lemma GroupsRegroup(head: string, a: seq<string>, b: seq<string>, c: seq<string>)
    ensures [head] + a + b + c == [head] + (a + b + c)
  {
  }

  lemma SpacedGroupsJoin(head: string, a: seq<string>, b: seq<string>, c: seq<string>,
                         pa: string, pb: string, pc: string)
    requires pa == head + SpacePrefixed(a) && pb == SpacePrefixed(b) && pc == SpacePrefixed(c)
    ensures pa + pb + pc == head + SpacePrefixed(a + b + c)
  {
    var ab := a + b;
    var x, y, z := SpacePrefixed(a), SpacePrefixed(b), SpacePrefixed(c);
    SpacePrefixedAppend(a, b);
    SpacePrefixedAppend(ab, c);
    Regroup4(head, x, y, z);
  }

  lemma Regroup4(head: string, x: string, y: string, z: string)
    ensures head + x + y + z == head + ((x + y) + z)
  {
  }

  /** A command word followed by space-prefixed words splits into the command and the words. */
  lemma WordsOfSpacedCommand(head: string, ws: seq<string>)
    requires IsToken(head) && AllTokens(ws)
    ensures Words(head + SpacePrefixed(ws)) == [head] + ws
  {
    WordsSpacePrefixed(head, ws);
    WordsOfToken(head);
  }

  lemma SpacedRegroup(x: string, t: string, spaced: string)
    ensures x + (" " + t + spaced) == x + [' '] + (t + spaced)
  {
  }

  lemma WordsRegroup(ws: seq<string>, t: string, more: seq<string>)
    ensures ws + ([t] + more) == ws + [t] + more
  {
  }

  lemma SpaceRegroup(head: string, st: string, y: string)
    ensures head + " " + st + y == head + [' '] + (st + y)
  {
  }

  /** Space-terminated tokens in front of any text split back to those tokens first. */
  lemma {:induction false} WordsSpaceTerminated(ts: seq<string>, y: string)
    requires AllTokens(ts)
    ensures Words(SpaceTerminated(ts) + y) == ts + Words(y)
    decreases ts
  {
    if ts != [] {
      var head, tail := ts[0], ts[1..];
      var st := SpaceTerminated(tail);
      var rest := st + y;
      assert SpaceTerminated(ts) == head + " " + st;
      SpaceRegroup(head, st, y);
      WordsSeparated(head, ' ', rest);
      WordsOfToken(head);
      WordsSpaceTerminated(tail, y);
      assert ts == [head] + tail;
    } else {
      assert SpaceTerminated(ts) + y == y;
    }
  }

  // ---------------------------------------------------------------------
  // str.split(sep) for a one-character separator, and sep.join(parts)
  // ---------------------------------------------------------------------

  /** Python's `s.split(c)`: keeps empty pieces and always yields at least one. */
  function Split(s: string, c: char): (parts: seq<string>)
    ensures |parts| >= 1
    ensures forall i :: 0 <= i < |parts| ==> c !in parts[i]
    decreases |s|
  {
    if s == [] then [[]]
    else
      var rest := Split(s[1..], c);
      if s[0] == c then [[]] + rest
      else [[s[0]] + rest[0]] + rest[1..]
  }

  /** Python's `sep.join(parts)` and JavaScript's `parts.join(sep)`. */
  function Join(sep: string, parts: seq<string>): string
    decreases |parts|
  {
    if |parts| == 0 then []
    else if |parts| == 1 then parts[0]
    else parts[0] + sep + Join(sep, parts[1..])
  }

  lemma JoinPair(sep: string, a: string, b: string)
    ensures Join(sep, [a, b]) == a + sep + b
  {
    assert [a, b][1..] == [b];
  }

  lemma JoinConsChar(sep: string, x: char, p: string, r: seq<string>)
    ensures Join(sep, [[x] + p] + r) == [x] + Join(sep, [p] + r)
  {
    var l := [[x] + p] + r;
    var l' := [p] + r;
    assert l[1..] == r && l'[1..] == r;
    if |r| > 0 {
      assert Join(sep, l) == ([x] + p) + sep + Join(sep, r);
      assert Join(sep, l') == p + sep + Join(sep, r);
    }
  }

  /** Joining the pieces of a split restores the text. */
  lemma {:induction false} JoinSplit(s: string, c: char)
    ensures Join([c], Split(s, c)) == s
    decreases |s|
  {
    if s != [] {
      var rest := Split(s[1..], c);
      JoinSplit(s[1..], c);
      if s[0] == c {
        var l := [[]] + rest;
        assert l[1..] == rest;
        assert Join([c], l) == [] + [c] + Join([c], rest);
      } else {
        assert rest == [rest[0]] + rest[1..];
        JoinConsChar([c], s[0], rest[0], rest[1..]);
      }
      assert s == [s[0]] + s[1..];
    }
  }

  lemma {:induction false} SplitSeparated(x: string, c: char, y: string)
    requires c !in x
    ensures Split(x + [c] + y, c) == [x] + Split(y, c)
    decreases |x|
  {
    var s := x + [c] + y;
    if x == [] {
      assert s[1..] == y;
    } else {
      assert s[0] == x[0];
      assert s[1..] == x[1..] + [c] + y;
      SplitSeparated(x[1..], c, y);
      assert [x[0]] + x[1..] == x;
    }
  }

  lemma {:induction false} SplitFree(x: string, c: char)
    requires c !in x
    ensures Split(x, c) == [x]
    decreases |x|
  {
    if x != [] {
      SplitFree(x[1..], c);
      assert [x[0]] + x[1..] == x;
    }
  }

  /** Splitting a join of separator-free pieces gives the pieces back. */
  lemma {:induction false} SplitJoin(parts: seq<string>, c: char)
    requires |parts| >= 1
    requires forall i :: 0 <= i < |parts| ==> c !in parts[i]
    ensures Split(Join([c], parts), c) == parts
    decreases |parts|
  {
    if |parts| == 1 {
      SplitFree(parts[0], c);
    } else {
      SplitJoin(parts[1..], c);
      SplitSeparated(parts[0], c, Join([c], parts[1..]));
      assert parts == [parts[0]] + parts[1..];
    }
  }

  /** Python's `s.partition(c)` for one character, without the separator itself. */
  function Partition(s: string, c: char): (p: (string, string))
    ensures c !in p.0
    ensures c in s ==> s == p.0 + [c] + p.1
    ensures c !in s ==> p == (s, [])
    decreases |s|
  {
    if s == [] then ([], [])
    else if s[0] == c then ([], s[1..])
    else
      var r := Partition(s[1..], c);
      assert s == [s[0]] + s[1..];
      ([s[0]] + r.0, r.1)
  }

  /** The first occurrence of a separator splits a text in only one way. */
  lemma {:induction false} FirstSeparatorUnique(x1: string, y1: string, x2: string, y2: string, c: char)
    requires c !in x1 && c !in x2
    requires x1 + [c] + y1 == x2 + [c] + y2
    ensures x1 == x2 && y1 == y2
  {
    var s := x1 + [c] + y1;
    var t := x2 + [c] + y2;
    assert s[|x1|] == c && t[|x2|] == c;
    assert forall i :: 0 <= i < |x1| ==> s[i] == x1[i];
    assert forall i :: 0 <= i < |x2| ==> t[i] == x2[i];
    assert |x1| == |x2|;
    assert x1 == s[..|x1|] && x2 == t[..|x2|];
    assert y1 == s[|x1| + 1..] && y2 == t[|x2| + 1..];
  }

  /** Partitioning `x + c + y` with `c` not in `x` gives back `x` and `y`. */
  lemma PartitionOf(x: string, c: char, y: string)
    requires c !in x
    ensures Partition(x + [c] + y, c) == (x, y)
  {
    var p := Partition(x + [c] + y, c);
    assert c in x + [c] + y by { assert (x + [c] + y)[|x|] == c; }
    FirstSeparatorUnique(p.0, p.1, x, y, c);
  }

  // ---------------------------------------------------------------------
  // ASCII case mapping (str.lower / str.upper on the ASCII letters)
  // ---------------------------------------------------------------------

  function LowerChar(c: char): char {
    if 'A' <= c <= 'Z' then (c as int + 32) as char else c
  }

  function UpperChar(c: char): char {
    if 'a' <= c <= 'z' then (c as int - 32) as char else c
  }

  function Lower(s: string): (r: string)
    ensures |r| == |s|
    ensures forall i :: 0 <= i < |s| ==> r[i] == LowerChar(s[i])
  {
    if s == [] then [] else [LowerChar(s[0])] + Lower(s[1..])
  }

  /** Lower-casing twice is lower-casing once. */
  lemma LowerIdempotent(s: string)
    ensures Lower(Lower(s)) == Lower(s)
  {
  }

  // ---------------------------------------------------------------------
  // Decimal digits: str(n) and its inverse
  // ---------------------------------------------------------------------

  predicate IsDigit(c: char) {
    '0' <= c <= '9'
  }

  predicate AllDigits(s: string) {
    forall i :: 0 <= i < |s| ==> IsDigit(s[i])
  }

  function DigitChar(d: nat): (c: char)
    requires d < 10
    ensures IsDigit(c)
  {
    ('0' as int + d) as char
  }

  function DigitValue(c: char): nat
    requires IsDigit(c)
  {
    c as int - '0' as int
  }

  /** Python's `str(n)` for a non-negative integer. */
  function NatToString(n: nat): (s: string)
    ensures |s| >= 1
    ensures AllDigits(s)
    decreases n
  {
    if n < 10 then [DigitChar(n)] else NatToString(n / 10) + [DigitChar(n % 10)]
  }

  /** Reads a string of decimal digits back as a number. */
  function ParseNat(s: string): nat
    requires AllDigits(s)
    decreases |s|
  {
    if s == [] then 0 else ParseNat(s[..|s| - 1]) * 10 + DigitValue(s[|s| - 1])
  }

  /** The decimal rendering of a number reads back as that number. */
  lemma {:induction false} ParseNatToString(n: nat)
    ensures ParseNat(NatToString(n)) == n
    decreases n
  {
    var s := NatToString(n);
    if n >= 10 {
      ParseNatToString(n / 10);
      assert s[..|s| - 1] == NatToString(n / 10);
    }
  }

  /** Python's `str(n)` for any integer. */
  function IntToString(n: int): (s: string)
    ensures |s| >= 1
    ensures n >= 0 <==> s[0] != '-'
    ensures forall i :: 1 <= i < |s| ==> IsDigit(s[i])
    ensures IsToken(s)
  {
    if n < 0 then "-" + NatToString(-n) else NatToString(n)
  }

  // ---------------------------------------------------------------------
  // The two regular-expression searches of the job managers
  // ---------------------------------------------------------------------

  function DigitRunLength(s: string): (n: nat)
    ensures n <= |s|
    ensures forall i :: 0 <= i < n ==> IsDigit(s[i])
    ensures n < |s| ==> !IsDigit(s[n])
  {
    if s == [] || !IsDigit(s[0]) then 0 else 1 + DigitRunLength(s[1..])
  }

  /** `re.findall('\d+', s)[0]`: the first maximal run of digits, if any. */
  function FirstDigitRun(s: string): (r: Option<string>)
    ensures r.Some? ==> |r.value| > 0 && AllDigits(r.value)
    ensures r.None? <==> forall i :: 0 <= i < |s| ==> !IsDigit(s[i])
    decreases |s|
  {
    if s == [] then None
    else if IsDigit(s[0]) then Some(s[..DigitRunLength(s)])
    else FirstDigitRun(s[1..])
  }

  /** The characters of the regular-expression class `\w` (ASCII). */
  predicate IsWordChar(c: char) {
    'a' <= c <= 'z' || 'A' <= c <= 'Z' || '0' <= c <= '9' || c == '_'
  }

  function WordRunLength(s: string): (n: nat)
    ensures n <= |s|
    ensures forall i :: 0 <= i < n ==> IsWordChar(s[i])
    ensures n < |s| ==> !IsWordChar(s[n])
  {
    if s == [] || !IsWordChar(s[0]) then 0 else 1 + WordRunLength(s[1..])
  }

  /** `re.search(key + r'(\w+)', s).group(1)`; None where the search finds no match. */
  function SearchWordAfter(s: string, key: string): (r: Option<string>)
    ensures r.Some? ==> |r.value| > 0 && forall i :: 0 <= i < |r.value| ==> IsWordChar(r.value[i])
    decreases |s|
  {
    if IsPrefix(key, s) && |s| > |key| && IsWordChar(s[|key|]) then
      var rest := s[|key|..];
      Some(rest[..WordRunLength(rest)])
    else if s == [] then None
    else SearchWordAfter(s[1..], key)
  }

  /** A word run is exactly the word when a non-word character or the end follows it. */
  lemma {:induction false} WordRunOf(w: string, rest: string)
    requires forall i :: 0 <= i < |w| ==> IsWordChar(w[i])
    requires rest == [] || !IsWordChar(rest[0])
    ensures WordRunLength(w + rest) == |w|
    decreases |w|
  {
    if w != [] {
      assert (w + rest)[1..] == w[1..] + rest;
      WordRunOf(w[1..], rest);
    } else {
      assert w + rest == rest;
    }
  }

  /** The key at the front followed by a word: the search finds that word. */
  lemma SearchWordAtFront(key: string, w: string, rest: string)
    requires |w| > 0 && forall i :: 0 <= i < |w| ==> IsWordChar(w[i])
    requires rest == [] || !IsWordChar(rest[0])
    ensures SearchWordAfter(key + w + rest, key) == Some(w)
  {
    var s := key + w + rest;
    assert s[..|key|] == key;
    assert s[|key|..] == w + rest;
    WordRunOf(w, rest);
    assert (w + rest)[..|w|] == w;
  }

  /** No match starts in text free of the key's first character: the search skips it. */
  lemma {:induction false} SearchSkipsFree(a: string, t: string, key: string)
    requires |key| > 0 && key[0] !in a
    ensures SearchWordAfter(a + t, key) == SearchWordAfter(t, key)
    decreases |a|
  {
    if a != [] {
      var s := a + t;
      assert s[0] == a[0] != key[0];
      assert !IsPrefix(key, s);
      assert s[1..] == a[1..] + t;
      SearchSkipsFree(a[1..], t, key);
    } else {
      assert a + t == t;
    }
  }
}

=== FILE: tools.dfy ===
/**
 * Small utilities of the service: the header-name normalisation that turns
 * a request's META keys back into HTTP header names, the header dictionary
 * built from them, and the string-to-boolean conversion.
 */
module Tools {
  import opened Text

  /** Upper-cases the first character of a non-empty word. */
  function Capitalize(x: string): (r: string)
    requires |x| > 0
    ensures |r| == |x| && r[0] == UpperChar(x[0]) && r[1..] == x[1..]
  {
    [UpperChar(x[0])] + x[1..]
  }

  predicate AllNonEmpty(parts: seq<string>) {
    forall i :: 0 <= i < |parts| ==> |parts[i]| > 0
  }

  function CapitalizeAll(parts: seq<string>): (r: seq<string>)
    requires AllNonEmpty(parts)
    ensures |r| == |parts| && forall i :: 0 <= i < |parts| ==> r[i] == Capitalize(parts[i])
  {
    if parts == [] then [] else [Capitalize(parts[0])] + CapitalizeAll(parts[1..])
  }

  /** The `_`-separated pieces of a META key after its five-character prefix, lower-cased. */
  function HeaderSegments(name: string): (parts: seq<string>)
    requires |name| >= 5
    ensures |parts| >= 1
  {
    Split(Lower(name[5..]), '_')
  }

  /** The key can be formatted: no piece is empty (the formatter indexes each piece's first character). */
  predicate Formattable(name: string) {
    |name| >= 5 && AllNonEmpty(HeaderSegments(name))
  }

  /**
   * A META key as a header name: drop the `HTTP_` prefix, lower-case, and
   * write each `_`-separated piece capitalised, joined by `-`.
   */
  function FormatHeaderName(name: string): (h: string)
    requires Formattable(name)
    ensures '_' !in h
  {
    var caps := CapitalizeAll(HeaderSegments(name));
    forall i | 0 <= i < |caps|
      ensures '_' !in caps[i]
    {
      var seg := HeaderSegments(name)[i];
      assert '_' !in seg;
      assert caps[i] == [UpperChar(seg[0])] + seg[1..];
    }
    JoinAvoids("-", caps, '_');
    Join("-", caps)
  }

  lemma {:induction false} JoinAvoids(sep: string, parts: seq<string>, c: char)
    requires c !in sep
    requires forall i :: 0 <= i < |parts| ==> c !in parts[i]
    ensures c !in Join(sep, parts)
    decreases |parts|
  {
    if |parts| > 1 {
      JoinAvoids(sep, parts[1..], c);
    }
  }

  // ---------------------------------------------------------------------
  // Round trip with the server's META naming
  // ---------------------------------------------------------------------

  function Upper(s: string): (r: string)
    ensures |r| == |s| && forall i :: 0 <= i < |s| ==> r[i] == UpperChar(s[i])
  {
    if s == [] then [] else [UpperChar(s[0])] + Upper(s[1..])
  }

  function UpperAll(ws: seq<string>): (r: seq<string>)
    ensures |r| == |ws| && forall i :: 0 <= i < |ws| ==> r[i] == Upper(ws[i])
  {
    if ws == [] then [] else [Upper(ws[0])] + UpperAll(ws[1..])
  }

  function LowerAll(ws: seq<string>): (r: seq<string>)
    ensures |r| == |ws| && forall i :: 0 <= i < |ws| ==> r[i] == Lower(ws[i])
  {
    if ws == [] then [] else [Lower(ws[0])] + LowerAll(ws[1..])
  }

  /**
   * A conventionally written header word: non-empty, first character
   * already in upper case, the rest in lower case, with neither `_` nor `-`.
   */
  predicate IsHeaderWord(w: string) {
    && |w| > 0
    && UpperChar(LowerChar(w[0])) == w[0]
    && (forall i :: 1 <= i < |w| ==> LowerChar(w[i]) == w[i])
    && (forall i :: 0 <= i < |w| ==> w[i] != '_' && w[i] != '-')
  }

  /** The META key the server stores a header under: `HTTP_`, then the name upper-cased with `-` as `_`. */
  function MetaKey(words: seq<string>): (k: string)
    ensures IsPrefix("HTTP_", k)
  {
    var k := "HTTP_" + Join("_", UpperAll(words));
    assert k[..5] == "HTTP_";
    k
  }

  lemma {:induction false} LowerJoin(ws: seq<string>)
    ensures Lower(Join("_", ws)) == Join("_", LowerAll(ws))
    decreases |ws|
  {
    if |ws| > 1 {
      LowerJoin(ws[1..]);
      assert LowerAll(ws)[1..] == LowerAll(ws[1..]);
      LowerAppend(ws[0] + "_", Join("_", ws[1..]));
      LowerAppend(ws[0], "_");
    } else if |ws| == 1 {
      assert LowerAll(ws) == [Lower(ws[0])];
    }
  }

  lemma LowerAppend(a: string, b: string)
    ensures Lower(a + b) == Lower(a) + Lower(b)
  {
    var l, r := Lower(a + b), Lower(a) + Lower(b);
    forall i | 0 <= i < |a + b|
      ensures l[i] == r[i]
    {
      if i < |a| {
        assert (a + b)[i] == a[i];
      } else {
        assert (a + b)[i] == b[i - |a|];
      }
    }
  }

  lemma LowerUpperAll(words: seq<string>)
    ensures LowerAll(UpperAll(words)) == LowerAll(words)
  {
    forall i | 0 <= i < |words|
      ensures Lower(UpperAll(words)[i]) == Lower(words[i])
    {
      LowerUpper(words[i]);
    }
  }

  /** Lower-casing forgets an earlier upper-casing. */
  lemma LowerUpper(w: string)
    ensures Lower(Upper(w)) == Lower(w)
  {
    forall j | 0 <= j < |w|
      ensures Lower(Upper(w))[j] == Lower(w)[j]
    {
      LowerUpperChar(w[j]);
    }
  }

  lemma LowerUpperChar(c: char)
    ensures LowerChar(UpperChar(c)) == LowerChar(c)
  {
  }

  lemma LoweredWordsFree(words: seq<string>)
    requires forall i :: 0 <= i < |words| ==> IsHeaderWord(words[i])
    ensures forall i :: 0 <= i < |words| ==> '_' !in LowerAll(words)[i] && |LowerAll(words)[i]| > 0
  {
    forall i | 0 <= i < |words|
      ensures '_' !in LowerAll(words)[i]
    {
      var w := words[i];
      assert forall j :: 0 <= j < |w| ==> Lower(w)[j] == LowerChar(w[j]) && LowerChar(w[j]) != '_';
    }
  }

  lemma CapitalizeLowered(words: seq<string>)
    requires forall i :: 0 <= i < |words| ==> IsHeaderWord(words[i])
    ensures AllNonEmpty(LowerAll(words))
    ensures CapitalizeAll(LowerAll(words)) == words
  {
    var lowered := LowerAll(words);
    forall i | 0 <= i < |words|
      ensures |lowered[i]| > 0 && Capitalize(lowered[i]) == words[i]
    {
      var w := words[i];
      assert lowered[i][1..] == w[1..];
    }
  }

  /**
   * Formatting the META key of a conventionally written header gives the
   * header back.
   */
  lemma HeaderNameRoundTrip(words: seq<string>)
    requires |words| >= 1
    requires forall i :: 0 <= i < |words| ==> IsHeaderWord(words[i])
    ensures Formattable(MetaKey(words))
    ensures FormatHeaderName(MetaKey(words)) == Join("-", words)
  {
    var key := MetaKey(words);
    var lowered := LowerAll(words);
    assert key[5..] == Join("_", UpperAll(words));
    LowerJoin(UpperAll(words));
    LowerUpperAll(words);
    LoweredWordsFree(words);
    SplitJoin(lowered, '_');
    assert HeaderSegments(key) == lowered;
    CapitalizeLowered(words);
  }

  lemma ContentTypeWords()
    ensures IsHeaderWord("Content") && IsHeaderWord("Type")
  {
  }

  lemma ContentTypeKey()
    ensures MetaKey(["Content", "Type"]) == "HTTP_CONTENT_TYPE"
  {
    UpperContentType();
    JoinPair("_", "CONTENT", "TYPE");
    ContentTypeKeyText();
  }

  lemma UpperContentType()
    ensures UpperAll(["Content", "Type"]) == ["CONTENT", "TYPE"]
  {
    UpperContent();
    UpperType();
  }

  lemma ContentTypeKeyText()
    ensures "HTTP_" + ("CONTENT" + "_" + "TYPE") == "HTTP_CONTENT_TYPE"
  {
  }

  lemma UpperContent()
    ensures Upper("Content") == "CONTENT"
  {
    var u := Upper("Content");
    forall j | 0 <= j < 7
      ensures u[j] == "CONTENT"[j]
    {
    }
  }

  lemma UpperType()
    ensures Upper("Type") == "TYPE"
  {
    var t := Upper("Type");
    forall j | 0 <= j < 4
      ensures t[j] == "TYPE"[j]
    {
    }
  }

  /**
   * The usual example: `Content-Type` is stored under `HTTP_CONTENT_TYPE`
   * (see ContentTypeKey) and formats back to `Content-Type`.
   */
  lemma ContentTypeExample()
    ensures Formattable(MetaKey(["Content", "Type"])) && FormatHeaderName(MetaKey(["Content", "Type"])) == "Content-Type"
  {
    var ws := ["Content", "Type"];
    ContentTypeWords();
    assert forall i :: 0 <= i < |ws| ==> IsHeaderWord(ws[i]);
    HeaderNameRoundTrip(ws);
    ContentTypeJoin();
  }

  lemma ContentTypeJoin()
    ensures Join("-", ["Content", "Type"]) == "Content-Type"
  {
    JoinPair("-", "Content", "Type");
  }

  // ---------------------------------------------------------------------
  // Request headers
  // ---------------------------------------------------------------------

  /** The `Cookie` header: `k=v` pairs joined by `; `. */
  function CookieHeader(cookies: seq<(string, string)>): string {
    Join("; ", seq(|cookies|, i requires 0 <= i < |cookies| => cookies[i].0 + "=" + cookies[i].1))
  }

  predicate IsHttpKey(k: string) {
    IsPrefix("HTTP_", k)
  }

  /** Every `HTTP_` key of the META items can be formatted. */
  predicate HeadersFormattable(meta: seq<(string, string)>) {
    forall i :: 0 <= i < |meta| && IsHttpKey(meta[i].0) ==> Formattable(meta[i].0)
  }

  /** The headers of the `HTTP_` META items, a later item overriding an earlier one of the same name. */
  function MetaHeaders(meta: seq<(string, string)>): (h: map<string, string>)
    requires HeadersFormattable(meta)
    ensures forall i :: 0 <= i < |meta| && IsHttpKey(meta[i].0) ==> FormatHeaderName(meta[i].0) in h
    ensures forall k :: k in h ==> exists i :: 0 <= i < |meta| && IsHttpKey(meta[i].0) && FormatHeaderName(meta[i].0) == k && h[k] == meta[i].1
    decreases |meta|
  {
    if meta == [] then map[]
    else
      var init := meta[..|meta| - 1];
      var (k, v) := meta[|meta| - 1];
      assert forall i :: 0 <= i < |init| ==> init[i] == meta[i];
      var h := MetaHeaders(init);
      if IsHttpKey(k) then h[FormatHeaderName(k) := v] else h
  }

  /**
   * The headers forwarded to a renderer: the `HTTP_` META items under their
   * header names, and `Cookie` rebuilt from the request's cookies.
   */
  function GetRequestHeaders(meta: seq<(string, string)>, cookies: seq<(string, string)>): (h: map<string, string>)
    requires HeadersFormattable(meta)
    ensures "Cookie" in h && h["Cookie"] == CookieHeader(cookies)
    ensures forall i :: 0 <= i < |meta| && IsHttpKey(meta[i].0) ==> FormatHeaderName(meta[i].0) in h
    ensures forall k :: k in h && k != "Cookie" ==>
      exists i :: 0 <= i < |meta| && IsHttpKey(meta[i].0) && FormatHeaderName(meta[i].0) == k && h[k] == meta[i].1
  {
    MetaHeaders(meta)["Cookie" := CookieHeader(cookies)]
  }

  /**
   * The last `HTTP_` item of a name decides that header: appending one
   * overrides every earlier item that formats to the same name. Only the
   * `Cookie` header is rebuilt from the cookies instead.
   */
  lemma LastHeaderWins(meta: seq<(string, string)>, cookies: seq<(string, string)>, k: string, v: string)
    requires HeadersFormattable(meta) && IsHttpKey(k) && Formattable(k)
    ensures HeadersFormattable(meta + [(k, v)])
    ensures FormatHeaderName(k) != "Cookie" ==> GetRequestHeaders(meta + [(k, v)], cookies)[FormatHeaderName(k)] == v
    ensures GetRequestHeaders(meta + [(k, v)], cookies)["Cookie"] == CookieHeader(cookies)
  {
    var all := meta + [(k, v)];
    assert all[..|all| - 1] == meta;
    assert forall i :: 0 <= i < |meta| ==> all[i] == meta[i];
  }

  // ---------------------------------------------------------------------
  // str2bool
  // ---------------------------------------------------------------------

  /** The words `str2bool` accepts, in lower case. */
  const TRUE_WORDS: set<string> := {"yes", "true", "on", "1"}

  /**
   * True for `yes`, `true`, `on` and `1` in any letter case: never for
   * text longer than four characters, and for each accepted word as written.
   */
  function Str2Bool(value: string): (r: bool)
    ensures r ==> 1 <= |value| <= 4
    ensures value in TRUE_WORDS ==> r
    ensures r ==> Lower(value) in TRUE_WORDS
  {
    LowerKeepsTrueWords();
    Lower(value) in TRUE_WORDS
  }

  lemma LowerKeepsTrueWords()
    ensures forall w :: w in TRUE_WORDS ==> Lower(w) == w
  {
    assert Lower("yes") == "yes";
    assert Lower("true") == "true";
    assert Lower("on") == "on";
    assert Lower("1") == "1";
  }

  /** The conversion ignores letter case. */
  lemma Str2BoolIgnoresCase(a: string, b: string)
    requires Lower(a) == Lower(b)
    ensures Str2Bool(a) == Str2Bool(b)
  {
  }

  /** Upper-case spellings are accepted and other words are not. */
  lemma Str2BoolExamples()
    ensures Str2Bool("TRUE") && Str2Bool("Yes") && Str2Bool("On") && Str2Bool("1")
    ensures !Str2Bool("false") && !Str2Bool("") && !Str2Bool("y")
  {
    LowerTrue();
    LowerYes();
    LowerOn();
    assert Lower("1") == "1";
    assert Lower("false") == "false";
    assert Lower("y") == "y";
  }

  lemma LowerTrue()
    ensures Lower("TRUE") == "true"
  {
    var l := Lower("TRUE");
    assert l[0] == 't' && l[1] == 'r' && l[2] == 'u' && l[3] == 'e';
  }

  lemma LowerYes()
    ensures Lower("Yes") == "yes"
  {
    var l := Lower("Yes");
    assert l[0] == 'y' && l[1] == 'e' && l[2] == 's';
  }

  lemma LowerOn()
    ensures Lower("On") == "on"
  {
    var l := Lower("On");
    assert l[0] == 'o' && l[1] == 'n';
  }
}

=== FILE: unicore_job_manager.dfy ===
/**
 * The UNICORE job manager: submits a job to the UNICORE site, builds the
 * `input.sh` script that starts the renderer inside it, and reads the job's
 * status and stderr to learn the node's host name. Every REST round trip to
 * the site is a parameter holding what the site answered.
 */
module UnicoreJobManager {
  import opened Common
  import opened Text
  import opened Models
  import SettingsManager
  import opened JobCommon

  // ---------------------------------------------------------------------
  // Job status
  // ---------------------------------------------------------------------

  /** `is_running`: a job is running unless UNICORE reports it finished, either way. */
  predicate IsRunning(status: string) {
    status != "SUCCESSFUL" && status != "FAILED"
  }

  /** Exactly the two final statuses are not running. */
  lemma NotRunningExactlyWhenFinished(status: string)
    ensures !IsRunning(status) <==> status in {"SUCCESSFUL", "FAILED"}
  {
  }

  // ---------------------------------------------------------------------
  // Allocation
  // ---------------------------------------------------------------------

  /** What submitting the job gave: the job's URL, or the error the site raised. */
  datatype SubmitReply = Submitted(jobUrl: string) | Refused(error: string)

  /** The job description sent with the submission. */
  datatype JobDescription = JobDescription(applicationName: string, source: string, nodes: int)

  datatype AllocateOutcome = AllocateOutcome(session: Session, response: Response, description: JobDescription)

  /** `max(1, nb_nodes)`: the node count a job asks for. */
  function RequestedNodes(job: JobInformation): (n: int)
    ensures n >= 1
    ensures n >= job.nbNodes
    ensures n == 1 || n == job.nbNodes
  {
    if job.nbNodes > 1 then job.nbNodes else 1
  }

  /**
   * `allocate`: a refused submission answers 403 with the error and leaves
   * the session as it was; an accepted one records the job's URL as the job
   * id, marks the session scheduled and answers 200.
   */
  function Allocate(s: Session, job: JobInformation, reply: SubmitReply): (r: AllocateOutcome)
    ensures r.description.nodes == RequestedNodes(job)
    ensures r.description.applicationName == "Bash shell" && r.description.source == "input.sh"
    ensures r.response.code == HTTP_OK <==> reply.Submitted?
    ensures r.response.code == HTTP_FORBIDDEN <==> reply.Refused?
    ensures reply.Refused? ==> r.session == s && r.response.body == reply.error
    ensures reply.Submitted? ==>
      && r.session == s.(jobId := reply.jobUrl, status := Scheduled)
      && r.response.body == "Job submitted to " + reply.jobUrl
  {
    var description := JobDescription("Bash shell", "input.sh", RequestedNodes(job));
    match reply
    case Refused(e) => AllocateOutcome(s, Response(HTTP_FORBIDDEN, e), description)
    case Submitted(url) =>
      AllocateOutcome(s.(jobId := url, status := Scheduled),
                      Response(HTTP_OK, "Job submitted to " + url), description)
  }

  /** What reading the session's missing `configuration_id` attribute raises. */
  const CONFIGURATION_ID_ERROR := "'Session' object has no attribute 'configuration_id'"

  /** An allocation as written: its reply, or the exception that escaped after the job was submitted. */
  datatype AllocateResult =
    | AllocateAnswered(outcome: AllocateOutcome)
    | AllocateRaised(submittedJob: string, error: string)

  /**
   * `allocate` as written: after the site accepts the job, `submit` builds
   * the start script, which reads the session's `configuration_id` (the
   * session model has none) and passes a fifth argument to the four-
   * parameter template filler. The first of these raises an error that is
   * not the RuntimeError `allocate` catches, so it escapes with the job
   * already submitted and the session neither scheduled nor saved.
   */
  function AllocateAsWritten(s: Session, job: JobInformation, reply: SubmitReply): (r: AllocateResult)
    ensures reply.Refused? ==> r.AllocateAnswered? && r.outcome.response == Response(HTTP_FORBIDDEN, reply.error)
    ensures reply.Submitted? ==> r == AllocateRaised(reply.jobUrl, CONFIGURATION_ID_ERROR)
  {
    match reply
    case Refused(_) => AllocateAnswered(Allocate(s, job, reply))
    case Submitted(url) => AllocateRaised(url, CONFIGURATION_ID_ERROR)
  }

  /**
   * An accepted submission is lost as written: the job exists on the site,
   * yet the reply is an exception and no session records it; the corrected
   * allocation records the job and schedules the session.
   */
  lemma AllocateAsWrittenLosesJob(s: Session, job: JobInformation, url: string)
    ensures AllocateAsWritten(s, job, Submitted(url)).AllocateRaised?
    ensures AllocateAsWritten(s, job, Submitted(url)).submittedJob == url
    ensures Allocate(s, job, Submitted(url)).session.jobId == url
    ensures Allocate(s, job, Submitted(url)).session.status == Scheduled
  {
  }

  // ---------------------------------------------------------------------
  // The start script
  // ---------------------------------------------------------------------

  /** The five fixed lines the script opens with; the first carries the opening quote. */
  const PREAMBLE: seq<string> := [
    "\"#!/bin/sh",
    "HOSTNAME=$HOSTNAME",
    "unset LD_LIBRARY_PATH",
    "export " + "LD_LIBRARY_PATH=" + "/global/opt/" + "slurm/default/" + "lib64/",
    "module use " + "/gpfs/work/" + "pcp0/pcp0085/" + "x64/modulefiles"]

  lemma PreambleLineFree()
    ensures LineFree(PREAMBLE)
  {
    forall i | 0 <= i < |PREAMBLE|
      ensures '\n' !in PREAMBLE[i]
    {
      PreambleLineLineFree(i);
    }
  }

  lemma PreambleLineLineFree(i: nat)
    requires i < |PREAMBLE|
    ensures '\n' !in PREAMBLE[i]
  {
    if i == 3 {
      FivePiecesLineFree("export ", "LD_LIBRARY_PATH=", "/global/opt/", "slurm/default/", "lib64/");
    } else if i == 4 {
      FourPiecesLineFree("module use ", "/gpfs/work/", "pcp0/pcp0085/", "x64/modulefiles");
    }
  }

  lemma FivePiecesLineFree(a: string, b: string, c: string, d: string, e: string)
    requires '\n' !in a && '\n' !in b && '\n' !in c && '\n' !in d && '\n' !in e
    ensures '\n' !in a + b + c + d + e
  {
  }

  lemma FourPiecesLineFree(a: string, b: string, c: string, d: string)
    requires '\n' !in a && '\n' !in b && '\n' !in c && '\n' !in d
    ensures '\n' !in a + b + c + d
  {
  }

  /**
   * `_build_start_command_line`: the preamble, one module load per module,
   * the launch line, and the closing newline and quote.
   */
  function StartScript(settings: SettingsManager.RenderingResourceSettings, s: Session, job: JobInformation): (script: string)
    ensures IsPrefix(Lines(PREAMBLE), script)
    ensures IsSuffix(CLOSING, script)
  {
    Framed(Lines(PREAMBLE), ModuleLoads(Words(settings.modules)), LaunchLine(settings, s, job), CLOSING);
    Lines(PREAMBLE) + ModuleLoads(Words(settings.modules)) + LaunchLine(settings, s, job) + CLOSING
  }

  /** The line break and quote the script ends with. */
  const CLOSING := "\n\""

  /**
   * The script's lines are the five preamble lines, one `module load` line
   * per module in order, the launch line, and the closing quote alone on
   * the last line.
   */
  lemma StartScriptLines(settings: SettingsManager.RenderingResourceSettings, s: Session, job: JobInformation)
    requires '\n' !in settings.commandLine
    ensures Split(StartScript(settings, s, job), '\n') ==
      PREAMBLE + LoadLines(Words(settings.modules)) + [LaunchLine(settings, s, job), "\""]
  {
    var modules := Words(settings.modules);
    var launch := LaunchLine(settings, s, job);
    LaunchLineFree(settings, s, job);
    SplitSeparated(launch, '\n', "\"");
    SplitFree("\"", '\n');
    TokensLineFree(modules);
    SplitModuleLoads(modules, launch + "\n\"");
    PreambleLineFree();
    SplitLines(PREAMBLE, ModuleLoads(modules) + (launch + "\n\""));
    ScriptRegroup(Lines(PREAMBLE), ModuleLoads(modules), launch);
  }

  lemma ScriptRegroup(p: string, m: string, l: string)
    ensures p + m + l + "\n\"" == p + (m + (l + "\n\""))
    ensures l + "\n\"" == l + ['\n'] + "\""
  {
  }

  // ---------------------------------------------------------------------
  // Starting, stopping and the host name
  // ---------------------------------------------------------------------

  datatype StartOutcome = StartOutcome(session: Session, response: Response)

  /**
   * `start`: invoking the job's start action; the renderer counts as running
   * at once unless the settings ask to wait for it. A failed action answers
   * 400 and leaves the session unchanged.
   */
  function Start(settings: SettingsManager.RenderingResourceSettings, s: Session, actionError: Option<string>): (r: StartOutcome)
    ensures r.response.code == HTTP_OK <==> actionError.None?
    ensures r.response.code == HTTP_BAD_REQUEST <==> actionError.Some?
    ensures r.session.status != s.status ==> r.session.status == Running
    ensures r.session.status == Running <==> (s.status == Running || (actionError.None? && !settings.waitUntilRunning))
    ensures r.session.(status := s.status) == s
  {
    match actionError
    case Some(e) => StartOutcome(s, Response(HTTP_BAD_REQUEST, ContentsJson(e)))
    case None =>
      StartOutcome(if settings.waitUntilRunning then s else s.(status := Running),
                   Response(HTTP_OK, MessageJson(s.rendererId + " successfully started")))
  }

  /** The status code the site answers a job deletion with. */
  const HTTP_NO_CONTENT := 204

  /**
   * `stop`: the session is marked stopping and the job deleted; a deletion
   * the site does not acknowledge with 204 raises.
   */
  function Stop(s: Session, deleteCode: int, errorMessage: string): (r: (Session, Option<string>))
    ensures r.0 == Closing(s)
    ensures r.1.None? <==> deleteCode == HTTP_NO_CONTENT
  {
    (Closing(s), if deleteCode == HTTP_NO_CONTENT then None else Some("Error deleting job: " + errorMessage))
  }

  /** What a download of a site file gave: a status code and the content. */
  datatype Download = Download(code: int, content: string)

  /** Largest file `_get_file_content` downloads, in bytes. */
  const MAX_FILE_SIZE := 2048000

  datatype FileRead = FileRead(content: Option<string>, downloaded: bool)

  /**
   * `_get_file_content`: the file's size is looked up first (None when the
   * lookup fails) and a file larger than the limit is not downloaded; a
   * download yields the content only with status 200.
   */
  function GetFileContent(size: Option<int>, download: Download): (r: FileRead)
    ensures r.downloaded <==> size.Some? && size.value <= MAX_FILE_SIZE
    ensures r.content.Some? <==> r.downloaded && download.code == HTTP_OK
    ensures r.content.Some? ==> r.content.value == download.content
  {
    match size
    case None => FileRead(None, false)
    case Some(n) =>
      if n > MAX_FILE_SIZE then FileRead(None, false)
      else FileRead(if download.code == HTTP_OK then Some(download.content) else None, true)
  }

  /** The body of the job's status document, as far as `hostname` reads it. */
  datatype JobReply = EmptyBody | NoStatus | JobStatus(status: string)

  /** The call `hostname` makes on the job as a side effect. */
  datatype JobAction = NoAction | StartAction | StopAction

  datatype HostnameOutcome = HostnameOutcome(value: string, session: Session, action: JobAction, raised: Option<string>)

  /**
   * `hostname`: an empty body or a missing status gives no host; a READY job
   * is started and a finished one stopped, both giving no host; any other
   * status reads the job's stderr and takes the word after `HOSTNAME=`,
   * marking the session starting when it is found.
   */
  function Hostname(settings: SettingsManager.RenderingResourceSettings, s: Session, reply: JobReply,
                    actionError: Option<string>, deleteCode: int, deleteMessage: string,
                    logSize: Option<int>, log: Download): (r: HostnameOutcome)
    ensures r.action == StartAction <==> reply == JobStatus("READY")
    ensures r.action == StopAction <==> reply.JobStatus? && !IsRunning(reply.status)
    ensures r.action != NoAction ==> r.value == ""
    ensures r.value != "" ==> r.session == s.(status := Starting) && r.action == NoAction
    ensures r.action == NoAction && r.value == "" ==> r.session == s
    ensures r.value != "" ==>
      var read := GetFileContent(logSize, log);
      read.content.Some? && SearchWordAfter(read.content.value, "HOSTNAME=") == Some(r.value)
    ensures r.raised.Some? ==> r.action == StopAction
  {
    match reply
    case EmptyBody => HostnameOutcome("", s, NoAction, None)
    case NoStatus => HostnameOutcome("", s, NoAction, None)
    case JobStatus(status) =>
      if status == "READY" then
        HostnameOutcome("", Start(settings, s, actionError).session, StartAction, None)
      else if !IsRunning(status) then
        var stopped := Stop(s, deleteCode, deleteMessage);
        HostnameOutcome("", stopped.0, StopAction, stopped.1)
      else
        var read := GetFileContent(logSize, log);
        match read.content
        case None => HostnameOutcome("", s, NoAction, None)
        case Some(text) =>
          match SearchWordAfter(text, "HOSTNAME=")
          case None => HostnameOutcome("", s, NoAction, None)
          case Some(host) => HostnameOutcome(host, s.(status := Starting), NoAction, None)
  }

  /** A start as written: its reply, or the exception that escaped once the action had succeeded. */
  datatype StartAsWrittenResult =
    | StartAnswered(outcome: StartOutcome)
    | StartEscaped(session: Session, error: string)

  /**
   * `start` as written: once the job's start action succeeds, the settings
   * are looked up under the session's `configuration_id`, which the session
   * model has none of; the error is neither a RuntimeError nor an OSError,
   * so it escapes with the session unchanged. A failed action is still
   * answered 400.
   */
  function StartAsWritten(settings: SettingsManager.RenderingResourceSettings, s: Session, actionError: Option<string>): (r: StartAsWrittenResult)
    ensures actionError.Some? ==> r.StartAnswered? && r.outcome.response == Response(HTTP_BAD_REQUEST, ContentsJson(actionError.value))
    ensures actionError.Some? ==> r.outcome.session == s
    ensures actionError.None? ==> r == StartEscaped(s, CONFIGURATION_ID_ERROR)
  {
    match actionError
    case Some(e) => StartAnswered(Start(settings, s, actionError))
    case None => StartEscaped(s, CONFIGURATION_ID_ERROR)
  }

  /**
   * `hostname` as written: its READY branch calls the start as written,
   * whose error `hostname` does not catch; every other branch is `Hostname`.
   */
  function HostnameAsWritten(settings: SettingsManager.RenderingResourceSettings, s: Session, reply: JobReply,
                             actionError: Option<string>, deleteCode: int, deleteMessage: string,
                             logSize: Option<int>, log: Download): (r: HostnameOutcome)
    ensures reply == JobStatus("READY") && actionError.None? ==>
      r == HostnameOutcome("", s, StartAction, Some(CONFIGURATION_ID_ERROR))
    ensures !(reply == JobStatus("READY") && actionError.None?) ==>
      r == Hostname(settings, s, reply, actionError, deleteCode, deleteMessage, logSize, log)
  {
    if reply == JobStatus("READY") && actionError.None? then
      var started := StartAsWritten(settings, s, actionError);
      HostnameOutcome("", started.session, StartAction, Some(started.error))
    else Hostname(settings, s, reply, actionError, deleteCode, deleteMessage, logSize, log)
  }

  /**
   * A job whose start action succeeds never runs as written: the start
   * raises and leaves the session as it was, and so does the host lookup of
   * a READY job; the corrected start answers 200 and the corrected lookup
   * raises nothing.
   */
  lemma StartAsWrittenNeverRuns(settings: SettingsManager.RenderingResourceSettings, s: Session,
                                deleteCode: int, deleteMessage: string, logSize: Option<int>, log: Download)
    ensures StartAsWritten(settings, s, None).StartEscaped?
    ensures StartAsWritten(settings, s, None).session == s
    ensures var h := HostnameAsWritten(settings, s, JobStatus("READY"), None, deleteCode, deleteMessage, logSize, log);
      h.raised == Some(CONFIGURATION_ID_ERROR) && h.session == s
    ensures Start(settings, s, None).response.code == HTTP_OK
    ensures Hostname(settings, s, JobStatus("READY"), None, deleteCode, deleteMessage, logSize, log).raised.None?
  {
  }


  /**
   * A job the site accepted and whose start action succeeds is recorded on
   * the session and runs at once, or stays scheduled until its host is
   * known when the settings ask to wait.
   */
  lemma AllocateThenStart(settings: SettingsManager.RenderingResourceSettings, s: Session, job: JobInformation, url: string)
    ensures var a := Allocate(s, job, Submitted(url));
      var r := Start(settings, a.session, None);
      && r.response.code == HTTP_OK
      && r.session.jobId == url
      && (r.session.status == Running <==> !settings.waitUntilRunning)
      && (settings.waitUntilRunning ==> r.session.status == Scheduled)
    ensures var a := Allocate(s, job, Submitted(url));
      StartAsWritten(settings, a.session, None) == StartEscaped(a.session, CONFIGURATION_ID_ERROR)
  {
  }

  /** Stopping twice is stopping once: the session is STOPPING either way. */
  lemma StopIdempotent(s: Session, deleteCode: int, errorMessage: string)
    ensures Stop(Stop(s, deleteCode, errorMessage).0, deleteCode, errorMessage) == Stop(s, deleteCode, errorMessage)
  {
  }

  /** Asking a finished job for its host stops it exactly as `stop` does, and gives no host. */
  lemma FinishedJobIsStopped(settings: SettingsManager.RenderingResourceSettings, s: Session, status: string,
                             actionError: Option<string>, deleteCode: int, deleteMessage: string,
                             logSize: Option<int>, log: Download)
    requires !IsRunning(status)
    ensures var r := Hostname(settings, s, JobStatus(status), actionError, deleteCode, deleteMessage, logSize, log);
      && r.value == "" && r.action == StopAction
      && (r.session, r.raised) == Stop(s, deleteCode, deleteMessage)
  {
  }

  /**
   * A running job whose log is over the download limit never reports a
   * host, whatever the log holds: the session stays as it was.
   */
  lemma OversizedLogGivesNoHost(settings: SettingsManager.RenderingResourceSettings, s: Session, status: string,
                                actionError: Option<string>, deleteCode: int, deleteMessage: string,
                                size: int, log: Download)
    requires IsRunning(status) && status != "READY" && size > MAX_FILE_SIZE
    ensures var r := Hostname(settings, s, JobStatus(status), actionError, deleteCode, deleteMessage, Some(size), log);
      r.value == "" && r.session == s && r.action == NoAction
  {
  }

  /**
   * A running job whose downloadable log names its host after `HOSTNAME=`
   * reports that host and moves the session to STARTING.
   */
  lemma LoggedHostIsReported(settings: SettingsManager.RenderingResourceSettings, s: Session, status: string,
                             actionError: Option<string>, deleteCode: int, deleteMessage: string,
                             size: int, text: string, host: string)
    requires IsRunning(status) && status != "READY" && size <= MAX_FILE_SIZE
    requires SearchWordAfter(text, "HOSTNAME=") == Some(host)
    ensures var r := Hostname(settings, s, JobStatus(status), actionError, deleteCode, deleteMessage, Some(size), Download(HTTP_OK, text));
      r.value == host && r.session == s.(status := Starting)
  {
  }
}

=== FILE: viewer_form.dfy ===
/**
 * The viewer page's form: choosing a renderer in the selector resets the
 * data source and environment fields, fills in the renderer's default
 * parameters, and enables the brayns-only rendering options for brayns
 * alone. Both copies of the viewer page (the application's and the older
 * stand-alone one) do exactly this.
 */
module ViewerForm {

  /** The fields and checkboxes of the form; `…Disabled` are the checkboxes' disabled states. */
  datatype Controls = Controls(
    dataSource: string,
    dataSourceType: string,
    params: string,
    environment: string,
    ambientOcclusionDisabled: bool,
    shadingDisabled: bool,
    softShadowsDisabled: bool,
    ambientOcclusion: bool,
    shading: bool,
    softShadows: bool,
    electronShading: bool,
    productionQuality: bool,
    snapshotResolution: string,
    continuousRendering: bool)

  /** The parameters rtneuron starts with. */
  const RTNEURON_PARAMS := "--no-cuda --target MiniColumn_2 --idle-AA 1"

  /** The data source type the form falls back to. */
  const UNKNOWN_TYPE := "unknown"

  /**
   * `populateParams`: the data source is cleared and its type set to
   * unknown; then, per renderer, the parameters get their default, the
   * three brayns options are enabled only for brayns, and the environment
   * is cleared.
   */
  function PopulateParams(c: Controls, value: string): (r: Controls)
    ensures r.dataSource == "" && r.dataSourceType == UNKNOWN_TYPE && r.environment == ""
    ensures r.params == (if value == "rtneuron" then RTNEURON_PARAMS else "")
    ensures r.ambientOcclusionDisabled == r.shadingDisabled == r.softShadowsDisabled
    ensures !r.ambientOcclusionDisabled <==> value == "brayns"
  {
    var cleared := c.(dataSource := "", dataSourceType := UNKNOWN_TYPE);
    match value
    case "brayns" =>
      cleared.(params := "", ambientOcclusionDisabled := false, shadingDisabled := false,
               softShadowsDisabled := false, environment := "")
    case "rtneuron" =>
      cleared.(params := RTNEURON_PARAMS, ambientOcclusionDisabled := true, shadingDisabled := true,
               softShadowsDisabled := true, environment := "")
    case "livre" =>
      cleared.(params := "", ambientOcclusionDisabled := true, shadingDisabled := true,
               softShadowsDisabled := true, environment := "")
    case _ =>
      cleared.(params := "", ambientOcclusionDisabled := true, shadingDisabled := true,
               softShadowsDisabled := true, environment := "")
  }

  /** The fields `populateParams` writes, as one record of the form with those fields taken from `from`. */
  function WithWrittenFields(c: Controls, from: Controls): Controls {
    c.(dataSource := from.dataSource, dataSourceType := from.dataSourceType, params := from.params,
       environment := from.environment, ambientOcclusionDisabled := from.ambientOcclusionDisabled,
       shadingDisabled := from.shadingDisabled, softShadowsDisabled := from.softShadowsDisabled)
  }

  /**
   * Nothing but the written fields changes: the checkboxes' own states, the
   * electron shading and production quality options, the resolution and the
   * continuous rendering choice are kept.
   */
  lemma NothingElseChanges(c: Controls, value: string)
    ensures var r := PopulateParams(c, value);
      && r == WithWrittenFields(c, r)
      && r.ambientOcclusion == c.ambientOcclusion && r.shading == c.shading && r.softShadows == c.softShadows
      && r.electronShading == c.electronShading && r.productionQuality == c.productionQuality
  {
  }

  /** livre and an unrecognised renderer leave the form in the same state. */
  lemma LivreIsTheDefault(c: Controls, value: string)
    requires value != "brayns" && value != "rtneuron"
    ensures PopulateParams(c, value) == PopulateParams(c, "livre")
  {
  }

  /** Only the last selection matters: every written field is overwritten by each selection. */
  lemma LastSelectionWins(c: Controls, first: string, second: string)
    ensures PopulateParams(PopulateParams(c, first), second) == PopulateParams(c, second)
  {
  }

  /** Selecting the same renderer twice changes nothing the second time. */
  lemma SelectionIdempotent(c: Controls, value: string)
    ensures PopulateParams(PopulateParams(c, value), value) == PopulateParams(c, value)
  {
    LastSelectionWins(c, value, value);
  }
}
